=== FILE: README.md ===
# SRRI update checker: a Dafny model of its core

The system checks whether the SRRI published in a fund's KIID documents agrees with a
weekly SRRI monitoring workbook. SRRI is the synthetic risk and reward indicator, a
category from 1 to 7. It has three steps.

1. **Permalink manifest parser** (`process_permalink_file`, plus the v3 variant
   `process_and_extract_permalink_file`). The manifest is a CSV export of document
   permalinks. The parser keeps the English KIID and Fact Sheet lines for UK investors.
   From each KIID line it takes the fund name, the share class, the ISIN and the KIID URL.
   It attaches the Fact Sheet URL of the same ISIN. It then derives a letters-only share
   class identifier and keeps the first row per identifier.
   - The v3 variant also fetches every KIID and reads the SRRI ("Risk_Reward_Ranking") and
     the ongoing charges ("Management_Fee") from it.
   - It also fetches every Fact Sheet and reads the share class inception date from it.
2. **Monitoring reducer** (`process_monitoring_file`, versions 1 and 2). The workbook's
   first row holds week labels and its second row column captions. The reducer combines
   them into headers and names each unlabelled "SRRI Result" column after the
   "SRRI Report" column before it. Each share class is then reduced to:
   - whether its SRRI ever changed;
   - the previous and the latest SRRI;
   - the week of the change.

   Only changed share classes are kept: the most recently validated row per identifier.
   - Version 2 cuts the week down to "Week n" and converts the types.
   - Version 2 deduplicates a second time, and renames the columns to
     UPPER_CASE_WITH_UNDERSCORES.
3. **Comparer** (`compare_srri_values`, second version). It normalises both tables' column
   labels and checks the required columns. It inner-joins the permalink table with the
   monitoring table on IDENTIFIER. It keeps the rows whose KIID_SRRI differs from
   LATEST_SRRI and selects the report columns that exist.

The Dafny modules follow that structure:

- `Results`: `Option` and `Result`. A `Failure` stands for an exception.
- `Text`: the Python `str` operations the code uses. These are `strip`, `strip('"')`,
  `split`, `splitlines`, `lower`, `upper` and `replace`.
- `Sequences`:
  - the pandas row operations: boolean filtering, `apply`,
    `drop_duplicates(keep="first")` and `sort_values(ascending=False)` with NaT last;
  - the "first pattern that matches" loop.
- `Identifier`:
  - the two `clean_alpha_only` normalisers of the permalink parsers (v1 and v3 differ
    only in the glyph set they delete);
  - the two `generate_identifier` rules of the monitoring reducers.
- `Manifest`: the permalink parser, up to the deduplicated frame.
- `Extraction`: the v3 KIID / Fact Sheet extraction and the v3 pipeline.
  - The HTTP fetch and the PDF text readers are parameters (`Readers`).
  - The regular expressions that run on PDF text are parameters too (`KiidMatchers`,
    `InceptionMatchers`).
  - The model fixes only the order in which the source consults them.
- `Monitoring`: the workbook reducer, version 1, and the steps version 2 shares with it.
- `MonitoringV2`: what version 2 does differently.
- `Reconcile`: the comparer over tables of labelled columns. It also covers how the
  application composes the three steps (`app_v3.py` lines 22, 29 and 60):
  - the v3 permalink frame;
  - the v2 monitoring frame;
  - the comparer.

Dates, and the numbers the reducer parses from cells, come in through function
parameters: `parseDate` and `toNumber`.

## Model

| member | source | states |
|---|---|---|
| Text.Strip | logic/permalink_transformation.py:45-47 | The result is the input with a run of whitespace removed at each end, and nothing else: it is a slice of the input, outside which there is only whitespace, and it neither begins nor ends with whitespace. |
| Text.StripTrimmed | logic/compare_and_export_v2.py:21 | Stripping a label that has no surrounding whitespace leaves it unchanged. |
| Text.StripQuotes | logic/permalink_transformation.py:43 | `strip('"')` removes the runs of double quotes at both ends and nothing else: the result is a slice of the line with only quotes outside it, and it neither starts nor ends with one. |
| Text.StripQuotesOfQuoted | logic/permalink_transformation.py:43 | `strip('"')` of a text wrapped in one pair of quotes gives back the text, when it neither starts nor ends with a quote. |
| Text.SplitOn | logic/permalink_transformation.py:43 | `split(',')` yields one more field than there are commas. No field contains a comma, and joining the fields with commas gives back the line. |
| Text.SplitJoinRoundTrip | logic/permalink_transformation.py:43 | Splitting a comma-joined list of comma-free fields returns exactly those fields. |
| Text.LastField | logic/srri_monitoring_transformation.py:37 | The last field of `split` is the text after the last separator. |
| Text.SplitLinesNoBreaks | logic/permalink_transformation.py:8 | No line returned by `splitlines` contains a line-break character. |
| Text.SplitLinesConcat | logic/permalink_transformation.py:8 | Concatenating the lines gives back the content without its line-break characters. Nothing else is lost or reordered. |
| Text.SplitLines | logic/permalink_transformation.py:8 | `splitlines` over the content; where it cuts is fixed by SplitLinesOfLine, SplitLinesAtBreak and SplitLinesAtCrLf, and what the lines hold by SplitLinesNoBreaks and SplitLinesConcat. |
| Text.SplitLinesOfLine | logic/permalink_transformation_v3.py:18 | Text without a line boundary is a single line; the empty text has no line. |
| Text.SplitLinesAtBreak | logic/permalink_transformation.py:8 | The first line ends at the first boundary character, which is dropped, and the rest is split on its own. A `\r` is one boundary unless a `\n` follows it. |
| Text.SplitLinesAtCrLf | logic/permalink_transformation_v3.py:18 | `\r\n` is a single boundary: the line before it is followed directly by the lines after it, with no empty line between. |
| Text.Lower | logic/permalink_transformation.py:84 | `lower` maps each character on its own and keeps the length. |
| Text.LowerIdempotent | logic/permalink_transformation.py:84 | Lower-casing twice is the same as lower-casing once. |
| Text.Upper | logic/compare_and_export_v2.py:22 | After `upper` no lower-case letter remains. The result is at least as long as the input, because `ß` becomes `SS`. |
| Text.UpperAppend | logic/compare_and_export_v2.py:22 | `upper` distributes over concatenation. |
| Text.UpperOfAscii | logic/compare_and_export_v2.py:22 | On ASCII text `upper` maps each character on its own. |
| Text.ReplaceChar | logic/compare_and_export_v2.py:23-24 | Replacing one character by another changes exactly the positions that held it. |
| Text.ReplaceOneChar | logic/compare_and_export_v2.py:23-24 | `str.replace` with one-character arguments is that position-wise replacement. |
| Text.ReplaceAll | logic/permalink_transformation.py:87-88 | `str.replace`; its result is fixed by ReplaceAllAbsent, ReplaceAllLeftmost and ReplaceAllChars for a non-empty pattern, and by RemoveEmpty for the empty pattern the monitoring rule reaches. |
| Text.ReplaceAllAbsent | logic/permalink_transformation.py:87-88 | A text without the pattern is left unchanged. |
| Text.ReplaceAllLeftmost | logic/permalink_transformation.py:87-88 | `replace` cuts the text at the leftmost occurrence of the pattern, puts the replacement there and carries on after the occurrence: one left-to-right pass. |
| Text.ReplaceAllChars | logic/permalink_transformation.py:87-88 | Every character of the result comes from the input or from the replacement. |
| Text.RemoveEmpty | logic/permalink_transformation.py:87-88 | Replacing the empty pattern by the empty text leaves the text unchanged. |
| Text.UnderscoredTwice | logic/compare_and_export_v2.py:19-25 | On ASCII labels the upper-case-and-underscore renaming is idempotent. |
| Text.Filter | logic/permalink_transformation.py:95 | `re.sub` of a negated character class keeps only characters of the class, each taken from the input. With FilterAppend, FilterAll and FilterNone this fixes the result. |
| Text.FilterAppend | logic/permalink_transformation.py:95 | Filtering distributes over concatenation. |
| Text.FilterAll | logic/permalink_transformation.py:95 | Filtering text whose characters all pass the test leaves it unchanged. |
| Text.FilterNone | logic/permalink_transformation.py:95 | Filtering text none of whose characters pass the test leaves nothing. |
| Sequences.Keep | logic/srri_monitoring_transformation.py:158 | Boolean row selection keeps only rows satisfying the test. |
| Sequences.KeepMembers | logic/srri_monitoring_transformation.py:158 | A row survives the selection if and only if it was a row and passes the test. |
| Sequences.KeepAll | logic/srri_monitoring_transformation.py:158 | Selecting with a test every row passes changes nothing. |
| Sequences.KeepAppend | logic/srri_monitoring_transformation.py:158 | Selecting from a longer list extends the selection by the new row if it passes: order and repetitions are kept. |
| Sequences.Map | logic/permalink_transformation.py:102 | `apply` gives one result per row, in row order. |
| Sequences.MapMembers | logic/permalink_transformation.py:102 | A value is in the applied column if and only if it is the image of some row. |
| Sequences.KeepFirstSpec | logic/permalink_transformation.py:105 | `drop_duplicates(keep="first")`: the survivors have distinct keys, and each is the first row of its key. They keep their original order, and every key of the input survives. |
| Sequences.FirstOfDeduplicated | logic/permalink_transformation.py:75 | After deduplication the first row of a key is still the original first row of that key. |
| Sequences.KeepFirstOfUnique | logic/srri_monitoring_transformation_v2.py:152 | Deduplicating rows whose keys are already distinct changes nothing. |
| Sequences.SortDesc | logic/srri_monitoring_transformation.py:171 | The sort is a permutation of the rows, ordered by descending date with missing dates last. |
| Sequences.SortSorted | logic/srri_monitoring_transformation_v2.py:151 | Sorting rows that are already in that order leaves them as they are. |
| Sequences.FirstHit | logic/permalink_transformation_v3.py:143-147 | The loop over patterns yields a value if and only if some pattern matches. The value comes from the first pattern that matches. |
| Manifest.StripBom | logic/permalink_transformation.py:7 | Decoding as `utf-8-sig` drops a leading byte order mark and nothing else. |
| Manifest.IsKiidLine | logic/permalink_transformation.py:14-19 | A line is a KIID line when it mentions "UCITS KIID", "KIID.pdf", "English" and either UK investor type. KiidRecordsOfOneLine states how the scan uses it. |
| Manifest.IsFactSheetLine | logic/permalink_transformation.py:26-31 | A line is a Fact Sheet line when it mentions "Fact Sheet", "FactSheet.pdf", "English" and either UK investor type. FactSheetRowsOfOneLine states how the scan uses it. |
| Manifest.FindUrl | logic/permalink_transformation.py:37-38 | The search `https?://\S+?KIID\.pdf` finds nothing if and only if no position starts a match. Otherwise it returns the match at the leftmost position where one starts, running from there to the end UrlEnd gives (the shortest, by UrlEndShortest); that text starts with "http" and ends with the suffix. |
| Manifest.UrlEndShortest | logic/permalink_transformation.py:37 | The lazy `\S+?` ends a match at the first occurrence of the suffix at least one character past the scheme, with no whitespace before it. |
| Manifest.UrlShape | logic/permalink_transformation.py:37 | Any match of the URL pattern starts with "http", ends with the suffix, and is text of the line. |
| Manifest.UrlStart | logic/permalink_transformation.py:37 | The search reports the leftmost position at which the pattern matches. |
| Manifest.FindIsin | logic/permalink_transformation.py:40-41 | The ISIN search finds nothing if and only if no word-bounded `IE` plus ten upper-case letters or digits occurs. Otherwise it returns the 12-character word at the leftmost position where such an ISIN starts. |
| Manifest.ShareClassOf | logic/permalink_transformation.py:48 | The share class is the third field when the fourth starts with "IE". Otherwise it is "third - fourth": it starts with the third field, continues with " - " and ends with the fourth, with nothing else between. |
| Manifest.KiidRecordOf | logic/permalink_transformation.py:43-56 | A KIID line gives a record if and only if it has at least four comma fields after quote stripping. The record keeps the line, its ISIN and its KIID URL. |
| Manifest.KiidRecordOfFields | logic/permalink_transformation.py:43-48 | For any line whose quote-stripped text is made of four or more comma-free fields, quoted or not, the record exists, its fund name is the stripped second field and its share class is built from the stripped third and fourth fields. |
| Manifest.QuotedKiidLine | logic/permalink_transformation.py:43-48 | A line quoted as a whole parses into the fields between the quotes: the fund name and share class come from them as for an unquoted line. |
| Manifest.FactSheetRowOf | logic/permalink_transformation.py:62-73 | A Fact Sheet line gives a row if and only if it carries an ISIN. The row holds that ISIN and the line's Fact Sheet URL. |
| Manifest.KiidRecords | logic/permalink_transformation.py:11-56 | A raw line yields at most one KIID record. |
| Manifest.FactSheetRows | logic/permalink_transformation.py:23-73 | A raw line yields at most one Fact Sheet row. |
| Manifest.KiidRecordsAppend | logic/permalink_transformation.py:11-56 | The records of a concatenation are the records of each part, in order, because the lines are filtered independently. |
| Manifest.KiidRecordsOfOneLine | logic/permalink_transformation.py:11-56 | A single line gives a record if and only if it is an English UK KIID line whose stripped text has at least three commas after quote stripping. That record is the one its stripped line parses to; any other line gives none. |
| Manifest.FactSheetRowsAppend | logic/permalink_transformation.py:23-73 | The Fact Sheet rows of a concatenation are the rows of each part, in order. |
| Manifest.FactSheetRowsOfOneLine | logic/permalink_transformation.py:23-73 | A single line gives a Fact Sheet row if and only if it is an English UK Fact Sheet line whose stripped text holds an ISIN, and the row is that line's. |
| Manifest.FactSheetUrlFor | logic/permalink_transformation.py:75-78 | The URL the left merge attaches: that of the first Fact Sheet row with the record's ISIN, missing without one. DeduplicatedFactSheetsSameUrl and Merged state it. |
| Manifest.DeduplicatedFactSheetsSameUrl | logic/permalink_transformation.py:75-78 | Deduplicating the Fact Sheet rows on ISIN before the left merge does not change the URL the merge attaches to any ISIN. |
| Manifest.Merged | logic/permalink_transformation.py:78-102 | A merged row keeps the KIID record's fields, carries the Fact Sheet URL the left merge attaches to its ISIN, and its identifier is the normalised share class, which consists of lower-case letters only. |
| Manifest.MergeAll | logic/permalink_transformation.py:78 | The left merge gives exactly one row per KIID record, in record order. |
| Manifest.ProcessLines | logic/permalink_transformation.py:58-78 | The parser fails if and only if there is no KIID record or no Fact Sheet row. Without either, the frame has no ISIN column and the merge raises. |
| Manifest.ProcessPermalinkFile | logic/permalink_transformation.py:7-8 | The file parser is the line parser applied to the BOM-stripped content cut into lines, and fails under the same condition. |
| Manifest.ProcessLinesSpec | logic/permalink_transformation.py:102-105 | On success, identifiers are unique and each surviving row is the first merged row of its identifier. Every identifier of the merged rows survives, and there are between one and as many rows as KIID records. |
| Identifier.RemoveGlyphs | logic/permalink_transformation.py:86 | No character of the glyph set remains. |
| Identifier.LettersOnly | logic/permalink_transformation.py:95 | Only lower-case ASCII letters remain. |
| Identifier.HedgeMatch | logic/permalink_transformation.py:91 | The search for three letters, optional whitespace and "(hedged)" reports the leftmost match, or none when there is none anywhere. |
| Identifier.HedgeSuffix | logic/permalink_transformation.py:90-93 | The suffix is empty if and only if there is no match. Otherwise it is the three matched letters followed by "hedged". |
| Identifier.CleanAlphaOnly | logic/permalink_transformation.py:81-100 | A missing name gives "". Otherwise the key is lower-case letters only. With a hedge match it is the letters of the prepared name followed by the three matched letters and "hedged"; otherwise it is the letters of the prepared name. |
| Identifier.CleanAlphaOnlyIgnoresCase | logic/permalink_transformation.py:84 | The key of a name equals the key of its lower-cased form. |
| Identifier.CleanAlphaOnlyNotIdempotent | logic/permalink_transformation.py:86-95 | The normaliser is not idempotent. "ac-cu" gives "accu", and normalising "accu" again gives "acc". |
| Identifier.WithCurrency | logic/srri_monitoring_transformation.py:119-124 | The key ends with the currency, and everything before it is lower-case letters. WithCurrencyAbsent and WithCurrencyLeftmost fix what those letters are. |
| Identifier.WithCurrencyAbsent | logic/srri_monitoring_transformation.py:117-124 | When the letters of the name do not contain the currency, the key is those letters followed by the currency. |
| Identifier.WithCurrencyLeftmost | logic/srri_monitoring_transformation.py:117-124 | The removal cuts at the leftmost occurrence of the currency and continues after it. |
| Identifier.WithCurrencyOnePass | logic/srri_monitoring_transformation.py:121 | The removal is one pass: "uusdsd" with currency "usd" keeps an "usd" formed by the removal, giving "usdusd". |
| Identifier.MonitoringIdV1 | logic/srri_monitoring_transformation.py:98-130 | A missing share class gives "". A missing currency makes `.lower()` raise. Otherwise the key is the prepared name with the lower-cased currency moved to its end, then "hedged" if the lower-cased original name carries the hedge annotation. |
| Identifier.MonitoringIdV2 | logic/srri_monitoring_transformation_v2.py:74-84 | As version 1, except that the key ends with the currency followed by the full hedge suffix of the prepared name. |
| Identifier.MonitoringIdsIgnoreCase | logic/srri_monitoring_transformation.py:102-121 | Both identifier rules give the same key for a share class and currency as for their lower-cased forms. |
| Identifier.MonitoringVersionsCompared | logic/srri_monitoring_transformation_v2.py:79-83 | For every name and currency, version 2 is version 1 with its trailing "hedged" (present when the lower-cased original name carries the annotation) replaced by the hedge suffix of the prepared name. When neither test matches, the two agree. |
| Identifier.HedgeTestsDisagree | logic/srri_monitoring_transformation_v2.py:76-80 | The two hedge tests can disagree: "Class (Hedged)" matches on the lower-cased original, which version 1 tests, but not on the prepared name, which version 2 tests, because "class " is removed first. |
| Extraction.ExtractSrriAndFee | logic/permalink_transformation_v3.py:111-161 | When there is no URL, or the fetch or a reader fails, both figures are missing. The layout text's SRRI-after-marker and fee are used when both are found. Otherwise the plain text supplies each missing figure: the SRRI from the first fallback pattern that matches, the fee from the same ongoing charges search. |
| Extraction.LayoutFiguresWin | logic/permalink_transformation_v3.py:132-136 | A figure found in the layout text is never replaced. When both figures are found there, the plain-text reader does not matter. |
| Extraction.FallbackOrder | logic/permalink_transformation_v3.py:136-147 | Without an SRRI after the marker, an SRRI is found if and only if some fallback pattern matches the plain text. It is the value of the first such pattern. |
| Extraction.ExtractInceptionDate | logic/permalink_transformation_v3.py:164-187 | A missing URL or a non-"http" one gives no date. For a link, a failed fetch, a failed reader or no match gives no date, and otherwise the date is the ISO form of the matched text. |
| Extraction.NonLinksAreNotFetched | logic/permalink_transformation_v3.py:167-168 | For a missing URL or a non-link, the result does not depend on the readers, so nothing is fetched. |
| Extraction.Extracted | logic/permalink_transformation_v3.py:191-196 | The extracted row keeps the permalink row, takes its figures from the KIID extraction of its KIID URL and its date from the inception extraction of its Fact Sheet URL. So KIID figures appear only for a row with a KIID URL, and a date only for an "http" Fact Sheet URL. |
| Extraction.ExtractAll | logic/permalink_transformation_v3.py:191-196 | The `apply` calls give one extracted row per parsed row, in row order, each the extraction of its row. |
| Extraction.ProcessAndExtract | logic/permalink_transformation_v3.py:18-196 | The v3 pipeline fails exactly when its parser does. Otherwise it extends each parsed row, in order, with its extracted figures. |
| Extraction.ExtractedIdentifiersUnique | logic/permalink_transformation_v3.py:107-108 | The rows returned by the v3 pipeline have pairwise distinct identifiers. |
| Monitoring.HeaderOf | logic/srri_monitoring_transformation.py:21-25 | A column without a week keeps its caption. Otherwise its header is the caption (NaN shown as "nan") followed by " (week)". |
| Monitoring.Headers | logic/srri_monitoring_transformation.py:20-25 | There is one header per sheet column, and column c's header combines the week and caption cells of column c. |
| Monitoring.HeaderWeekRoundTrip | logic/srri_monitoring_transformation.py:21-37 | The relabel loop's week context of a built header is the week it was built with, for a week without parentheses or surrounding whitespace. |
| Monitoring.HeaderTexts | logic/srri_monitoring_transformation.py:35-36 | The relabel scan can proceed if and only if every header is text. A NaN header makes the `in` test raise. |
| Monitoring.LastReportBefore | logic/srri_monitoring_transformation.py:35-37 | Finds the nearest "SRRI Report" column before a given column, or states that there is none. |
| Monitoring.Relabel | logic/srri_monitoring_transformation.py:31-44 | The relabel loop keeps one label per column; which labels it renames is stated by RelabelSpec. |
| Monitoring.RelabelSpec | logic/srri_monitoring_transformation.py:31-44 | Relabelling keeps the column count. A column is renamed only when it is exactly "SRRI Result", a report column precedes it and that column's week context is non-empty. It then becomes "SRRI Result (context)". |
| Monitoring.SrriColumns | logic/srri_monitoring_transformation.py:47 | The SRRI columns of the relabelled header are exactly those whose header contains "SRRI Result (Week", each once, in increasing order. |
| Monitoring.SrriColumnsFrom | logic/srri_monitoring_transformation.py:47 | The SRRI columns are exactly the columns whose header contains "SRRI Result (Week", in increasing order. |
| Monitoring.Observed | logic/srri_monitoring_transformation.py:58 | `dropna` keeps exactly the filled SRRI cells, with their values and columns. |
| Monitoring.ObservedInOrder | logic/srri_monitoring_transformation.py:58-60 | Read from increasing columns, the observations are in increasing column order, so the last one is the latest week. |
| Monitoring.LastDiffering | logic/srri_monitoring_transformation.py:69 | Finds the last earlier value that differs from the latest one, or states that all agree. |
| Monitoring.ChangeInfoOf | logic/srri_monitoring_transformation.py:57-73 | No values gives nothing. Otherwise the latest value is the last one. With no earlier different value, previous equals latest and there is no week. Otherwise previous differs from latest and the week is the column where the final run of the latest value starts. |
| Monitoring.ChangeDate | logic/srri_monitoring_transformation.py:74-76 | The change date is the cell under the "SRRI Report" column named after the change week, or missing when there is no such column. Neither version selects it into its summary (lines 138-152, and lines 92-105 of version 2), so no output depends on it. |
| Monitoring.Stable | logic/srri_monitoring_transformation.py:50-52 | `nunique() == 1`: at least one value, all equal; StableIffNoChangeWeek relates it to the change week. |
| Monitoring.StableIffNoChangeWeek | logic/srri_monitoring_transformation.py:50-77 | `nunique() == 1` holds if and only if there is at least one value and no change week. |
| Monitoring.ChangeAtFourthWeek | logic/srri_monitoring_transformation.py:67-77 | For 3, 3, 3, 4 the change is from 3 to 4 in the fourth SRRI column. |
| Monitoring.ChangeBackToEarlierValue | logic/srri_monitoring_transformation.py:67-77 | For 3, 4, 3 the previous value is 4 and the change week is the last column. The change week is where the final run begins, not the first week that differs. |
| Monitoring.IndexOf | logic/srri_monitoring_transformation.py:133-135 | Finds the first column with a label, or states that there is none. |
| Monitoring.Get | logic/srri_monitoring_transformation.py:133-135 | `row.get(name, "")` yields "" when the column does not exist. Otherwise it yields the cell under the first column of that name, missing for NaN. |
| Monitoring.CellOf | logic/srri_monitoring_transformation.py:151-152 | Selecting a column yields the cell under the first column of that name, blank when there is none. |
| Monitoring.Identifiers | logic/srri_monitoring_transformation.py:133-135 | The identifiers are computed for every data row, in order. The step fails if and only if some row's rule raises, and it fails with the blank-currency error. |
| Monitoring.MissingOf | logic/srri_monitoring_transformation.py:152 | These are exactly the selected columns the sheet lacks, whose selection raises. |
| Monitoring.ReduceRow | logic/srri_monitoring_transformation.py:138-155 | The reduced row carries its identifier and the row's Fund, Sub-Fund, Share Class, Currency and validation date cells. It is flagged changed if and only if its SRRI values are not all one value, and its change fields are those of its SRRI observations. |
| Monitoring.Reduce | logic/srri_monitoring_transformation.py:17-152 | Every outcome, in the order the code meets them: fewer than two rows fails; a NaN header fails; no data row fails at the column selection; a blank currency fails; missing selected columns fail, naming them. Otherwise there is one reduced row per data row, in order, each the reduction of its row. |
| Monitoring.LatestPerKey | logic/srri_monitoring_transformation.py:171-175 | `sort_values` descending on the date, then `drop_duplicates(keep="first")` on the key; LatestPerKeySpec, KeptIsMostRecent and LatestPerKeyIdempotent state the result. |
| Monitoring.LatestPerKeySpec | logic/srri_monitoring_transformation.py:171-175 | Sorting then deduplicating gives a result with distinct keys and descending dates, drawn from the input and covering every key. Each survivor's date is at least that of any row with its key. |
| Monitoring.KeptIsMostRecent | logic/srri_monitoring_transformation.py:175 | On date-sorted rows, the first row of each key has that key's latest date. |
| Monitoring.KeepFirstKeepsSorted | logic/srri_monitoring_transformation.py:171-175 | Deduplication keeps date-sorted rows sorted. |
| Monitoring.LatestPerKeyIdempotent | logic/srri_monitoring_transformation.py:171-175 | A second sort-and-deduplicate changes nothing. |
| Monitoring.ChangedRows | logic/srri_monitoring_transformation.py:154-158 | Only changed rows are kept, and the summary of every changed row is kept. |
| Monitoring.ChangedRowsFromReduced | logic/srri_monitoring_transformation.py:154-158 | Every summary row is the summary of some changed reduced row. |
| Monitoring.ChangedRowsAppend | logic/srri_monitoring_transformation.py:158 | The summary keeps the order and the repetitions of the changed rows. |
| Monitoring.ChangedSummaries | logic/srri_monitoring_transformation.py:154-175 | The changed summaries, latest per identifier; ChangedSummariesSpec and ChangedSummariesFromReduced state the result. |
| Monitoring.ChangedSummariesSpec | logic/srri_monitoring_transformation.py:154-175 | There is one row per changed identifier and no unchanged row. The rows are in descending date order, each with the latest date among its identifier's changed rows. |
| Monitoring.ChangedSummariesFromReduced | logic/srri_monitoring_transformation.py:154-175 | Every row of the final summary is the summary of some changed reduced row. |
| Monitoring.ProcessMonitoringV1 | logic/srri_monitoring_transformation.py:14-178 | Version 1 fails exactly when the reduction fails, with the same error. Otherwise it returns the latest changed summary per identifier. |
| MonitoringV2.WeekTag | logic/srri_monitoring_transformation_v2.py:62-66 | `re.search(r"Week\s*\d+")` finds nothing if and only if no position matches. Otherwise it returns the leftmost match, which starts with "Week" and ends in a digit. |
| MonitoringV2.WeekTagLeftmost | logic/srri_monitoring_transformation_v2.py:63 | At the leftmost match, the tag runs from "Week" to the end of the digit run. |
| MonitoringV2.WeekTagOfResultHeader | logic/srri_monitoring_transformation_v2.py:62-66 | The week tag of "SRRI Result (Week n)" is "Week n". |
| MonitoringV2.WeekOfChange | logic/srri_monitoring_transformation_v2.py:62-66 | Without a change week there is no tag. Otherwise the tag is the week search applied to the header. |
| MonitoringV2.OrNone | logic/srri_monitoring_transformation_v2.py:132-134 | `astype(str)` shows a missing text as "None" and a present one as itself. |
| MonitoringV2.SummaryV2Of | logic/srri_monitoring_transformation_v2.py:105-134 | The v2 summary keeps the identifier and the change flag, renders the text cells with NaN as "nan", parses the date, converts both SRRIs with `to_numeric` (missing stays missing) and shows the week tag, or "None" without one. |
| MonitoringV2.ChangedRowsV2 | logic/srri_monitoring_transformation_v2.py:108-111 | Only changed rows are kept, and the converted summary of every changed row is kept. |
| MonitoringV2.ChangedRowsV2FromReduced | logic/srri_monitoring_transformation_v2.py:108-111 | Every converted row is the converted summary of some changed reduced row. |
| MonitoringV2.ChangedRowsV2Append | logic/srri_monitoring_transformation_v2.py:111 | The converted rows keep the order and the repetitions of the changed rows. |
| MonitoringV2.SecondPass | logic/srri_monitoring_transformation_v2.py:146-156 | Without a duplicate identifier the second pass changes nothing. |
| MonitoringV2.SecondPassChangesNothing | logic/srri_monitoring_transformation_v2.py:137-156 | After the first sort-and-deduplicate no identifier repeats, so the second pass has nothing to remove. |
| MonitoringV2.OutputColumnsV2 | logic/srri_monitoring_transformation_v2.py:159-164 | Each output label is the upper-cased summary label with spaces and hyphens turned into underscores. |
| MonitoringV2.OutputColumnsV2Spec | logic/srri_monitoring_transformation_v2.py:159-164 | The output labels are FUND, SUB_FUND, SHARE_CLASS, IDENTIFIER, CURRENCY, LAST_VALIDATED_DOCUMENT, HAS_SRRI_VALUE_CHANGED, PREVIOUS_SRRI, LATEST_SRRI and WEEK_OF_CHANGE. Renaming them again changes nothing. |
| MonitoringV2.ChangedSummariesV2 | logic/srri_monitoring_transformation_v2.py:137-156 | The converted changed summaries, latest per identifier, then the second pass; ChangedSummariesV2Spec and ChangedSummariesV2FromReduced state the result. |
| MonitoringV2.ChangedSummariesV2Spec | logic/srri_monitoring_transformation_v2.py:137-156 | There is one row per changed identifier and no unchanged row. The rows are in descending date order, each with the latest date among its identifier's changed rows. |
| MonitoringV2.ChangedSummariesV2FromReduced | logic/srri_monitoring_transformation_v2.py:137-156 | Every row of the version 2 summary is the converted summary of some changed reduced row. |
| MonitoringV2.ProcessMonitoringV2 | logic/srri_monitoring_transformation_v2.py:6-164 | Version 2 fails exactly when its reduction fails, with the same error. Otherwise it returns its changed summaries. |
| Reconcile.Lookup | logic/compare_and_export_v2.py:59-60 | Reading a column yields the cell under the first column with that label. A column the table lacks reads as missing. |
| Reconcile.LookupAt | logic/compare_and_export_v2.py:59-60 | Reading a label whose first occurrence is column k yields the cell at k. |
| Reconcile.Differs | logic/compare_and_export_v2.py:60 | pandas `!=` on two cells: true when either is missing or they differ; DiffersNumbers and DiffersMerged state it for the compared columns. |
| Reconcile.NormaliseLabel | logic/compare_and_export_v2.py:19-32 | One label stripped, upper-cased and with spaces and hyphens turned into underscores; NormaliseColumnsOf and the label lemmas state its results. |
| Reconcile.NormaliseColumns | logic/compare_and_export_v2.py:19-32 | Each label is stripped, upper-cased, and has its spaces and hyphens replaced by underscores. The label count is unchanged. |
| Reconcile.NormaliseColumnsOf | logic/compare_and_export_v2.py:19-32 | Labels that are trimmed and rename one by one onto a list normalise to that list. |
| Reconcile.Missing | logic/compare_and_export_v2.py:36-37 | `required - set(columns)`: exactly the required labels not present. |
| Reconcile.MergedColumns | logic/compare_and_export_v2.py:50-55 | The joined labels are the permalink labels followed by LATEST_SRRI and WEEK_OF_CHANGE. Labels that clash get `_x` on the left and `_y` on the right. |
| Reconcile.MergedRow | logic/compare_and_export_v2.py:50-55 | A joined row is the permalink row followed by the monitoring row's LATEST_SRRI and WEEK_OF_CHANGE. |
| Reconcile.Matches | logic/compare_and_export_v2.py:50-55 | The matches of a permalink row are monitoring rows with the same key. |
| Reconcile.MatchesMembers | logic/compare_and_export_v2.py:50-55 | A monitoring row is matched if and only if it has the permalink row's key. |
| Reconcile.InnerJoin | logic/compare_and_export_v2.py:50-55 | Every joined pair agrees on the key. |
| Reconcile.InnerJoinMembers | logic/compare_and_export_v2.py:50-55 | A pair is joined if and only if both rows are present and share the key. |
| Reconcile.InnerJoinAppend | logic/compare_and_export_v2.py:50-55 | The join preserves the order of the permalink rows. |
| Reconcile.InnerJoinDisjoint | logic/compare_and_export_v2.py:54 | With no key in common, the inner join is empty. |
| Reconcile.JoinedRows | logic/compare_and_export_v2.py:50-55 | The joined rows of the inner merge, permalink row first; InnerJoinMembers, MergedRow and MergedLookup state them. |
| Reconcile.DiffRows | logic/compare_and_export_v2.py:59-61 | The joined rows whose KIID_SRRI differs from LATEST_SRRI; ReportRowSound and ReportRowComplete state them. |
| Reconcile.ReportColumns | logic/compare_and_export_v2.py:79-80 | The report keeps only report labels that are present in the joined table. |
| Reconcile.Report | logic/compare_and_export_v2.py:50-80 | The report columns are report labels, and every row has one cell per column. |
| Reconcile.Compare | logic/compare_and_export_v2.py:19-80 | A successful comparison has only report labels, and rows as wide as its columns. |
| Reconcile.CompareFailures | logic/compare_and_export_v2.py:36-60 | The comparison fails exactly in three cases, and each has its own error. The monitoring check comes first, then the permalink check. The third case is a permalink table that already has LATEST_SRRI: its suffix makes the read at line 60 raise. |
| Reconcile.MergedLatestSrri | logic/compare_and_export_v2.py:50-55 | LATEST_SRRI survives the merge unsuffixed if and only if the permalink table lacks it. |
| Reconcile.MergedReportColumn | logic/compare_and_export_v2.py:79-80 | A report label survives the join if and only if it is either a permalink label other than the two brought in, or one of those two and absent from the permalink table. |
| Reconcile.MergedLookup | logic/compare_and_export_v2.py:65-80 | A report column of the joined row holds the monitoring value for the two brought-in labels and the permalink value otherwise. |
| Reconcile.DiffersMerged | logic/compare_and_export_v2.py:59-61 | The difference test on the joined row is the difference between the permalink KIID_SRRI and the monitoring LATEST_SRRI. |
| Reconcile.ReportRowSound | logic/compare_and_export_v2.py:50-80 | Every report row comes from some permalink row and some monitoring row with the same identifier and differing SRRI. |
| Reconcile.ReportRowComplete | logic/compare_and_export_v2.py:50-80 | Every such pair contributes its report row. |
| Reconcile.CompareIsReport | logic/compare_and_export_v2.py:34-80 | Once the checks pass, the comparison is the report over the normalised tables. |
| Reconcile.CompareRows | logic/compare_and_export_v2.py:50-80 | A row is in the comparison's result if and only if some mismatched pair explains it. |
| Reconcile.CompareRow | logic/compare_and_export_v2.py:50-80 | That membership statement, for a single row. |
| Reconcile.CompareColumns | logic/compare_and_export_v2.py:65-80 | The result's columns are the report columns present after the join, in report order. |
| Reconcile.DisjointIdentifiersReportNothing | logic/compare_and_export_v2.py:50-55 | Tables with no identifier in common give an empty report. |
| Reconcile.MonitoringTable | logic/srri_monitoring_transformation_v2.py:159-164 | The v2 monitoring frame has the renamed labels and one row per summary. |
| Reconcile.MonitoringLabelsNormal | logic/compare_and_export_v2.py:19-25 | The comparer's normalisation leaves the v2 monitoring labels unchanged. |
| Reconcile.PermalinkLabelsNormalV3 | logic/compare_and_export_v2.py:26-32 | The v3 permalink labels normalise to LINE, FUND_NAME, SHARE_CLASS, ISIN, KIID_PDF_URL, FACT_SHEET_URL, IDENTIFIER, RISK_REWARD_RANKING, MANAGEMENT_FEE and SHARE_CLASS_INCEPTION. |
| Reconcile.V3Missing | logic/compare_and_export_v2.py:43-46 | Of the permalink requirements, the normalised v3 labels lack exactly KIID_SRRI. |
| Reconcile.RejectedWithoutKiidSrri | logic/compare_and_export_v2.py:43-46 | Suppose the monitoring labels pass and the permalink labels lack only KIID_SRRI. Then the comparer raises its permalink error naming KIID_SRRI. |
| Reconcile.PermalinkV3IsRejected | logic/permalink_transformation_v3.py:158-161 | With the v3 frame as written, the comparison of any monitoring and permalink rows raises "missing KIID_SRRI". |
| Reconcile.FixedCompareSucceeds | logic/compare_and_export_v2.py:34-46 | Tables of the monitoring and the corrected permalink shape pass both checks. |
| Reconcile.FixedReportColumns | logic/compare_and_export_v2.py:65-80 | For the corrected permalink shape every report column is present, in report order. |
| Reconcile.FixedPair | logic/compare_and_export_v2.py:59-80 | A permalink row and a monitoring row form a mismatched pair if and only if their identifiers agree and the SRRIs are missing or different. Their report row is fund, class, ISIN, both URLs, identifier, both SRRIs, week, fee and inception date. |
| Reconcile.DiffersNumbers | logic/compare_and_export_v2.py:60 | `!=` on two numeric cells holds if and only if either is missing or they differ. |
| Reconcile.FixedRowSound | logic/compare_and_export_v2.py:50-80 | Every report row of such tables reports a share class on both sides whose SRRIs are missing or differ. |
| Reconcile.FixedRowComplete | logic/compare_and_export_v2.py:50-80 | Every such share class pair is reported. |
| Reconcile.FixedShapeCompares | logic/compare_and_export_v2.py:34-80 | Tables of those shapes compare successfully, with all report columns. The report holds exactly the rows of mismatched share classes. |
| Reconcile.FixedPermalinkCompares | logic/compare_and_export_v2.py:50-80 | With the risk column named KIID_SRRI, the composed application never raises and reports every report column. The report holds exactly the share classes present on both sides whose extracted SRRI is missing or differs from the latest monitored SRRI. |

## Left out

- Reading the files: `pd.read_excel`, `file.read()`, `open(...)` and `pd.read_csv`. The
  manifest is given as its decoded text and the workbook as its cell grid. The comparer's
  "path instead of frame" branch (`compare_and_export_v2.py:11-14`) is not modelled.
- HTTP requests, pdfplumber and PyMuPDF. They are the `Readers` parameter. A failed
  fetch, a failed read and any exception in the extraction are all a `None` from it.
- The regular expressions applied to PDF text. These are the SRRI marker, the ongoing
  charges pattern, the four fallbacks and the inception date pattern. They are the
  `KiidMatchers` / `InceptionMatchers` parameters; the model fixes only the order in which
  they are consulted. The `float`/`int` conversion of their groups is folded into them.
- Date parsing (`pd.to_datetime(dayfirst=True, errors="coerce")`), `strftime`,
  `pd.to_numeric` and the v2 fallback parse at lines 122-125. They are the `parseDate` and
  `toNumber` parameters. The fallback repeats the same call on the same cells, so it
  changes nothing and is modelled as absent.
- Output: `to_csv`, `print` and the v2 debugging prints. The Streamlit apps (`app.py`,
  `app_v2.py`, `app_v3.py`), `data/pdf_reader.py`, `logic/srri_pdf_extraction.py` and the
  first comparer `logic/compare_and_export.py` are not part of this model. The module-level
  call at the end of the v2 comparer is left out with them.
- Unicode:
  - `lower`, `upper` and the whitespace and word-character classes are modelled for
    Latin-1 plus the Python whitespace characters.
  - Other scripts are not modelled.
  - There is no Unicode normalisation.
- Duplicate column labels. A frame with two columns of one label returns both under
  `df[label]`. The model reads the first one.
- Sorting. `sort_values` is quicksort, which is not stable. The model sorts stably. The
  proved properties are stable under any order among equal dates.
- pandas typing:
  - dtype inference, `astype(str)` of non-object columns, and `True == 1.0` comparisons;
  - the merge's dtype checks;
  - suffix clashes other than LATEST_SRRI and WEEK_OF_CHANGE.
- Monitoring.Reduce: a sheet with the two header rows and no data row fails as
  `NoDataRows`. The empty `apply` calls then add no change columns and the selection at
  line 152 raises, or the identifier `apply` raises first. The model does not follow a
  workbook that already has "Previous SRRI", "Latest SRRI" and "Week of SRRI Change"
  columns through that path.
- Manifest.KiidRecords and Manifest.FactSheetRows: their contracts state only the count
  bound. Their content is stated by KiidRecordsAppend and KiidRecordsOfOneLine, and by
  FactSheetRowsAppend and FactSheetRowsOfOneLine: a list of lines gives, line by line, the
  record or row of each line that passes its filter.
- Text.ReplaceAll: the empty-pattern case (inserting the replacement between characters)
  has no lemma of its own beyond RemoveEmpty. The only empty pattern the code reaches is
  the currency of a sheet without a Currency column: `row.get("Currency", "")` gives "",
  and `name.replace("", "")` leaves the name unchanged, which RemoveEmpty states.
- Reconcile.Compare and Reconcile.Report: their contracts state only the shape of the
  result. Their rows and columns are stated by CompareRows, CompareColumns and
  CompareFailures.

## Findings

| source | as written | input that shows it | evidently intended | confidence | as-written member | corrected member |
|---|---|---|---|---|---|---|
| logic/permalink_transformation_v3.py:158-161 | The v3 permalink frame names the extracted SRRI column `Risk_Reward_Ranking`, which the comparer normalises to RISK_REWARD_RANKING. The comparer requires KIID_SRRI (`logic/compare_and_export_v2.py:43-46`) and raises. | Any monitoring workbook and any manifest, for example empty row lists. The labels alone decide the failure. | The extracted SRRI column is named KIID_SRRI, as the comparer's docstring and report columns expect. The comparison then reports exactly the mismatched share classes. | not executed | Reconcile.PermalinkV3IsRejected | Reconcile.FixedPermalinkCompares |

=== FILE: extraction.dfy ===
/**
 * The document-extraction half of `process_and_extract_permalink_file`: for each
 * deduplicated row, the risk ranking and ongoing-charges figure are read from the
 * KIID PDF and the share-class inception date from the Fact Sheet PDF.
 *
 * Downloading and PDF text extraction are parameters (`Readers`), as are the
 * regular expressions that read a figure out of text (`KiidMatchers`,
 * `InceptionMatchers`): the model fixes which reader and which matcher is
 * consulted when, and what becomes of failures.
 */
module Extraction {
  import opened Results
  import opened Text
  import opened Sequences
  import opened Identifier
  import opened Manifest

  /** How a document is obtained and turned into text. Each step can fail (`None`),
      which the source sees as a raised exception. */
  datatype Readers<!D> = Readers(
    fetch: string -> Option<D>,        // HTTP GET + raise_for_status
    layoutText: D -> Option<string>,   // pdfplumber, pages joined by newlines
    plainText: D -> Option<string>)    // PyMuPDF, pages concatenated

  /** The patterns applied to KIID text. */
  datatype KiidMatchers = KiidMatchers(
    afterMarker: string -> Option<real>,        // first `\b\d(\.\d)?\b` after the risk scale heading
    ongoingCharges: string -> Option<real>,     // the "Ongoing charges ... n.nn %" figure
    fallbacks: seq<string -> Option<real>>)     // the four alternative risk patterns, in order

  /** The patterns applied to Fact Sheet text. */
  datatype InceptionMatchers = InceptionMatchers(
    inceptionDate: string -> Option<string>,    // the date text after "Share Class Inception"
    toIsoDate: string -> Option<string>)        // day-first parse, rendered as YYYY-MM-DD

  /** The two values read from a KIID. */
  datatype KiidFigures = KiidFigures(riskRewardRanking: Option<real>, managementFee: Option<real>)

  const NoFigures: KiidFigures := KiidFigures(None, None)

  /** `extract_srri_and_fee`. The layout text is read first; the plain text is read only
      when a figure is still missing, and then only for the missing figures. Any failure
      along the way (no URL, download, either text extraction) loses both figures. */
  function ExtractSrriAndFee<D>(url: Option<string>, rd: Readers<D>, m: KiidMatchers): (r: KiidFigures)
    ensures url.None? ==> r == NoFigures
    ensures url.Some? && rd.fetch(url.value).None? ==> r == NoFigures
    ensures url.Some? && rd.fetch(url.value).Some? ==>
      var doc := rd.fetch(url.value).value;
      match rd.layoutText(doc)
      case None => r == NoFigures
      case Some(t) =>
        if m.afterMarker(t).Some? && m.ongoingCharges(t).Some? then
          r == KiidFigures(m.afterMarker(t), m.ongoingCharges(t))
        else
          match rd.plainText(doc)
          case None => r == NoFigures
          case Some(u) =>
            && r.riskRewardRanking == (if m.afterMarker(t).Some? then m.afterMarker(t) else FirstHit(m.fallbacks, u))
            && r.managementFee == (if m.ongoingCharges(t).Some? then m.ongoingCharges(t) else m.ongoingCharges(u))
  {
    if url.None? then NoFigures
    else match rd.fetch(url.value)
      case None => NoFigures
      case Some(doc) =>
        match rd.layoutText(doc)
        case None => NoFigures
        case Some(t) =>
          var risk := m.afterMarker(t);
          var fee := m.ongoingCharges(t);
          if risk.Some? && fee.Some? then KiidFigures(risk, fee)
          else
            match rd.plainText(doc)
            case None => NoFigures
            case Some(u) =>
              KiidFigures(if risk.Some? then risk else FirstHit(m.fallbacks, u),
                          if fee.Some? then fee else m.ongoingCharges(u))
  }

  /** A figure found in the layout text is never replaced by the second pass, and when
      both are found there the plain-text reader is never consulted. */
  lemma LayoutFiguresWin<D>(url: string, rd: Readers<D>, plain: D -> Option<string>, m: KiidMatchers)
    ensures var r := ExtractSrriAndFee(Some(url), rd, m);
      forall doc, t :: rd.fetch(url) == Some(doc) && rd.layoutText(doc) == Some(t) ==>
        && (m.afterMarker(t).Some? && r.riskRewardRanking.Some? ==> r.riskRewardRanking == m.afterMarker(t))
        && (m.ongoingCharges(t).Some? && r.managementFee.Some? ==> r.managementFee == m.ongoingCharges(t))
        && (m.afterMarker(t).Some? && m.ongoingCharges(t).Some? ==>
              r == ExtractSrriAndFee(Some(url), Readers(rd.fetch, rd.layoutText, plain), m))
  {
  }

  /** A risk figure that comes from the fallbacks is the value of the first fallback
      pattern that matches the plain text. */
  lemma FallbackOrder<D>(url: string, rd: Readers<D>, m: KiidMatchers, doc: D, t: string, u: string)
    requires rd.fetch(url) == Some(doc) && rd.layoutText(doc) == Some(t) && rd.plainText(doc) == Some(u)
    requires m.afterMarker(t).None?
    ensures var r := ExtractSrriAndFee(Some(url), rd, m).riskRewardRanking;
      && (r.Some? <==> exists j :: 0 <= j < |m.fallbacks| && m.fallbacks[j](u).Some?)
      && (r.Some? ==> exists j :: 0 <= j < |m.fallbacks| && m.fallbacks[j](u) == r
                                  && forall k :: 0 <= k < j ==> m.fallbacks[k](u).None?)
  {
  }

  /** `extract_inception_date`. A missing URL, or one that does not start with "http", gives
      no date without any download; afterwards every failure also gives no date. */
  function ExtractInceptionDate<D>(url: Option<string>, rd: Readers<D>, m: InceptionMatchers): (r: Option<string>)
    ensures url.None? || !StartsWith(url.value, "http") ==> r.None?
    ensures r.Some? ==>
      && rd.fetch(url.value).Some?
      && var doc := rd.fetch(url.value).value;
      && rd.plainText(doc).Some?
      && m.inceptionDate(rd.plainText(doc).value).Some?
      && m.toIsoDate(m.inceptionDate(rd.plainText(doc).value).value) == r
    ensures url.Some? && StartsWith(url.value, "http") ==>
      match rd.fetch(url.value)
      case None => r.None?
      case Some(doc) =>
        match rd.plainText(doc)
        case None => r.None?
        case Some(u) => r == (if m.inceptionDate(u).None? then None else m.toIsoDate(m.inceptionDate(u).value))
  {
    if url.None? || !StartsWith(url.value, "http") then None
    else match rd.fetch(url.value)
      case None => None
      case Some(doc) =>
        match rd.plainText(doc)
        case None => None
        case Some(u) =>
          match m.inceptionDate(u)
          case None => None
          case Some(d) => m.toIsoDate(d)
  }

  /** The link test comes before any download: what a non-link gives does not depend on
      the readers at all. */
  lemma NonLinksAreNotFetched<D>(url: Option<string>, rd1: Readers<D>, rd2: Readers<D>, m: InceptionMatchers)
    requires url.None? || !StartsWith(url.value, "http")
    ensures ExtractInceptionDate(url, rd1, m) == ExtractInceptionDate(url, rd2, m)
  {
  }

  // ---------------------------------------------------------------------------
  // The whole v3 pipeline

  /** A row of the v3 result: the parser row plus the three extracted columns. */
  datatype ExtractedRow = ExtractedRow(
    base: PermalinkRow,
    riskRewardRanking: Option<real>,
    managementFee: Option<real>,
    shareClassInception: Option<string>)

  /** Both extractions applied to one deduplicated row. */
  function Extracted<D>(row: PermalinkRow, rd: Readers<D>, km: KiidMatchers, im: InceptionMatchers): (r: ExtractedRow)
    ensures r.base == row
    ensures && r.riskRewardRanking == ExtractSrriAndFee(row.kiidUrl, rd, km).riskRewardRanking
            && r.managementFee == ExtractSrriAndFee(row.kiidUrl, rd, km).managementFee
    ensures r.shareClassInception == ExtractInceptionDate(row.factSheetUrl, rd, im)
    ensures r.riskRewardRanking.Some? || r.managementFee.Some? ==> row.kiidUrl.Some?
    ensures r.shareClassInception.Some? ==> row.factSheetUrl.Some? && StartsWith(row.factSheetUrl.value, "http")
  {
    var f := ExtractSrriAndFee(row.kiidUrl, rd, km);
    ExtractedRow(row, f.riskRewardRanking, f.managementFee, ExtractInceptionDate(row.factSheetUrl, rd, im))
  }

  /** `process_and_extract_permalink_file` on decoded content: the v1 parser with the v3
      glyph set, then the extractions row by row. */
  function ProcessAndExtract<D>(content: string, rd: Readers<D>, km: KiidMatchers, im: InceptionMatchers)
    : (r: Result<seq<ExtractedRow>, ManifestError>)
    ensures ProcessLines(SplitLines(StripBom(content)), MojibakeGlyphs).Failure? <==> r.Failure?
    ensures r.Success? ==>
      var base := ProcessLines(SplitLines(StripBom(content)), MojibakeGlyphs).value;
      |r.value| == |base| && forall i :: 0 <= i < |base| ==> r.value[i] == Extracted(base[i], rd, km, im)
  {
    match ProcessLines(SplitLines(StripBom(content)), MojibakeGlyphs)
    case Failure(e) => Failure(e)
    case Success(rows) => Success(ExtractAll(rows, rd, km, im))
  }

  /** The extractions applied row by row. */
  function ExtractAll<D>(rows: seq<PermalinkRow>, rd: Readers<D>, km: KiidMatchers, im: InceptionMatchers)
    : (r: seq<ExtractedRow>)
    ensures |r| == |rows| && forall i :: 0 <= i < |rows| ==> r[i] == Extracted(rows[i], rd, km, im)
  {
    seq(|rows|, i requires 0 <= i < |rows| => Extracted(rows[i], rd, km, im))
  }

  /** Extraction adds columns but never adds, drops or reorders rows, so the v3 result keeps
      the parser's one-row-per-identifier guarantee. */
  lemma ExtractedIdentifiersUnique<D>(content: string, rd: Readers<D>, km: KiidMatchers, im: InceptionMatchers)
    ensures var r := ProcessAndExtract(content, rd, km, im);
      r.Success? ==> forall i, j :: 0 <= i < j < |r.value| ==> r.value[i].base.identifier != r.value[j].base.identifier
  {
    var raw := SplitLines(StripBom(content));
    ProcessLinesSpec(raw, MojibakeGlyphs);
  }
}

=== FILE: identifier.dfy ===
/**
 * The share-class normalisers that turn a display name into the join key
 * ("Identifier"). Four variants exist in the source and they differ:
 *   - the permalink parsers (`clean_alpha_only`) have no currency step, and the
 *     two permalink versions strip different glyph sets;
 *   - monitoring v1 looks for the hedging annotation in the lower-cased
 *     original and appends only "hedged";
 *   - monitoring v2 looks for it after the replacements and appends
 *     "<ccy>hedged".
 */
module Identifier {
  import opened Results
  import opened Text

  /** The class `[®¬Æ]` (permalink v1, both monitoring versions). */
  const RegisteredGlyphs: set<char> := {'\U{AE}', '\U{AC}', '\U{C6}'}

  /** The class `[¬Æ¬¨√Ü]` (permalink v3): a mis-decoded copy of the one above. */
  const MojibakeGlyphs: set<char> := {'\U{AC}', '\U{C6}', '\U{A8}', '\U{221A}', '\U{DC}'}

  /** `re.sub('[<glyphs>]', '', s)`. */
  function RemoveGlyphs(s: string, glyphs: set<char>): (r: string)
    ensures forall i :: 0 <= i < |r| ==> r[i] !in glyphs
  {
    Filter(s, c => c !in glyphs)
  }

  /** `re.sub(r'[^a-z]', '', s)`. */
  function LettersOnly(s: string): (r: string)
    ensures forall i :: 0 <= i < |r| ==> IsLowerLetter(r[i])
  {
    Filter(s, IsLowerLetter)
  }

  /** Lower-case, drop the glyphs, drop every "class ", then spell "accu" as "acc". */
  function Prepare(name: string, glyphs: set<char>): string {
    ReplaceAll(ReplaceAll(RemoveGlyphs(Lower(name), glyphs), "class ", ""), "accu", "acc")
  }

  // ---------------------------------------------------------------------------
  // The hedging annotation `([a-z]{3})\s*\(hedged\)`

  /** The pattern matches at `i`: three letters, any whitespace, then "(hedged)". */
  predicate HedgeAt(s: string, i: nat) {
    && i + 3 <= |s|
    && IsLowerLetter(s[i]) && IsLowerLetter(s[i + 1]) && IsLowerLetter(s[i + 2])
    && OccursAt(s, "(hedged)", SkipSpaces(s, i + 3))
  }

  /** Where `re.search` finds the annotation, if anywhere. */
  function HedgeMatch(s: string): (r: Option<nat>)
    ensures r.Some? ==> HedgeAt(s, r.value) && forall j :: 0 <= j < r.value ==> !HedgeAt(s, j)
    ensures r.None? ==> forall j :: 0 <= j <= |s| ==> !HedgeAt(s, j)
  {
    FindFrom(s, 0, HedgeAt)
  }

  /** `match.group(1) + 'hedged'`, or '' without a match. */
  function HedgeSuffix(s: string): (r: string)
    ensures r == [] <==> HedgeMatch(s).None?
    ensures HedgeMatch(s).Some? ==> |r| == 9 && r == s[HedgeMatch(s).value..HedgeMatch(s).value + 3] + "hedged"
    ensures forall i :: 0 <= i < |r| ==> IsLowerLetter(r[i])
  {
    match HedgeMatch(s)
    case Some(i) => s[i..i + 3] + "hedged"
    case None => []
  }

  // ---------------------------------------------------------------------------
  // Permalink side: clean_alpha_only

  /** `clean_alpha_only`: a missing name gives "", otherwise only `a`..`z` survive, and a
      hedging annotation "xxx (hedged)" makes the key end in "xxxhedged". */
  function CleanAlphaOnly(name: Option<string>, glyphs: set<char>): (r: string)
    ensures forall i :: 0 <= i < |r| ==> IsLowerLetter(r[i])
    ensures name.None? ==> r == []
    ensures name.Some? ==> var n := Prepare(name.value, glyphs);
      match HedgeMatch(n)
      case Some(i) => EndsWith(r, n[i..i + 3] + "hedged") && r == LettersOnly(n) + n[i..i + 3] + "hedged"
      case None => r == LettersOnly(n)
  {
    match name
    case None => []
    case Some(s) =>
      var n := Prepare(s, glyphs);
      LettersOnly(n) + HedgeSuffix(n)
  }

  /** The permalink v1 normaliser. */
  function CleanAlphaOnlyV1(name: Option<string>): string {
    CleanAlphaOnly(name, RegisteredGlyphs)
  }

  /** The permalink v3 normaliser. */
  function CleanAlphaOnlyV3(name: Option<string>): string {
    CleanAlphaOnly(name, MojibakeGlyphs)
  }

  /** The key does not depend on the case of the name. */
  lemma CleanAlphaOnlyIgnoresCase(s: string, glyphs: set<char>)
    ensures CleanAlphaOnly(Some(s), glyphs) == CleanAlphaOnly(Some(Lower(s)), glyphs)
  {
    LowerIdempotent(s);
  }

  // ---------------------------------------------------------------------------
  // Monitoring side: generate_identifier

  /** A monitoring key: lower-case letters followed by `tail`. */
  predicate KeyShape(r: string, tail: string) {
    && EndsWith(r, tail)
    && forall i :: 0 <= i < |r| - |tail| ==> IsLowerLetter(r[i])
  }

  /** Appending to a key extends its tail. */
  lemma ShapeAppend(r: string, tail: string, more: string)
    requires KeyShape(r, tail)
    ensures KeyShape(r + more, tail + more)
  {
    assert (r + more)[|r + more| - |tail + more|..] == r[|r| - |tail|..] + more;
  }

  /** The letters-only name with every occurrence of the currency removed, then the currency.
      Which occurrences go is stated by `WithCurrencyAbsent` and `WithCurrencyLeftmost`. */
  function WithCurrency(name: string, ccy: string): (r: string)
    ensures KeyShape(r, ccy)
  {
    var l := LettersOnly(name);
    var body := ReplaceAll(l, ccy, []);
    assert forall i :: 0 <= i < |body| ==> IsLowerLetter(body[i]) by {
      ReplaceAllChars(l, ccy, []);
      forall i | 0 <= i < |body| ensures IsLowerLetter(body[i]) {
        assert body[i] in l;
      }
    }
    assert (body + ccy)[|body|..] == ccy;
    body + ccy
  }

  /** A name whose letters do not contain the currency keeps all of them. */
  lemma WithCurrencyAbsent(name: string, ccy: string)
    requires ccy != [] && !Contains(LettersOnly(name), ccy)
    ensures WithCurrency(name, ccy) == LettersOnly(name) + ccy
  {
    ReplaceAllAbsent(LettersOnly(name), ccy, []);
  }

  /** The leftmost occurrence of the currency in the letters is cut out, the letters before
      it are kept, and the removal goes on after it. */
  lemma WithCurrencyLeftmost(name: string, ccy: string, i: nat)
    requires ccy != [] && OccursAt(LettersOnly(name), ccy, i)
    requires forall j :: 0 <= j < i ==> !OccursAt(LettersOnly(name), ccy, j)
    ensures var l := LettersOnly(name);
      WithCurrency(name, ccy) == l[..i] + ReplaceAll(l[i + |ccy|..], ccy, []) + ccy
  {
    var l := LettersOnly(name);
    ReplaceAllLeftmost(l, ccy, [], i);
    assert l[..i] + [] == l[..i];
  }

  /** The removal is not repeated: "uusdsd" loses its one "usd" and keeps the "usd" that
      the removal brings together. */
  lemma WithCurrencyOnePass()
    ensures WithCurrency("uusdsd", "usd") == "usd" + "usd"
  {
    FilterAll("uusdsd", IsLowerLetter);
    OnePassRemoval();
  }

  lemma OnePassRemoval()
    ensures ReplaceAll("uusdsd", "usd", []) == "usd"
  {
    var s, tail := "uusdsd", "sd";
    assert s[0..3] != "usd" by { assert s[0..3][1] == 'u'; }
    assert s[1..4] == "usd" && s[..1] == "u" && s[4..] == tail;
    ReplaceAllLeftmost(s, "usd", [], 1);
    assert !Contains(tail, "usd");
    ReplaceAllAbsent(tail, "usd", []);
    assert "u" + [] + tail == "usd";
  }

  /** Monitoring v1 `generate_identifier`. `None` when the source raises: the currency
      cell is blank while the share class is not, and `.lower()` is called on it.
      The hedging test reads the lower-cased original and appends only "hedged". */
  function MonitoringIdV1(shareClass: Option<string>, currency: Option<string>): (r: Option<string>)
    ensures shareClass.None? ==> r == Some([])
    ensures shareClass.Some? ==> (r.None? <==> currency.None?)
    ensures shareClass.Some? && currency.Some? ==>
      KeyShape(r.value, Lower(currency.value) + (if HedgeMatch(Lower(shareClass.value)).Some? then "hedged" else []))
    ensures shareClass.Some? && currency.Some? ==>
      r.value == WithCurrency(Prepare(shareClass.value, RegisteredGlyphs), Lower(currency.value))
        + (if HedgeMatch(Lower(shareClass.value)).Some? then "hedged" else [])
  {
    match shareClass
    case None => Some([])
    case Some(s) =>
      match currency
      case None => None
      case Some(c) =>
        var original := Lower(s);
        var n := ReplaceAll(ReplaceAll(RemoveGlyphs(original, RegisteredGlyphs), "class ", ""), "accu", "acc");
        var suffix := if HedgeMatch(original).Some? then "hedged" else [];
        var w := WithCurrency(n, Lower(c));
        ShapeAppend(w, Lower(c), suffix);
        Some(w + suffix)
  }

  /** Monitoring v2 `generate_identifier`: the hedging test reads the prepared name and
      appends "<ccy>hedged" after the currency. `None` exactly as in v1. */
  function MonitoringIdV2(shareClass: Option<string>, currency: Option<string>): (r: Option<string>)
    ensures shareClass.None? ==> r == Some([])
    ensures shareClass.Some? ==> (r.None? <==> currency.None?)
    ensures shareClass.Some? && currency.Some? ==>
      KeyShape(r.value, Lower(currency.value) + HedgeSuffix(Prepare(shareClass.value, RegisteredGlyphs)))
    ensures shareClass.Some? && currency.Some? ==>
      var n := Prepare(shareClass.value, RegisteredGlyphs);
      r.value == WithCurrency(n, Lower(currency.value)) + HedgeSuffix(n)
  {
    match shareClass
    case None => Some([])
    case Some(s) =>
      match currency
      case None => None
      case Some(c) =>
        var n := Prepare(s, RegisteredGlyphs);
        var w := WithCurrency(n, Lower(c));
        ShapeAppend(w, Lower(c), HedgeSuffix(n));
        Some(w + HedgeSuffix(n))
  }

  /** Neither monitoring key depends on the case of the share class or the currency. */
  lemma MonitoringIdsIgnoreCase(s: string, c: string)
    ensures MonitoringIdV1(Some(s), Some(c)) == MonitoringIdV1(Some(Lower(s)), Some(Lower(c)))
    ensures MonitoringIdV2(Some(s), Some(c)) == MonitoringIdV2(Some(Lower(s)), Some(Lower(c)))
  {
    LowerIdempotent(s);
    LowerIdempotent(c);
  }

  /** The two monitoring versions share the currency-stripped key and differ only in the
      suffix: v1 appends "hedged" when the lower-cased original is annotated, v2 appends
      "<ccy>hedged" when the prepared name is. */
  lemma MonitoringVersionsCompared(s: string, c: string)
    ensures var n := Prepare(s, RegisteredGlyphs);
      var v1 := MonitoringIdV1(Some(s), Some(c)).value;
      var k := if HedgeMatch(Lower(s)).Some? then 6 else 0;
      && |v1| >= k
      && MonitoringIdV2(Some(s), Some(c)).value == v1[..|v1| - k] + HedgeSuffix(n)
    ensures HedgeMatch(Lower(s)).None? && HedgeMatch(Prepare(s, RegisteredGlyphs)).None? ==>
      MonitoringIdV1(Some(s), Some(c)) == MonitoringIdV2(Some(s), Some(c))
  {
    var n := Prepare(s, RegisteredGlyphs);
    var w := WithCurrency(n, Lower(c));
    if HedgeMatch(Lower(s)).Some? {
      assert (w + "hedged")[..|w + "hedged"| - 6] == w;
    } else {
      assert (w + [])[..|w + []|] == w;
    }
  }

  /** The two hedge tests can disagree: in "Class (Hedged)" v1 finds "ass (hedged)" in the
      lower-cased original, while v2's replacements have removed "class " before it looks. */
  lemma HedgeTestsDisagree()
    ensures HedgeMatch(Lower("Class (Hedged)")).Some?
    ensures HedgeMatch(Prepare("Class (Hedged)", RegisteredGlyphs)).None?
  {
    assert Lower("Class (Hedged)") == "class (hedged)" by {
      LowerOfClassHedged();
    }
    assert HedgeAt("class (hedged)", 2);
    PrepareClassHedged();
    BareHedgedIsNotAnnotated();
  }

  lemma LowerOfClassHedged()
    ensures Lower("Class (Hedged)") == "class (hedged)"
  {
    var l := Lower("Class (Hedged)");
    assert forall i :: 0 <= i < |l| ==> l[i] == "class (hedged)"[i];
  }

  lemma PrepareClassHedged()
    ensures Prepare("Class (Hedged)", RegisteredGlyphs) == "(hedged)"
  {
    LowerOfClassHedged();
    ClassHedgedHasNoGlyph();
    ClassTokenRemoved();
    BareHedgedHasNoAccu();
  }

  lemma ClassHedgedHasNoGlyph()
    ensures RemoveGlyphs("class (hedged)", RegisteredGlyphs) == "class (hedged)"
  {
    var s := "class (hedged)";
    assert forall i :: 0 <= i < |s| ==> s[i] < '\U{80}';
    FilterAll(s, c => c !in RegisteredGlyphs);
  }

  lemma ClassTokenRemoved()
    ensures ReplaceAll("class (hedged)", "class ", "") == "(hedged)"
  {
    var s, tail := "class (hedged)", "(hedged)";
    assert s[..6] == "class " && s[6..] == tail;
    ReplaceAllLeftmost(s, "class ", "", 0);
    assert !Contains(tail, "class ") by {
      forall j | 0 <= j <= 8 ensures !OccursAt(tail, "class ", j) {
        if j + 6 <= 8 { assert tail[j..j + 6][0] != 'c'; }
      }
    }
    ReplaceAllAbsent(tail, "class ", "");
  }

  lemma BareHedgedHasNoAccu()
    ensures ReplaceAll("(hedged)", "accu", "acc") == "(hedged)"
  {
    assert !Contains("(hedged)", "accu") by {
      forall j | 0 <= j <= 8 ensures !OccursAt("(hedged)", "accu", j) {
        if j + 4 <= 8 { assert "(hedged)"[j..j + 4][0] != 'a'; }
      }
    }
    ReplaceAllAbsent("(hedged)", "accu", "acc");
  }

  lemma BareHedgedIsNotAnnotated()
    ensures HedgeMatch("(hedged)").None?
  {
    forall j | 0 <= j <= |"(hedged)"| ensures !HedgeAt("(hedged)", j) {
      if j + 3 <= 8 {
        assert !IsLowerLetter("(hedged)"[j]) || !IsLowerLetter("(hedged)"[j + 1])
          || !IsLowerLetter("(hedged)"[j + 2]) || !OccursAt("(hedged)", "(hedged)", SkipSpaces("(hedged)", j + 3));
      }
    }
  }

  // ---------------------------------------------------------------------------
  // The normaliser is not idempotent: "ac-cu" keys as "accu", which keys as "acc".

  lemma PrepareHyphenated()
    ensures Prepare("ac-cu", RegisteredGlyphs) == "ac-cu"
  {
    assert Lower("ac-cu") == "ac-cu";
    assert RemoveGlyphs("ac-cu", RegisteredGlyphs) == "ac-cu";
    HyphenatedHasNoToken();
    HyphenatedHasNoAccu();
  }

  lemma HyphenatedHasNoToken()
    ensures ReplaceAll("ac-cu", "class ", "") == "ac-cu"
  {
    assert !Contains("ac-cu", "class ");
    ReplaceAllAbsent("ac-cu", "class ", "");
  }

  lemma HyphenatedHasNoAccu()
    ensures ReplaceAll("ac-cu", "accu", "acc") == "ac-cu"
  {
    assert !Contains("ac-cu", "accu") by {
      assert "ac-cu"[0..4][2] != "accu"[2] && "ac-cu"[1..5][0] != "accu"[0];
    }
    ReplaceAllAbsent("ac-cu", "accu", "acc");
  }

  lemma PrepareAccu()
    ensures Prepare("accu", RegisteredGlyphs) == "acc"
  {
    assert Lower("accu") == "accu";
    assert RemoveGlyphs("accu", RegisteredGlyphs) == "accu";
    AccuHasNoToken();
    AccuIsRespelled();
  }

  lemma AccuHasNoToken()
    ensures ReplaceAll("accu", "class ", "") == "accu"
  {
  }

  lemma AccuIsRespelled()
    ensures ReplaceAll("accu", "accu", "acc") == "acc"
  {
  }

  /** Cleaning a key again can change it. */
  lemma CleanAlphaOnlyNotIdempotent()
    ensures CleanAlphaOnlyV1(Some("ac-cu")) == "accu"
    ensures CleanAlphaOnlyV1(Some(CleanAlphaOnlyV1(Some("ac-cu")))) == "acc"
  {
    CleanHyphenated();
    CleanAccu();
  }

  lemma CleanHyphenated()
    ensures CleanAlphaOnlyV1(Some("ac-cu")) == "accu"
  {
    PrepareHyphenated();
    NoHedgeInHyphenated();
    LettersOfHyphenated();
  }

  lemma NoHedgeInHyphenated()
    ensures HedgeSuffix("ac-cu") == []
  {
    forall j | 0 <= j <= 5 ensures !HedgeAt("ac-cu", j) {}
  }

  lemma LettersOfHyphenated()
    ensures LettersOnly("ac-cu") == "accu"
  {
    assert "ac-cu"[1..] == "c-cu" && "c-cu"[1..] == "-cu" && "-cu"[1..] == "cu";
  }

  lemma CleanAccu()
    ensures CleanAlphaOnlyV1(Some("accu")) == "acc"
  {
    PrepareAccu();
    NoHedgeInAcc();
    LettersOfAcc();
  }

  lemma NoHedgeInAcc()
    ensures HedgeSuffix("acc") == []
  {
    forall j | 0 <= j <= 3 ensures !HedgeAt("acc", j) {}
  }

  lemma LettersOfAcc()
    ensures LettersOnly("acc") == "acc"
  {
    assert "acc"[1..] == "cc" && "cc"[1..] == "c";
  }
}

=== FILE: manifest.dfy ===
/**
 * The permalink manifest parser (`process_permalink_file`, and the identical first
 * half of `process_and_extract_permalink_file`): it picks the English, UK-investor
 * KIID and Fact Sheet lines out of a comma-separated export, pulls a URL, an ISIN
 * and the fund and share-class names out of each, attaches to every KIID row the
 * Fact Sheet URL of the first Fact Sheet line with the same ISIN, keys every row
 * by its normalised share class, and keeps the first row of each key.
 */
module Manifest {
  import opened Results
  import opened Text
  import opened Sequences
  import opened Identifier

  /** What `decode('utf-8-sig')` drops from the front of the content. */
  const ByteOrderMark: char := '\U{FEFF}'

  function StripBom(content: string): (r: string)
    ensures |content| > 0 && content[0] == ByteOrderMark ==> r == content[1..]
    ensures (|content| == 0 || content[0] != ByteOrderMark) ==> r == content
  {
    if |content| > 0 && content[0] == ByteOrderMark then content[1..] else content
  }

  // ---------------------------------------------------------------------------
  // Line selection

  predicate ForUkInvestors(line: string) {
    Contains(line, "UK Professional Investor") || Contains(line, "UK Retail Investor")
  }

  /** A KIID line of the English UK share classes. */
  predicate IsKiidLine(line: string) {
    && Contains(line, "UCITS KIID")
    && Contains(line, "KIID.pdf")
    && Contains(line, "English")
    && ForUkInvestors(line)
  }

  /** A Fact Sheet line of the English UK share classes. */
  predicate IsFactSheetLine(line: string) {
    && Contains(line, "Fact Sheet")
    && Contains(line, "FactSheet.pdf")
    && Contains(line, "English")
    && ForUkInvestors(line)
  }

  // ---------------------------------------------------------------------------
  // The URL pattern `https?://\S+?<suffix>`

  /** Where the authority starts when a scheme `https://` or `http://` is at `i`. */
  function SchemeEnd(s: string, i: nat): (e: Option<nat>)
    ensures e.Some? ==> i + 7 <= e.value <= |s| && OccursAt(s, "http", i) && OccursAt(s, "://", e.value - 3)
  {
    if OccursAt(s, "https://", i) then
      assert s[i..i + 4] == s[i..i + 8][..4];
      assert s[i + 5..i + 8] == s[i..i + 8][5..8];
      Some(i + 8)
    else if OccursAt(s, "http://", i) then
      assert s[i..i + 4] == s[i..i + 7][..4];
      assert s[i + 4..i + 7] == s[i..i + 7][4..7];
      Some(i + 7)
    else None
  }

  /** The lazy `\S+?<suffix>` after the scheme ending at `e`, tried with the run `s[e..j]`:
      the end of the shortest non-empty whitespace-free run followed by `suffix`. */
  function LazyEnd(s: string, e: nat, j: nat, suffix: string): (r: Option<nat>)
    requires e < j <= |s|
    requires forall k :: e <= k < j - 1 ==> !IsSpace(s[k])
    ensures r.Some? ==> j + |suffix| <= r.value <= |s| && OccursAt(s, suffix, r.value - |suffix|)
    ensures r.Some? ==> forall k :: e <= k < r.value - |suffix| ==> !IsSpace(s[k])
    ensures r.Some? ==> forall k :: j <= k < r.value - |suffix| ==> !OccursAt(s, suffix, k)
    decreases |s| - j
  {
    if IsSpace(s[j - 1]) then None
    else if OccursAt(s, suffix, j) then Some(j + |suffix|)
    else if j == |s| then None
    else LazyEnd(s, e, j + 1, suffix)
  }

  /** Where a URL match starting at `i` ends, if one starts there. */
  function UrlEnd(s: string, i: nat, suffix: string): (r: Option<nat>)
    ensures r.Some? ==> i < r.value <= |s|
  {
    if i > |s| then None
    else match SchemeEnd(s, i)
      case None => None
      case Some(e) => if e < |s| then LazyEnd(s, e, e + 1, suffix) else None
  }

  predicate UrlAt(s: string, i: nat, suffix: string) {
    UrlEnd(s, i, suffix).Some?
  }

  /** Where the leftmost URL match starts. */
  function UrlStart(s: string, suffix: string): (r: Option<nat>)
    ensures r.Some? ==> r.value <= |s| && UrlAt(s, r.value, suffix)
    ensures r.Some? ==> forall j :: 0 <= j < r.value ==> !UrlAt(s, j, suffix)
    ensures r.None? ==> forall j :: 0 <= j <= |s| ==> !UrlAt(s, j, suffix)
  {
    var m := (t: string, i: nat) => UrlAt(t, i, suffix);
    var r := FindFrom(s, 0, m);
    forall j | 0 <= j <= |s| && (r.None? || j < r.value) ensures !UrlAt(s, j, suffix) {
      assert !m(s, j);
    }
    assert r.Some? ==> m(s, r.value);
    r
  }

  /** `re.search(r"https?://\S+?<suffix>", s).group()`: the leftmost URL ending in `suffix`. */
  function FindUrl(s: string, suffix: string): (r: Option<string>)
    ensures r.None? <==> forall i :: 0 <= i <= |s| ==> !UrlAt(s, i, suffix)
    ensures r.Some? ==> StartsWith(r.value, "http") && EndsWith(r.value, suffix)
    ensures r.Some? ==> exists i :: 0 <= i <= |s| && UrlAt(s, i, suffix) && OccursAt(s, r.value, i)
    ensures r.Some? ==> exists i :: (0 <= i <= |s| && UrlAt(s, i, suffix)
                                     && r.value == s[i..UrlEnd(s, i, suffix).value]
                                     && forall j :: 0 <= j < i ==> !UrlAt(s, j, suffix))
  {
    match UrlStart(s, suffix)
    case None => None
    case Some(i) =>
      UrlShape(s, i, suffix);
      Some(s[i..UrlEnd(s, i, suffix).value])
  }

  /** The lazy `\S+?`: a URL match ends at the first occurrence of the suffix after at
      least one character past the scheme, and holds no whitespace before it. */
  lemma UrlEndShortest(s: string, i: nat, suffix: string)
    requires UrlAt(s, i, suffix)
    ensures var e := SchemeEnd(s, i).value;
      var t := UrlEnd(s, i, suffix).value - |suffix|;
      && e < t
      && OccursAt(s, suffix, t)
      && (forall k :: e < k < t ==> !OccursAt(s, suffix, k))
      && (forall k :: e <= k < t ==> !IsSpace(s[k]))
  {
  }

  /** The text of a URL match starts with the scheme and ends with the suffix. */
  lemma UrlShape(s: string, i: nat, suffix: string)
    requires UrlAt(s, i, suffix)
    ensures var u := s[i..UrlEnd(s, i, suffix).value];
      StartsWith(u, "http") && EndsWith(u, suffix) && OccursAt(s, u, i)
  {
    var end := UrlEnd(s, i, suffix).value;
    var e := SchemeEnd(s, i).value;
    var u := s[i..end];
    assert u[..4] == s[i..i + 4];
    assert u[|u| - |suffix|..] == s[end - |suffix|..end];
  }

  // ---------------------------------------------------------------------------
  // The ISIN pattern `\bIE[0-9A-Z]{10}\b`

  /** An Irish ISIN starts at `i`, standing as a word of its own. */
  predicate IsinAt(s: string, i: nat) {
    && i + 12 <= |s|
    && s[i] == 'I' && s[i + 1] == 'E'
    && (forall k :: i + 2 <= k < i + 12 ==> IsUpperOrDigit(s[k]))
    && (i == 0 || !IsWordChar(s[i - 1]))
    && (i + 12 == |s| || !IsWordChar(s[i + 12]))
  }

  /** `re.search(r"\bIE[0-9A-Z]{10}\b", s).group()`: the leftmost such ISIN. */
  function FindIsin(s: string): (r: Option<string>)
    ensures r.None? <==> forall i :: 0 <= i <= |s| ==> !IsinAt(s, i)
    ensures r.Some? ==> |r.value| == 12 && StartsWith(r.value, "IE")
    ensures r.Some? ==> forall k :: 0 <= k < 12 ==> IsUpperOrDigit(r.value[k])
    ensures r.Some? ==> exists i :: (0 <= i <= |s| && IsinAt(s, i) && r.value == s[i..i + 12]
                                     && forall j :: 0 <= j < i ==> !IsinAt(s, j))
  {
    match FindFrom(s, 0, IsinAt)
    case None => None
    case Some(i) =>
      var isin := s[i..i + 12];
      assert forall k :: 0 <= k < 12 ==> isin[k] == s[i + k];
      Some(isin)
  }

  // ---------------------------------------------------------------------------
  // Records

  /** One row of `kiid_df`. */
  datatype KiidRecord = KiidRecord(
    line: string,
    fundName: string,
    shareClass: string,
    isin: Option<string>,
    kiidUrl: Option<string>)

  /** One row of `factsheet_df`: only lines with an ISIN produce one. */
  datatype FactSheetRow = FactSheetRow(isin: string, factSheetUrl: Option<string>)

  /** One row of the parser's result (`merged_df` with its Identifier column). */
  datatype PermalinkRow = PermalinkRow(
    line: string,
    fundName: string,
    shareClass: string,
    isin: Option<string>,
    kiidUrl: Option<string>,
    factSheetUrl: Option<string>,
    identifier: string)

  /** The merge on ISIN needs an ISIN column on both sides; an empty frame has none. */
  datatype ManifestError = MissingIsinColumn

  /** The share-class label: the third field, joined with the fourth unless the fourth is the ISIN. */
  function ShareClassOf(third: string, fourth: string): (r: string)
    ensures StartsWith(fourth, "IE") ==> r == third
    ensures !StartsWith(fourth, "IE") ==> StartsWith(r, third) && EndsWith(r, fourth) && |r| == |third| + 3 + |fourth|
    ensures !StartsWith(fourth, "IE") ==> r[|third|..|third| + 3] == " - "
  {
    var r := if StartsWith(fourth, "IE") then third else third + " - " + fourth;
    assert !StartsWith(fourth, "IE") ==> r[..|third|] == third && r[|r| - |fourth|..] == fourth;
    assert !StartsWith(fourth, "IE") ==> r[|third|..|third| + 3] == " - ";
    r
  }

  /** The record of one (already stripped) KIID line; none when it has fewer than four fields. */
  function KiidRecordOf(line: string): (r: Option<KiidRecord>)
    ensures r.None? <==> Count(StripQuotes(line), ',') < 3
    ensures r.Some? ==> r.value.line == line && r.value.isin == FindIsin(line)
                        && r.value.kiidUrl == FindUrl(line, "KIID.pdf")
  {
    var fields := SplitOn(StripQuotes(line), ',');
    if |fields| >= 4 then
      Some(KiidRecord(line, Strip(fields[1]), ShareClassOf(Strip(fields[2]), Strip(fields[3])),
                      FindIsin(line), FindUrl(line, "KIID.pdf")))
    else None
  }

  /** A KIID line that, once its surrounding quotes are stripped, is made of comma-free
      fields parses into those fields: the fund name is the second and the share class is
      built from the third and fourth. */
  lemma KiidRecordOfFields(line: string, fs: seq<string>)
    requires |fs| >= 4
    requires forall k :: 0 <= k < |fs| ==> ',' !in fs[k]
    requires StripQuotes(line) == JoinWith(fs, ',')
    ensures var r := KiidRecordOf(line);
      && r.Some?
      && r.value.fundName == Strip(fs[1])
      && r.value.shareClass == ShareClassOf(Strip(fs[2]), Strip(fs[3]))
  {
    SplitJoinRoundTrip(fs, ',');
  }

  /** A manifest line quoted as a whole parses into the fields between its quotes. */
  lemma QuotedKiidLine(fs: seq<string>)
    requires |fs| >= 4
    requires forall k :: 0 <= k < |fs| ==> ',' !in fs[k]
    requires var j := JoinWith(fs, ','); j != [] && j[0] != '"' && j[|j| - 1] != '"'
    ensures var r := KiidRecordOf("\"" + JoinWith(fs, ',') + "\"");
      && r.Some?
      && r.value.fundName == Strip(fs[1])
      && r.value.shareClass == ShareClassOf(Strip(fs[2]), Strip(fs[3]))
  {
    StripQuotesOfQuoted(JoinWith(fs, ','));
    KiidRecordOfFields("\"" + JoinWith(fs, ',') + "\"", fs);
  }

  /** The Fact Sheet row of one (already stripped) Fact Sheet line; none without an ISIN. */
  function FactSheetRowOf(line: string): (r: Option<FactSheetRow>)
    ensures r.None? <==> FindIsin(line).None?
    ensures r.Some? ==> Some(r.value.isin) == FindIsin(line) && r.value.factSheetUrl == FindUrl(line, "FactSheet.pdf")
  {
    match FindIsin(line)
    case None => None
    case Some(isin) => Some(FactSheetRow(isin, FindUrl(line, "FactSheet.pdf")))
  }

  /** The KIID records of the raw lines, in line order. */
  function KiidRecords(raw: seq<string>): (rs: seq<KiidRecord>)
    ensures |rs| <= |raw|
    decreases |raw|
  {
    if raw == [] then []
    else
      var rest := KiidRecords(raw[1..]);
      if IsKiidLine(raw[0]) && KiidRecordOf(Strip(raw[0])).Some? then [KiidRecordOf(Strip(raw[0])).value] + rest
      else rest
  }

  /** The Fact Sheet rows of the raw lines, in line order. */
  function FactSheetRows(raw: seq<string>): (rs: seq<FactSheetRow>)
    ensures |rs| <= |raw|
    decreases |raw|
  {
    if raw == [] then []
    else
      var rest := FactSheetRows(raw[1..]);
      if IsFactSheetLine(raw[0]) && FactSheetRowOf(Strip(raw[0])).Some? then [FactSheetRowOf(Strip(raw[0])).value] + rest
      else rest
  }

  /** The record scan treats the lines independently: two exports concatenated give the
      records of the first followed by those of the second. */
  lemma {:induction false} KiidRecordsAppend(a: seq<string>, b: seq<string>)
    ensures KiidRecords(a + b) == KiidRecords(a) + KiidRecords(b)
    decreases |a|
  {
    if a == [] {
      assert a + b == b;
    } else {
      assert (a + b)[0] == a[0];
      assert (a + b)[1..] == a[1..] + b;
      KiidRecordsAppend(a[1..], b);
    }
  }

  /** A single line yields a record exactly when it passes the KIID filter and has at
      least four fields. */
  lemma KiidRecordsOfOneLine(line: string)
    ensures |KiidRecords([line])| == 1 <==> IsKiidLine(line) && Count(StripQuotes(Strip(line)), ',') >= 3
    ensures |KiidRecords([line])| <= 1
    ensures IsKiidLine(line) && Count(StripQuotes(Strip(line)), ',') >= 3 ==>
      KiidRecords([line]) == [KiidRecordOf(Strip(line)).value]
    ensures !IsKiidLine(line) || Count(StripQuotes(Strip(line)), ',') < 3 ==> KiidRecords([line]) == []
  {
    assert [line][1..] == [];
    var r := KiidRecordOf(Strip(line));
    assert r.Some? <==> Count(StripQuotes(Strip(line)), ',') >= 3;
    assert KiidRecords([line]) == if IsKiidLine(line) && r.Some? then [r.value] else [];
  }

  /** The Fact Sheet scan treats the lines independently too. */
  lemma {:induction false} FactSheetRowsAppend(a: seq<string>, b: seq<string>)
    ensures FactSheetRows(a + b) == FactSheetRows(a) + FactSheetRows(b)
    decreases |a|
  {
    if a == [] {
      assert a + b == b;
    } else {
      assert (a + b)[0] == a[0];
      assert (a + b)[1..] == a[1..] + b;
      FactSheetRowsAppend(a[1..], b);
    }
  }

  /** A single line yields a Fact Sheet row exactly when it passes the Fact Sheet filter and
      holds an ISIN, and the row is that line's. */
  lemma FactSheetRowsOfOneLine(line: string)
    ensures IsFactSheetLine(line) && FindIsin(Strip(line)).Some? ==>
      FactSheetRows([line]) == [FactSheetRowOf(Strip(line)).value]
    ensures !IsFactSheetLine(line) || FindIsin(Strip(line)).None? ==> FactSheetRows([line]) == []
  {
    assert [line][1..] == [];
  }

  // ---------------------------------------------------------------------------
  // Merge, identifier, deduplication

  function FactIsin(f: FactSheetRow): string { f.isin }

  function RowIdentifier(r: PermalinkRow): string { r.identifier }

  /** The Fact Sheet URL a left merge on ISIN gives a KIID row: that of the first Fact
      Sheet row with the same ISIN, missing when there is none or the ISIN is missing. */
  function FactSheetUrlFor(isin: Option<string>, facts: seq<FactSheetRow>): Option<string> {
    if isin.Some? && HasKey(facts, FactIsin, isin.value) then facts[FirstIndex(facts, FactIsin, isin.value)].factSheetUrl
    else None
  }

  /** Deduplicating the Fact Sheet rows on ISIN first does not change what the merge attaches. */
  lemma DeduplicatedFactSheetsSameUrl(isin: Option<string>, facts: seq<FactSheetRow>)
    ensures FactSheetUrlFor(isin, KeepFirst(facts, FactIsin)) == FactSheetUrlFor(isin, facts)
  {
    KeepFirstSpec(facts, FactIsin);
    if isin.Some? && HasKey(facts, FactIsin, isin.value) {
      FirstOfDeduplicated(facts, FactIsin, isin.value);
    }
  }

  /** A merged row: the KIID record, its Fact Sheet URL and its key. */
  function Merged(k: KiidRecord, facts: seq<FactSheetRow>, glyphs: set<char>): (r: PermalinkRow)
    ensures r.line == k.line && r.fundName == k.fundName && r.shareClass == k.shareClass
    ensures r.isin == k.isin && r.kiidUrl == k.kiidUrl
    ensures r.factSheetUrl == FactSheetUrlFor(k.isin, facts)
    ensures r.identifier == CleanAlphaOnly(Some(k.shareClass), glyphs)
    ensures forall i :: 0 <= i < |r.identifier| ==> IsLowerLetter(r.identifier[i])
  {
    PermalinkRow(k.line, k.fundName, k.shareClass, k.isin, k.kiidUrl,
                 FactSheetUrlFor(k.isin, facts), CleanAlphaOnly(Some(k.shareClass), glyphs))
  }

  /** `kiid_df.merge(factsheet_df, on="ISIN", how="left")` plus the Identifier column:
      one row per KIID record, in the same order. */
  function MergeAll(kiid: seq<KiidRecord>, facts: seq<FactSheetRow>, glyphs: set<char>): (m: seq<PermalinkRow>)
    ensures |m| == |kiid|
    ensures forall i :: 0 <= i < |m| ==> m[i] == Merged(kiid[i], facts, glyphs)
  {
    seq(|kiid|, i requires 0 <= i < |kiid| => Merged(kiid[i], facts, glyphs))
  }

  /** The parser on the lines of the export, with the glyph set of its normaliser. */
  function ProcessLines(raw: seq<string>, glyphs: set<char>): (r: Result<seq<PermalinkRow>, ManifestError>)
    ensures r.Failure? <==> KiidRecords(raw) == [] || FactSheetRows(raw) == []
  {
    var kiid := KiidRecords(raw);
    var facts := FactSheetRows(raw);
    if kiid == [] || facts == [] then Failure(MissingIsinColumn)
    else
      var merged := MergeAll(kiid, KeepFirst(facts, FactIsin), glyphs);
      Success(KeepFirst(merged, RowIdentifier))
  }

  /** `process_permalink_file` on decoded content. */
  function ProcessPermalinkFile(content: string): (r: Result<seq<PermalinkRow>, ManifestError>)
    ensures r.Failure? <==> KiidRecords(SplitLines(StripBom(content))) == [] || FactSheetRows(SplitLines(StripBom(content))) == []
  {
    ProcessLines(SplitLines(StripBom(content)), RegisteredGlyphs)
  }

  /** What a successful parse promises: one row per identifier, each the first merged row
      with that identifier, every identifier of the merged KIID rows represented; every row
      carries a KIID line's own fields and the URL of the first Fact Sheet row with its ISIN. */
  lemma ProcessLinesSpec(raw: seq<string>, glyphs: set<char>)
    ensures var r := ProcessLines(raw, glyphs);
      r.Success? ==>
        var kiid := KiidRecords(raw);
        var facts := FactSheetRows(raw);
        var merged := MergeAll(kiid, facts, glyphs);
        && UniqueKeys(r.value, RowIdentifier)
        && (forall a :: 0 <= a < |r.value| ==>
              HasKey(merged, RowIdentifier, r.value[a].identifier)
              && r.value[a] == merged[FirstIndex(merged, RowIdentifier, r.value[a].identifier)])
        && (forall id :: HasKey(merged, RowIdentifier, id) <==> HasKey(r.value, RowIdentifier, id))
        && 0 < |r.value| <= |kiid|
  {
    var r := ProcessLines(raw, glyphs);
    if r.Success? {
      var kiid := KiidRecords(raw);
      var facts := FactSheetRows(raw);
      var merged := MergeAll(kiid, facts, glyphs);
      var merged' := MergeAll(kiid, KeepFirst(facts, FactIsin), glyphs);
      forall i | 0 <= i < |kiid| ensures merged'[i] == merged[i] {
        DeduplicatedFactSheetsSameUrl(kiid[i].isin, facts);
      }
      assert merged' == merged;
      KeepFirstSpec(merged, RowIdentifier);
      assert HasKey(merged, RowIdentifier, merged[0].identifier);
      assert HasKey(r.value, RowIdentifier, merged[0].identifier);
      assert |KeepFirst(merged, RowIdentifier)| <= |merged| by {
        assert KeepFirst(merged, RowIdentifier) == KeepFirstUnseen(merged, RowIdentifier, {});
      }
    }
  }
}

=== FILE: monitoring.dfy ===
/**
 * The weekly SRRI monitoring workbook reducer (`process_monitoring_file`, first
 * version). The sheet's first row holds week labels, the second column labels;
 * the two are combined into headers, the unlabelled "SRRI Result" columns are
 * named after the "SRRI Report" column before them, and each data row is reduced
 * to: has the SRRI ever changed, the latest and previous values, and the week the
 * latest value took over. Rows whose SRRI changed are kept, most recently
 * validated first, one per share-class identifier.
 */
module Monitoring {
  import opened Results
  import opened Text
  import opened Sequences
  import opened Identifier

  /** A workbook cell as the reader yields it: empty (NaN), or the text `str()` shows for it. */
  datatype Cell = Blank | Text(s: string)

  /** The sheet read without a header row: `width` columns, each row padded with blanks. */
  datatype Sheet = Sheet(width: nat, rows: seq<seq<Cell>>)

  datatype MonitoringError =
    | TooFewRows                           // no week row or no caption row
    | HeaderNotText                        // a combined header is NaN: the relabel scan cannot test it
    | NoDataRows                           // only the two header rows: the empty `apply` adds no change
                                           // columns, so the summary's column selection fails
    | CurrencyNotText                      // a share class with a blank currency: `.lower()` on NaN
    | MissingColumns(missing: set<string>) // the summary selects a column that is not there

  function At(row: seq<Cell>, c: nat): Cell {
    if c < |row| then row[c] else Blank
  }

  // ---------------------------------------------------------------------------
  // Headers

  /** How `str()` (and so an f-string or `astype(str)`) shows a cell: NaN as "nan". */
  function CellText(c: Cell): string {
    match c
    case Blank => "nan"
    case Text(s) => s
  }

  /** A column's header: the caption alone when there is no week, otherwise "caption (week)". */
  function HeaderOf(week: Cell, caption: Cell): (h: Cell)
    ensures week.Blank? ==> h == caption
    ensures week.Text? ==> h == Text(CellText(caption) + " (" + week.s + ")")
    ensures week.Text? ==> h.Text? && EndsWith(h.s, " (" + week.s + ")")
  {
    match week
    case Blank => caption
    case Text(w) =>
      var h := CellText(caption) + " (" + w + ")";
      assert h[|h| - |" (" + w + ")"|..] == " (" + w + ")";
      Text(h)
  }

  /** Column `c`'s header combines the week row's and the caption row's cell `c`. */
  function Headers(sheet: Sheet): (hs: seq<Cell>)
    requires |sheet.rows| >= 2
    ensures |hs| == sheet.width
    ensures forall c :: 0 <= c < sheet.width ==> hs[c] == HeaderOf(At(sheet.rows[0], c), At(sheet.rows[1], c))
  {
    seq(sheet.width, c requires 0 <= c < sheet.width => HeaderOf(At(sheet.rows[0], c), At(sheet.rows[1], c)))
  }

  /** The header texts, when no header is NaN. */
  function HeaderTexts(hs: seq<Cell>): (r: Option<seq<string>>)
    ensures r.Some? <==> forall c :: 0 <= c < |hs| ==> hs[c].Text?
    ensures r.Some? ==> |r.value| == |hs| && forall c :: 0 <= c < |hs| ==> hs[c] == Text(r.value[c])
  {
    if forall c :: 0 <= c < |hs| ==> hs[c].Text? then Some(seq(|hs|, c requires 0 <= c < |hs| => hs[c].s))
    else None
  }

  // ---------------------------------------------------------------------------
  // Relabelling "SRRI Result" after the preceding "SRRI Report"

  predicate IsReportHeader(h: string) { Contains(h, "SRRI Report") }

  /** What follows the last "(" of a report header, without ")" and surrounding whitespace. */
  function WeekContext(h: string): string {
    var parts := SplitOn(h, '(');
    WeekOfField(parts[|parts| - 1])
  }

  /** `.replace(")", "").strip()` on the last field. */
  function WeekOfField(f: string): string {
    Strip(ReplaceAll(f, ")", ""))
  }

  /** The header a column gets given the context left by the columns before it. */
  function LabelWith(h: string, ctx: Option<string>): string {
    if h == "SRRI Result" && ctx.Some? && ctx.value != [] then "SRRI Result (" + ctx.value + ")" else h
  }

  function NextContext(h: string, ctx: Option<string>): Option<string> {
    if IsReportHeader(h) then Some(WeekContext(h)) else ctx
  }

  /** The relabel reads back the week a header was built with, when the week has no
      parentheses and no surrounding whitespace. */
  lemma HeaderWeekRoundTrip(caption: Cell, w: string)
    requires '(' !in w && ')' !in w && Trimmed(w)
    ensures WeekContext(HeaderOf(Text(w), caption).s) == w
  {
    var a := CellText(caption) + " ";
    assert HeaderOf(Text(w), caption).s == a + ['('] + (w + ")");
    WeekContextOf(a, w);
  }

  lemma WeekContextOf(a: string, w: string)
    requires '(' !in w && ')' !in w && Trimmed(w)
    ensures WeekContext(a + ['('] + (w + ")")) == w
  {
    assert '(' !in w + ")";
    LastField(a, w + ")", '(');
    WeekContextOfLast(a + ['('] + (w + ")"), w);
  }

  lemma WeekContextOfLast(h: string, w: string)
    requires var parts := SplitOn(h, '('); parts[|parts| - 1] == w + ")"
    requires ')' !in w && Trimmed(w)
    ensures WeekContext(h) == w
  {
    ClosedFieldWeek(w);
  }

  lemma ClosedFieldWeek(w: string)
    requires ')' !in w && Trimmed(w)
    ensures WeekOfField(w + ")") == w
  {
    ClosingParenRemoved(w);
    StripTrimmed(w);
  }

  lemma ClosingParenRemoved(w: string)
    requires ')' !in w
    ensures ReplaceAll(w + ")", ")", "") == w
  {
    var s := w + ")";
    assert OccursAt(s, ")", |w|) by { assert s[|w|..|w| + 1] == ")"; }
    forall j | 0 <= j < |w| ensures !OccursAt(s, ")", j) {
      if j + 1 <= |s| { assert s[j..j + 1] == [w[j]]; }
    }
    ReplaceAllLeftmost(s, ")", "", |w|);
    assert s[..|w|] == w;
    assert s[|w| + 1..] == [];
  }

  /** The relabel loop from column `i` on, carrying the week context. */
  function RelabelFrom(hs: seq<string>, i: nat, ctx: Option<string>): (r: seq<string>)
    requires i <= |hs|
    ensures |r| == |hs| - i
    decreases |hs| - i
  {
    if i == |hs| then [] else [LabelWith(hs[i], ctx)] + RelabelFrom(hs, i + 1, NextContext(hs[i], ctx))
  }

  /** The relabel loop over all the headers, starting without a week context; what it
      renames is stated by `RelabelSpec`. */
  function Relabel(hs: seq<string>): (r: seq<string>)
    ensures |r| == |hs|
  {
    RelabelFrom(hs, 0, None)
  }

  /** The nearest report column before column `i`. */
  function LastReportBefore(hs: seq<string>, i: nat): (r: Option<nat>)
    requires i <= |hs|
    ensures r.Some? ==> r.value < i && IsReportHeader(hs[r.value])
    ensures r.Some? ==> forall k :: r.value < k < i ==> !IsReportHeader(hs[k])
    ensures r.None? ==> forall k :: 0 <= k < i ==> !IsReportHeader(hs[k])
  {
    if i == 0 then None
    else if IsReportHeader(hs[i - 1]) then Some(i - 1)
    else LastReportBefore(hs, i - 1)
  }

  function ContextAt(hs: seq<string>, i: nat): Option<string>
    requires i <= |hs|
  {
    match LastReportBefore(hs, i)
    case Some(j) => Some(WeekContext(hs[j]))
    case None => None
  }

  /** Column `k` of the relabel loop started at `i` with the context the columns before
      `i` leave. */
  lemma {:induction false} RelabelFromAt(hs: seq<string>, i: nat, k: nat)
    requires i <= k < |hs|
    ensures RelabelFrom(hs, i, ContextAt(hs, i))[k - i] == LabelWith(hs[k], ContextAt(hs, k))
    decreases k - i
  {
    RelabelFromStep(hs, i, ContextAt(hs, i), k);
    if i < k {
      NextContextAt(hs, i);
      RelabelFromAt(hs, i + 1, k);
    }
  }

  /** One turn of the relabel loop. */
  lemma RelabelFromStep(hs: seq<string>, i: nat, ctx: Option<string>, k: nat)
    requires i <= k < |hs|
    ensures k == i ==> RelabelFrom(hs, i, ctx)[0] == LabelWith(hs[i], ctx)
    ensures i < k ==> RelabelFrom(hs, i, ctx)[k - i] == RelabelFrom(hs, i + 1, NextContext(hs[i], ctx))[k - (i + 1)]
  {
    var t := RelabelFrom(hs, i + 1, NextContext(hs[i], ctx));
    assert RelabelFrom(hs, i, ctx) == [LabelWith(hs[i], ctx)] + t;
  }

  /** The context after column `i` is the one the loop carries on to column `i + 1`. */
  lemma NextContextAt(hs: seq<string>, i: nat)
    requires i < |hs|
    ensures NextContext(hs[i], ContextAt(hs, i)) == ContextAt(hs, i + 1)
  {
  }

  /** Each header is renamed exactly when it is a bare "SRRI Result" and the nearest report
      column before it leaves a non-empty week context; that context is then its week. */
  lemma RelabelSpec(hs: seq<string>)
    ensures |Relabel(hs)| == |hs|
    ensures forall k :: 0 <= k < |hs| ==>
      Relabel(hs)[k] == (if LastReportBefore(hs, k).None? then hs[k]
                         else LabelWith(hs[k], Some(WeekContext(hs[LastReportBefore(hs, k).value]))))
  {
    assert ContextAt(hs, 0) == None;
    forall k | 0 <= k < |hs| ensures Relabel(hs)[k] == LabelWith(hs[k], ContextAt(hs, k)) {
      RelabelFromAt(hs, 0, k);
    }
  }

  // ---------------------------------------------------------------------------
  // SRRI result columns and the values of a row

  predicate IsSrriResultColumn(h: string) { Contains(h, "SRRI Result (Week") }

  /** The SRRI result columns from column `i` on, left to right. */
  function SrriColumnsFrom(hs: seq<string>, i: nat): (cols: seq<nat>)
    requires i <= |hs|
    ensures forall k :: 0 <= k < |cols| ==> i <= cols[k] < |hs| && IsSrriResultColumn(hs[cols[k]])
    ensures forall k, l :: 0 <= k < l < |cols| ==> cols[k] < cols[l]
    ensures forall c :: i <= c < |hs| && IsSrriResultColumn(hs[c]) ==> c in cols
    decreases |hs| - i
  {
    if i == |hs| then []
    else if IsSrriResultColumn(hs[i]) then [i] + SrriColumnsFrom(hs, i + 1)
    else SrriColumnsFrom(hs, i + 1)
  }

  /** The SRRI result columns of the whole header, left to right. */
  function SrriColumns(hs: seq<string>): (cols: seq<nat>)
    ensures forall k :: 0 <= k < |cols| ==> cols[k] < |hs| && IsSrriResultColumn(hs[cols[k]])
    ensures forall k, l :: 0 <= k < l < |cols| ==> cols[k] < cols[l]
    ensures forall c :: 0 <= c < |hs| && IsSrriResultColumn(hs[c]) ==> c in cols
  {
    SrriColumnsFrom(hs, 0)
  }

  /** A non-empty SRRI cell and the column it was read from. */
  datatype Observation = Observation(column: nat, value: string)

  /** `row[srri_columns].dropna()`: the filled cells of `cols`, in column order. */
  function Observed(row: seq<Cell>, cols: seq<nat>): (obs: seq<Observation>)
    ensures |obs| <= |cols|
    ensures forall k :: 0 <= k < |obs| ==> obs[k].column in cols && At(row, obs[k].column) == Text(obs[k].value)
    ensures forall c :: c in cols && At(row, c).Text? ==> exists k :: 0 <= k < |obs| && obs[k].column == c
    decreases |cols|
  {
    if cols == [] then []
    else
      var rest := Observed(row, cols[1..]);
      assert forall c :: c in cols && c != cols[0] ==> c in cols[1..];
      if At(row, cols[0]).Blank? then rest
      else
        var obs := [Observation(cols[0], At(row, cols[0]).s)] + rest;
        assert forall k :: 0 < k < |obs| ==> obs[k] == rest[k - 1];
        assert forall c :: c in cols && At(row, c).Text? ==> exists k :: 0 <= k < |obs| && obs[k].column == c by {
          forall c | c in cols && At(row, c).Text? ensures exists k :: 0 <= k < |obs| && obs[k].column == c {
            if c == cols[0] {
              assert obs[0].column == c;
            } else {
              var k :| 0 <= k < |rest| && rest[k].column == c;
              assert obs[k + 1].column == c;
            }
          }
        }
        obs
  }

  function Values(obs: seq<Observation>): (vals: seq<string>)
    ensures |vals| == |obs| && forall k :: 0 <= k < |obs| ==> vals[k] == obs[k].value
  {
    seq(|obs|, k requires 0 <= k < |obs| => obs[k].value)
  }

  /** `nunique() == 1`: at least one value, and all the same. No values is not stable. */
  predicate Stable(vals: seq<string>) {
    |vals| > 0 && forall k :: 0 <= k < |vals| ==> vals[k] == vals[0]
  }

  /** The last position before `i` whose value differs from `latest`. */
  function LastDiffering(vals: seq<string>, latest: string, i: nat): (r: Option<nat>)
    requires i <= |vals|
    ensures r.Some? ==> r.value < i && vals[r.value] != latest
    ensures r.Some? ==> forall k :: r.value < k < i ==> vals[k] == latest
    ensures r.None? ==> forall k :: 0 <= k < i ==> vals[k] == latest
  {
    if i == 0 then None
    else if vals[i - 1] != latest then Some(i - 1)
    else LastDiffering(vals, latest, i - 1)
  }

  /** Every observation after position `i` holds the latest value. */
  predicate FinalRunAfter(obs: seq<Observation>, i: nat) {
    i < |obs| - 1 && forall k :: i < k < |obs| ==> obs[k].value == obs[|obs| - 1].value
  }

  /** Previous SRRI, Latest SRRI and Week of SRRI Change of a row. */
  datatype ChangeInfo = ChangeInfo(previous: Option<string>, latest: Option<string>, changeWeek: Option<string>)

  /** `extract_srri_change_info`. The latest value is the last one; the change week is the
      column where the final run of the latest value starts, and the previous value the one
      just before that run. Without any earlier different value, previous is latest and no
      week is given. */
  function ChangeInfoOf(obs: seq<Observation>, hs: seq<string>): (r: ChangeInfo)
    requires forall k :: 0 <= k < |obs| ==> obs[k].column < |hs|
    ensures obs == [] ==> r == ChangeInfo(None, None, None)
    ensures obs != [] ==> r.latest == Some(obs[|obs| - 1].value) && r.previous.Some?
    ensures obs != [] && r.changeWeek.None? ==>
      r.previous == r.latest && forall k :: 0 <= k < |obs| ==> obs[k].value == obs[|obs| - 1].value
    ensures r.changeWeek.Some? ==>
      r.previous != r.latest &&
      exists i: nat :: FinalRunAfter(obs, i) && Some(obs[i].value) == r.previous && r.changeWeek == Some(hs[obs[i + 1].column])
  {
    if obs == [] then ChangeInfo(None, None, None)
    else
      var vals := Values(obs);
      var latest := vals[|vals| - 1];
      var d := LastDiffering(vals, latest, |vals| - 1);
      if d.Some? then ChangeInfo(Some(vals[d.value]), Some(latest), Some(hs[obs[d.value + 1].column]))
      else ChangeInfo(Some(latest), Some(latest), None)
  }

  /** The Date of SRRI Change: the cell of the "SRRI Report" column named like the change
      week, when the sheet has such a column; blank otherwise. The reduced row carries it,
      but neither version's summary selects that column, so no output of the reducer
      depends on it. */
  function ChangeDate(row: seq<Cell>, hs: seq<string>, changeWeek: Option<string>): (d: Cell)
    ensures changeWeek.None? ==> d == Blank
    ensures changeWeek.Some? ==>
      var report := ReplaceAll(changeWeek.value, "SRRI Result", "SRRI Report");
      && (report !in hs ==> d == Blank)
      && (report in hs ==> exists c :: 0 <= c < |hs| && hs[c] == report && d == At(row, c))
  {
    if changeWeek.None? then Blank
    else
      var c := IndexOf(hs, ReplaceAll(changeWeek.value, "SRRI Result", "SRRI Report"));
      if c.None? then Blank else At(row, c.value)
  }

  /** The two readings of "changed" agree: a row is unstable exactly when it has no values
      or a change week is reported. */
  lemma StableIffNoChangeWeek(obs: seq<Observation>, hs: seq<string>)
    requires forall k :: 0 <= k < |obs| ==> obs[k].column < |hs|
    ensures Stable(Values(obs)) <==> obs != [] && ChangeInfoOf(obs, hs).changeWeek.None?
  {
    var vals := Values(obs);
    if obs != [] {
      var latest := vals[|vals| - 1];
      var r := ChangeInfoOf(obs, hs);
      if Stable(vals) {
        assert forall k :: 0 <= k < |vals| ==> vals[k] == latest;
        assert LastDiffering(vals, latest, |vals| - 1).None?;
      }
      if r.changeWeek.None? {
        assert forall k :: 0 <= k < |vals| ==> vals[k] == vals[0] by {
          forall k | 0 <= k < |vals| ensures vals[k] == vals[0] {
            assert vals[k] == latest && vals[0] == latest;
          }
        }
      }
    }
  }

  /** Values 3, 3, 3, 4 over four weeks: the change is reported at the fourth week. */
  lemma ChangeAtFourthWeek(hs: seq<string>)
    requires |hs| >= 4
    ensures var obs := [Observation(0, "3"), Observation(1, "3"), Observation(2, "3"), Observation(3, "4")];
      ChangeInfoOf(obs, hs) == ChangeInfo(Some("3"), Some("4"), Some(hs[3]))
      && !Stable(Values(obs))
  {
    var obs := [Observation(0, "3"), Observation(1, "3"), Observation(2, "3"), Observation(3, "4")];
    var vals := Values(obs);
    assert vals[2] == "3" && vals[3] == "4";
    assert LastDiffering(vals, "4", 3) == Some(2);
  }

  /** Values 3, 4, 3: the latest value is back to 3, so the change week is the third. */
  lemma ChangeBackToEarlierValue(hs: seq<string>)
    requires |hs| >= 3
    ensures var obs := [Observation(0, "3"), Observation(1, "4"), Observation(2, "3")];
      ChangeInfoOf(obs, hs) == ChangeInfo(Some("4"), Some("3"), Some(hs[2]))
  {
    var obs := [Observation(0, "3"), Observation(1, "4"), Observation(2, "3")];
    var vals := Values(obs);
    assert vals[1] == "4" && vals[2] == "3";
    assert LastDiffering(vals, "3", 2) == Some(1);
  }

  // ---------------------------------------------------------------------------
  // Per-row reduction

  /** Position of the first column named `name`. */
  function IndexOf(hs: seq<string>, name: string): (r: Option<nat>)
    ensures r.Some? ==> r.value < |hs| && hs[r.value] == name && forall k :: 0 <= k < r.value ==> hs[k] != name
    ensures r.None? ==> name !in hs
  {
    if hs == [] then None
    else if hs[0] == name then Some(0)
    else
      var t := IndexOf(hs[1..], name);
      if t.None? then None else Some(t.value + 1)
  }

  /** Column `c` is the first one named `name`. */
  predicate FirstAt(hs: seq<string>, name: string, c: int) {
    0 <= c < |hs| && hs[c] == name && forall k :: 0 <= k < c ==> hs[k] != name
  }

  /** `row.get(name, "")`: "" for a missing column, `None` for a NaN cell, otherwise the
      text of the first column with that name. */
  function Get(row: seq<Cell>, hs: seq<string>, name: string): (r: Option<string>)
    ensures name !in hs ==> r == Some([])
    ensures forall c :: FirstAt(hs, name, c) ==> r == (if At(row, c).Blank? then None else Some(At(row, c).s))
  {
    match IndexOf(hs, name)
    case None => Some([])
    case Some(c) => match At(row, c) case Blank => None case Text(s) => Some(s)
  }

  /** The cell of column `name` (blank when the column is missing). */
  function CellOf(row: seq<Cell>, hs: seq<string>, name: string): (r: Cell)
    ensures name !in hs ==> r == Blank
    ensures forall c :: FirstAt(hs, name, c) ==> r == At(row, c)
  {
    match IndexOf(hs, name)
    case None => Blank
    case Some(c) => At(row, c)
  }

  /** A data row after the reduction: the columns the summary selects. */
  datatype Reduced = Reduced(
    fund: Cell,
    subFund: Cell,
    shareClass: Cell,
    identifier: string,
    currency: Cell,
    lastValidated: Cell,
    changed: bool,
    info: ChangeInfo)

  /** The identifier of every data row; the first row whose currency is blank while its
      share class is not stops the run. */
  function Identifiers(rows: seq<seq<Cell>>, hs: seq<string>, id: (Option<string>, Option<string>) -> Option<string>)
    : (r: Result<seq<string>, MonitoringError>)
    ensures r.Success? <==> forall i :: 0 <= i < |rows| ==> id(Get(rows[i], hs, "Share Class"), Get(rows[i], hs, "Currency")).Some?
    ensures r.Success? ==> |r.value| == |rows|
    ensures r.Success? ==>
      forall i :: 0 <= i < |rows| ==> Some(r.value[i]) == id(Get(rows[i], hs, "Share Class"), Get(rows[i], hs, "Currency"))
    ensures r.Failure? ==> r.error == CurrencyNotText
    decreases |rows|
  {
    if rows == [] then Success([])
    else
      match id(Get(rows[0], hs, "Share Class"), Get(rows[0], hs, "Currency"))
      case None => Failure(CurrencyNotText)
      case Some(k) =>
        match Identifiers(rows[1..], hs, id)
        case Failure(e) => Failure(e)
        case Success(ks) =>
          assert forall i :: 1 <= i < |rows| ==> rows[i] == rows[1..][i - 1];
          Success([k] + ks)
  }

  /** The columns the summary selects from the sheet. */
  const SelectedColumns: set<string> := {"Fund", "Sub-Fund", "Share Class", "Currency", "last validated document date"}

  function MissingOf(hs: seq<string>): (m: set<string>)
    ensures forall c :: c in m <==> c in SelectedColumns && c !in hs
  {
    set c | c in SelectedColumns && c !in hs
  }

  predicate IncreasingColumns(obs: seq<Observation>) {
    forall k, l :: 0 <= k < l < |obs| ==> obs[k].column < obs[l].column
  }

  /** Read from increasing columns, the observations are in increasing column order. */
  lemma {:induction false} ObservedInOrder(row: seq<Cell>, cols: seq<nat>)
    requires forall k, l :: 0 <= k < l < |cols| ==> cols[k] < cols[l]
    ensures IncreasingColumns(Observed(row, cols))
    decreases |cols|
  {
    if cols != [] {
      var tail := cols[1..];
      assert forall k, l :: 0 <= k < l < |tail| ==> tail[k] < tail[l] by {
        forall k, l | 0 <= k < l < |tail| ensures tail[k] < tail[l] {
          assert tail[k] == cols[k + 1] && tail[l] == cols[l + 1];
        }
      }
      ObservedInOrder(row, tail);
      var rest := Observed(row, tail);
      assert forall k :: 0 <= k < |rest| ==> cols[0] < rest[k].column by {
        forall k | 0 <= k < |rest| ensures cols[0] < rest[k].column {
          var j :| 0 <= j < |tail| && tail[j] == rest[k].column;
          assert cols[j + 1] == rest[k].column;
        }
      }
      if At(row, cols[0]).Text? {
        ConsIncreasing(Observation(cols[0], At(row, cols[0]).s), rest);
      }
    }
  }

  lemma ConsIncreasing(o: Observation, rest: seq<Observation>)
    requires IncreasingColumns(rest)
    requires forall k :: 0 <= k < |rest| ==> o.column < rest[k].column
    ensures IncreasingColumns([o] + rest)
  {
    var obs := [o] + rest;
    forall k, l | 0 <= k < l < |obs| ensures obs[k].column < obs[l].column {
      assert obs[l] == rest[l - 1];
      if k > 0 { assert obs[k] == rest[k - 1]; }
    }
  }

  /** One data row reduced: the selected cells pass through from the row, and the change
      fields are those of the row's SRRI observations. */
  function ReduceRow(row: seq<Cell>, hs: seq<string>, identifier: string): (r: Reduced)
    ensures r.identifier == identifier
    ensures r.changed <==> !Stable(Values(Observed(row, SrriColumns(hs))))
    ensures r.info == ChangeInfoOf(Observed(row, SrriColumns(hs)), hs)
    ensures && r.fund == CellOf(row, hs, "Fund") && r.subFund == CellOf(row, hs, "Sub-Fund")
            && r.shareClass == CellOf(row, hs, "Share Class") && r.currency == CellOf(row, hs, "Currency")
            && r.lastValidated == CellOf(row, hs, "last validated document date")
  {
    var obs := Observed(row, SrriColumns(hs));
    Reduced(CellOf(row, hs, "Fund"), CellOf(row, hs, "Sub-Fund"), CellOf(row, hs, "Share Class"), identifier,
            CellOf(row, hs, "Currency"), CellOf(row, hs, "last validated document date"),
            !Stable(Values(obs)), ChangeInfoOf(obs, hs))
  }

  /** Steps 1 to 9 of the reducer, shared by both versions up to the identifier rule. */
  function Reduce(sheet: Sheet, id: (Option<string>, Option<string>) -> Option<string>)
    : (r: Result<seq<Reduced>, MonitoringError>)
    ensures |sheet.rows| < 2 ==> r == Failure(TooFewRows)
    ensures |sheet.rows| >= 2 && HeaderTexts(Headers(sheet)).None? ==> r == Failure(HeaderNotText)
    ensures |sheet.rows| == 2 && HeaderTexts(Headers(sheet)).Some? ==> r == Failure(NoDataRows)
    ensures |sheet.rows| > 2 && HeaderTexts(Headers(sheet)).Some? ==>
      var hs := Relabel(HeaderTexts(Headers(sheet)).value);
      var ids := Identifiers(sheet.rows[2..], hs, id);
      && (ids.Failure? ==> r == Failure(CurrencyNotText))
      && (ids.Success? && MissingOf(hs) != {} ==> r == Failure(MissingColumns(MissingOf(hs))))
      && (ids.Success? && MissingOf(hs) == {} ==>
            && r.Success? && |r.value| == |sheet.rows| - 2
            && forall i :: 0 <= i < |r.value| ==> r.value[i] == ReduceRow(sheet.rows[i + 2], hs, ids.value[i]))
  {
    if |sheet.rows| < 2 then Failure(TooFewRows)
    else match HeaderTexts(Headers(sheet))
      case None => Failure(HeaderNotText)
      case Some(hs0) =>
        if |sheet.rows| == 2 then Failure(NoDataRows) else
        var hs := Relabel(hs0);
        var rows := sheet.rows[2..];
        match Identifiers(rows, hs, id)
        case Failure(e) => Failure(e)
        case Success(ids) =>
          if MissingOf(hs) != {} then Failure(MissingColumns(MissingOf(hs)))
          else Success(seq(|rows|, i requires 0 <= i < |rows| => ReduceRow(rows[i], hs, ids[i])))
  }

  // ---------------------------------------------------------------------------
  // Keep the changed rows, most recent first, one per identifier

  /** `sort_values(date, ascending=False).drop_duplicates(subset=key, keep="first")`. */
  function LatestPerKey<T>(rows: seq<T>, date: T -> Option<int>, key: T -> string): seq<T> {
    KeepFirst(SortDesc(rows, date), key)
  }

  /** Deduplication keeps the survivors in sorted order. */
  lemma KeepFirstKeepsSorted<T>(xs: seq<T>, date: T -> Option<int>, key: T -> string)
    requires SortedDesc(xs, date)
    ensures SortedDesc(KeepFirst(xs, key), date)
  {
    KeepFirstSpec(xs, key);
    var r := KeepFirst(xs, key);
    forall a, b | 0 <= a < b < |r| ensures AtLeast(date(r[a]), date(r[b])) {
      assert r[a] == xs[FirstIndex(xs, key, key(r[a]))];
      assert r[b] == xs[FirstIndex(xs, key, key(r[b]))];
    }
  }

  /** One row per key, most recent first; every key of the input is kept, and the row kept
      for a key is at least as recent as every input row with that key. */
  lemma LatestPerKeySpec<T>(rows: seq<T>, date: T -> Option<int>, key: T -> string)
    ensures var r := LatestPerKey(rows, date, key);
      && UniqueKeys(r, key)
      && SortedDesc(r, date)
      && (forall a :: 0 <= a < |r| ==> r[a] in rows)
      && (forall k :: HasKey(rows, key, k) <==> HasKey(r, key, k))
      && (forall a, x :: 0 <= a < |r| && x in rows && key(x) == key(r[a]) ==> AtLeast(date(r[a]), date(x)))
  {
    var s := SortDesc(rows, date);
    var r := KeepFirst(s, key);
    assert UniqueKeys(r, key) && SortedDesc(r, date) by {
      KeepFirstSpec(s, key);
      KeepFirstKeepsSorted(s, date, key);
    }
    assert forall a :: 0 <= a < |r| ==> r[a] in rows by {
      KeepFirstSpec(s, key);
      forall a | 0 <= a < |r| ensures r[a] in rows {
        assert r[a] in multiset(s);
      }
    }
    assert forall k :: HasKey(rows, key, k) <==> HasKey(r, key, k) by {
      KeepFirstSpec(s, key);
      SameKeysWhenPermuted(rows, s, key);
    }
    assert forall a, x :: 0 <= a < |r| && x in rows && key(x) == key(r[a]) ==> AtLeast(date(r[a]), date(x)) by {
      KeptIsMostRecent(s, date, key);
      forall x | x in rows ensures x in s {
        assert x in multiset(s);
      }
    }
  }

  /** In rows sorted most recent first, the row kept for a key is at least as recent as
      every row with that key. */
  lemma KeptIsMostRecent<T>(s: seq<T>, date: T -> Option<int>, key: T -> string)
    requires SortedDesc(s, date)
    ensures var r := KeepFirst(s, key);
      forall a, x :: 0 <= a < |r| && x in s && key(x) == key(r[a]) ==> AtLeast(date(r[a]), date(x))
  {
    var r := KeepFirst(s, key);
    KeepFirstSpec(s, key);
    forall a, x | 0 <= a < |r| && x in s && key(x) == key(r[a]) ensures AtLeast(date(r[a]), date(x)) {
      var j :| 0 <= j < |s| && s[j] == x;
      var f := FirstIndex(s, key, key(r[a]));
      assert r[a] == s[f];
      assert f <= j;
    }
  }

  /** Reordering rows keeps the set of keys. */
  lemma SameKeysWhenPermuted<T>(xs: seq<T>, ys: seq<T>, key: T -> string)
    requires multiset(xs) == multiset(ys)
    ensures forall k :: HasKey(xs, key, k) <==> HasKey(ys, key, k)
  {
    forall k ensures HasKey(xs, key, k) ==> HasKey(ys, key, k) {
      if HasKey(xs, key, k) {
        var i :| 0 <= i < |xs| && key(xs[i]) == k;
        assert xs[i] in multiset(ys);
        var j :| 0 <= j < |ys| && ys[j] == xs[i];
      }
    }
    forall k ensures HasKey(ys, key, k) ==> HasKey(xs, key, k) {
      if HasKey(ys, key, k) {
        var i :| 0 <= i < |ys| && key(ys[i]) == k;
        assert ys[i] in multiset(xs);
        var j :| 0 <= j < |xs| && xs[j] == ys[i];
      }
    }
  }

  /** Keeping the latest row per key a second time changes nothing. */
  lemma LatestPerKeyIdempotent<T>(rows: seq<T>, date: T -> Option<int>, key: T -> string)
    ensures LatestPerKey(LatestPerKey(rows, date, key), date, key) == LatestPerKey(rows, date, key)
  {
    var r := LatestPerKey(rows, date, key);
    LatestPerKeySpec(rows, date, key);
    SortSorted(r, date);
    KeepFirstOfUnique(r, key, {});
  }

  // ---------------------------------------------------------------------------
  // Version 1 summary

  /** A row of the first version's summary. */
  datatype Summary = Summary(
    fund: Cell,
    subFund: Cell,
    shareClass: Cell,
    identifier: string,
    currency: Cell,
    lastValidatedDocument: Option<int>,   // day number of the parsed date, NaT as None
    hasSrriValueChanged: bool,
    previousSrri: Option<string>,
    latestSrri: Option<string>,
    weekOfChange: Option<string>)

  function SummaryOf(r: Reduced, parseDate: Cell -> Option<int>): Summary {
    Summary(r.fund, r.subFund, r.shareClass, r.identifier, r.currency, parseDate(r.lastValidated),
            r.changed, r.info.previous, r.info.latest, r.info.changeWeek)
  }

  function SummaryDate(s: Summary): Option<int> { s.lastValidatedDocument }

  function SummaryIdentifier(s: Summary): string { s.identifier }

  function IsChanged(r: Reduced): bool { r.changed }

  /** Step 9 of version 1: the summary rows of the changed rows, in sheet order. */
  function ChangedRows(reduced: seq<Reduced>, parseDate: Cell -> Option<int>): (r: seq<Summary>)
    ensures forall a :: 0 <= a < |r| ==> r[a].hasSrriValueChanged
    ensures forall x :: x in reduced && x.changed ==> SummaryOf(x, parseDate) in r
  {
    var changed := Keep(reduced, IsChanged);
    var r := seq(|changed|, i requires 0 <= i < |changed| => SummaryOf(changed[i], parseDate));
    assert forall x :: x in reduced && x.changed ==> SummaryOf(x, parseDate) in r by {
      forall x | x in reduced && x.changed ensures SummaryOf(x, parseDate) in r {
        KeepMembers(reduced, IsChanged, x);
        var i :| 0 <= i < |changed| && changed[i] == x;
        assert r[i] == SummaryOf(x, parseDate);
      }
    }
    r
  }

  /** `s` is the summary of a changed row of `reduced`. */
  ghost predicate SummaryOfChanged(s: Summary, reduced: seq<Reduced>, parseDate: Cell -> Option<int>) {
    exists x :: x in reduced && x.changed && s == SummaryOf(x, parseDate)
  }

  /** Every summary row comes from a changed reduced row. */
  lemma ChangedRowsFromReduced(reduced: seq<Reduced>, parseDate: Cell -> Option<int>, a: int)
    requires 0 <= a < |ChangedRows(reduced, parseDate)|
    ensures SummaryOfChanged(ChangedRows(reduced, parseDate)[a], reduced, parseDate)
  {
    var changed := Keep(reduced, IsChanged);
    assert changed[a] in changed;
    KeepMembers(reduced, IsChanged, changed[a]);
  }

  /** The summary keeps the order and the repetitions of the changed rows. */
  lemma ChangedRowsAppend(reduced: seq<Reduced>, x: Reduced, parseDate: Cell -> Option<int>)
    ensures ChangedRows(reduced + [x], parseDate)
         == ChangedRows(reduced, parseDate) + (if x.changed then [SummaryOf(x, parseDate)] else [])
  {
    KeepAppend(reduced, x, IsChanged);
    var before := Keep(reduced, IsChanged);
    var after := Keep(reduced + [x], IsChanged);
    var r := ChangedRows(reduced + [x], parseDate);
    var q := ChangedRows(reduced, parseDate) + (if x.changed then [SummaryOf(x, parseDate)] else []);
    assert |r| == |q|;
    forall a | 0 <= a < |r| ensures r[a] == q[a] {
      if a < |before| { assert after[a] == before[a]; }
    }
  }

  /** Step 10 of version 1: the most recently validated row per identifier. */
  function ChangedSummaries(reduced: seq<Reduced>, parseDate: Cell -> Option<int>): seq<Summary> {
    LatestPerKey(ChangedRows(reduced, parseDate), SummaryDate, SummaryIdentifier)
  }

  /** Every row of the summary is the summary of a changed reduced row. */
  lemma ChangedSummariesFromReduced(reduced: seq<Reduced>, parseDate: Cell -> Option<int>)
    ensures var r := ChangedSummaries(reduced, parseDate);
      forall a :: 0 <= a < |r| ==> SummaryOfChanged(r[a], reduced, parseDate)
  {
    var summaries := ChangedRows(reduced, parseDate);
    var r := ChangedSummaries(reduced, parseDate);
    forall a | 0 <= a < |r| ensures SummaryOfChanged(r[a], reduced, parseDate) {
      LatestIsKept(summaries, a);
      var i :| 0 <= i < |summaries| && summaries[i] == r[a];
      ChangedRowsFromReduced(reduced, parseDate, i);
    }
  }

  lemma LatestIsKept(summaries: seq<Summary>, a: int)
    requires 0 <= a < |LatestPerKey(summaries, SummaryDate, SummaryIdentifier)|
    ensures LatestPerKey(summaries, SummaryDate, SummaryIdentifier)[a] in summaries
  {
    LatestPerKeySpec(summaries, SummaryDate, SummaryIdentifier);
  }

  /** Only changed rows, one per identifier, most recently validated first; every changed
      identifier appears, with its most recently validated row. */
  lemma ChangedSummariesSpec(reduced: seq<Reduced>, parseDate: Cell -> Option<int>)
    ensures var r := ChangedSummaries(reduced, parseDate);
      && UniqueKeys(r, SummaryIdentifier)
      && SortedDesc(r, SummaryDate)
      && (forall a :: 0 <= a < |r| ==> r[a].hasSrriValueChanged)
      && (forall x :: x in reduced && x.changed ==> HasKey(r, SummaryIdentifier, x.identifier))
      && (forall a, x :: 0 <= a < |r| && x in reduced && x.changed && x.identifier == r[a].identifier ==>
            AtLeast(r[a].lastValidatedDocument, parseDate(x.lastValidated)))
  {
    var summaries := ChangedRows(reduced, parseDate);
    var r := ChangedSummaries(reduced, parseDate);
    assert UniqueKeys(r, SummaryIdentifier) && SortedDesc(r, SummaryDate) by {
      LatestPerKeySpec(summaries, SummaryDate, SummaryIdentifier);
    }
    assert forall a :: 0 <= a < |r| ==> r[a].hasSrriValueChanged by {
      LatestPerKeySpec(summaries, SummaryDate, SummaryIdentifier);
      forall a | 0 <= a < |r| ensures r[a].hasSrriValueChanged {
        assert r[a] in summaries;
      }
    }
    assert forall x :: x in reduced && x.changed ==> HasKey(r, SummaryIdentifier, x.identifier) by {
      LatestPerKeySpec(summaries, SummaryDate, SummaryIdentifier);
      forall x | x in reduced && x.changed ensures HasKey(r, SummaryIdentifier, x.identifier) {
        var i :| 0 <= i < |summaries| && summaries[i] == SummaryOf(x, parseDate);
        assert HasKey(summaries, SummaryIdentifier, x.identifier);
      }
    }
    assert forall a, x :: 0 <= a < |r| && x in reduced && x.changed && x.identifier == r[a].identifier ==>
             AtLeast(r[a].lastValidatedDocument, parseDate(x.lastValidated)) by {
      LatestPerKeySpec(summaries, SummaryDate, SummaryIdentifier);
      forall a, x | 0 <= a < |r| && x in reduced && x.changed && x.identifier == r[a].identifier
        ensures AtLeast(r[a].lastValidatedDocument, parseDate(x.lastValidated))
      {
        assert SummaryOf(x, parseDate) in summaries;
        assert SummaryDate(SummaryOf(x, parseDate)) == parseDate(x.lastValidated);
      }
    }
  }

  /** `process_monitoring_file` (version 1) on a read sheet; `parseDate` is the day-first
      date parser, `None` where it gives NaT. It fails exactly when the reduction fails. */
  function ProcessMonitoringV1(sheet: Sheet, parseDate: Cell -> Option<int>): (r: Result<seq<Summary>, MonitoringError>)
    ensures r.Failure? <==> Reduce(sheet, MonitoringIdV1).Failure?
    ensures r.Failure? ==> r.error == Reduce(sheet, MonitoringIdV1).error
    ensures r.Success? ==> r.value == ChangedSummaries(Reduce(sheet, MonitoringIdV1).value, parseDate)
  {
    match Reduce(sheet, MonitoringIdV1)
    case Failure(e) => Failure(e)
    case Success(reduced) => Success(ChangedSummaries(reduced, parseDate))
  }
}

=== FILE: monitoring_v2.dfy ===
/**
 * The second version of `process_monitoring_file`. Steps 1 to 9 are those of the
 * first version with the second identifier rule; on top of them the change week is
 * cut down to its "Week N" part, the SRRI values become numbers, the text columns
 * are rendered with `astype(str)`, a second deduplication is guarded by a
 * duplicate check, and the column labels are written UPPERCASE_WITH_UNDERSCORES.
 */
module MonitoringV2 {
  import opened Results
  import opened Text
  import opened Sequences
  import opened Identifier
  import opened Monitoring

  // ---------------------------------------------------------------------------
  // The pattern `Week\s*\d+`

  /** The end of the run of digits starting at `j`: where a greedy `\d+` stops. */
  function DigitsEnd(s: string, j: nat): (k: nat)
    requires j <= |s|
    ensures j <= k <= |s|
    ensures forall i :: j <= i < k ==> IsDigit(s[i])
    ensures k < |s| ==> !IsDigit(s[k])
    decreases |s| - j
  {
    if j < |s| && IsDigit(s[j]) then DigitsEnd(s, j + 1) else j
  }

  /** The pattern matches at `i`: "Week", any whitespace, then at least one digit. Giving
      whitespace back to `\s*` cannot help `\d+`, so the greedy reading is the only one. */
  predicate WeekTagAt(s: string, i: nat) {
    && OccursAt(s, "Week", i)
    && SkipSpaces(s, i + 4) < |s|
    && IsDigit(s[SkipSpaces(s, i + 4)])
  }

  /** `re.search(r"Week\s*\d+", s).group(0)`, or `None` without a match. */
  function WeekTag(s: string): (r: Option<string>)
    ensures r.None? <==> forall i :: 0 <= i <= |s| ==> !WeekTagAt(s, i)
    ensures r.Some? ==> StartsWith(r.value, "Week") && IsDigit(r.value[|r.value| - 1])
    ensures r.Some? ==> exists i :: 0 <= i <= |s| && WeekTagAt(s, i) && OccursAt(s, r.value, i)
                                    && forall j :: 0 <= j < i ==> !WeekTagAt(s, j)
  {
    var m := (t: string, i: nat) => WeekTagAt(t, i);
    var f := FindFrom(s, 0, m);
    forall j | 0 <= j <= |s| && (f.None? || j < f.value) ensures !WeekTagAt(s, j) {
      assert !m(s, j);
    }
    if f.None? then None
    else
      var i := f.value;
      assert m(s, i);
      WeekTagShape(s, i);
      Some(s[i..DigitsEnd(s, SkipSpaces(s, i + 4))])
  }

  /** The text of a match starts with "Week" and ends with a digit. */
  lemma WeekTagShape(s: string, i: nat)
    requires WeekTagAt(s, i)
    ensures var t := s[i..DigitsEnd(s, SkipSpaces(s, i + 4))];
      StartsWith(t, "Week") && IsDigit(t[|t| - 1]) && OccursAt(s, t, i)
  {
    var j := SkipSpaces(s, i + 4);
    var e := DigitsEnd(s, j);
    var t := s[i..e];
    assert t[..4] == s[i..i + 4];
    assert t[|t| - 1] == s[e - 1];
  }

  /** The match found is the leftmost place the pattern matches, taken up to the end of
      its digits. */
  lemma WeekTagLeftmost(s: string, i: nat)
    requires i <= |s| && WeekTagAt(s, i)
    requires forall j :: 0 <= j < i ==> !WeekTagAt(s, j)
    ensures WeekTag(s) == Some(s[i..DigitsEnd(s, SkipSpaces(s, i + 4))])
  {
    var m := (t: string, k: nat) => WeekTagAt(t, k);
    var f := FindFrom(s, 0, m);
    assert m(s, i);
    assert f.Some?;
    assert m(s, f.value);
    assert f.value == i;
  }

  /** A change week of the form "SRRI Result (Week 7)" is reported as "Week 7". */
  lemma WeekTagOfResultHeader(n: string)
    requires n != [] && forall k :: 0 <= k < |n| ==> IsDigit(n[k])
    ensures WeekTag("SRRI Result (Week " + n + ")") == Some("Week " + n)
  {
    var h := "SRRI Result (Week " + n + ")";
    ResultHeaderMatch(n);
    ResultHeaderNoEarlierMatch(n);
    WeekTagLeftmost(h, 13);
    ResultHeaderSlice(n);
  }

  lemma ResultHeaderSlice(n: string)
    ensures ("SRRI Result (Week " + n + ")")[13..18 + |n|] == "Week " + n
  {
  }

  lemma ResultHeaderMatch(n: string)
    requires n != [] && forall k :: 0 <= k < |n| ==> IsDigit(n[k])
    ensures var h := "SRRI Result (Week " + n + ")";
      WeekTagAt(h, 13) && SkipSpaces(h, 17) == 18 && DigitsEnd(h, 18) == 18 + |n|
  {
    var h := "SRRI Result (Week " + n + ")";
    assert OccursAt(h, "Week", 13);
    assert SkipSpaces(h, 17) == 18 by {
      assert IsSpace(h[17]) && !IsSpace(h[18]);
    }
    assert h[18] == n[0];
    DigitsEndOfRun(h, 18, |n|);
  }

  lemma ResultHeaderNoEarlierMatch(n: string)
    ensures var h := "SRRI Result (Week " + n + ")";
      forall j :: 0 <= j < 13 ==> !WeekTagAt(h, j)
  {
    var h := "SRRI Result (Week " + n + ")";
    forall j | 0 <= j < 13 ensures !WeekTagAt(h, j) {
      assert h[..13] == "SRRI Result (";
      assert h[j] in "SRRI Result (";
      assert h[j] != 'W';
      assert h[j..j + 4][0] == h[j];
    }
  }

  /** The digits of `s` from `j` on, up to a non-digit after `n` of them. */
  lemma DigitsEndOfRun(s: string, j: nat, n: nat)
    requires j + n < |s| && !IsDigit(s[j + n])
    requires forall k :: j <= k < j + n ==> IsDigit(s[k])
    ensures DigitsEnd(s, j) == j + n
    decreases n
  {
    if n > 0 {
      DigitsEndOfRun(s, j + 1, n - 1);
    }
  }

  /** The "Week of SRRI Change" column of version 2. */
  function WeekOfChange(changeWeek: Option<string>): (r: Option<string>)
    ensures changeWeek.None? ==> r.None?
    ensures changeWeek.Some? ==> r == WeekTag(changeWeek.value)
  {
    if changeWeek.None? then None else WeekTag(changeWeek.value)
  }

  // ---------------------------------------------------------------------------
  // Rows of the version 2 summary

  /** A row of the second version's summary, after the type conversions. */
  datatype SummaryV2 = SummaryV2(
    fund: string,                        // `astype(str)`: NaN became "nan"
    subFund: string,
    shareClass: string,
    identifier: string,
    currency: string,
    lastValidatedDocument: Option<int>,  // the parsed date, NaT as None
    hasSrriValueChanged: bool,
    previousSrri: Option<real>,          // `to_numeric(errors="coerce")`, NaN as None
    latestSrri: Option<real>,
    weekOfChange: string)                // `astype(str)`: a missing week became "None"

  /** `astype(str)` of an optional string: Python's `str(None)`. */
  function OrNone(v: Option<string>): (r: string)
    ensures v.Some? ==> r == v.value
    ensures v.None? ==> r == "None"
  {
    if v.None? then "None" else v.value
  }

  /** Steps 9 and 10 on one reduced row. `toNumber` is `pd.to_numeric` on one value;
      re-parsing the dates that failed to parse gives NaT again, so the fallback parse
      leaves the dates as they were. */
  function SummaryV2Of(r: Reduced, parseDate: Cell -> Option<int>, toNumber: string -> Option<real>): (s: SummaryV2)
    ensures s.identifier == r.identifier && s.hasSrriValueChanged == r.changed
    ensures && s.fund == CellText(r.fund) && s.subFund == CellText(r.subFund)
            && s.shareClass == CellText(r.shareClass) && s.currency == CellText(r.currency)
    ensures s.lastValidatedDocument == parseDate(r.lastValidated)
    ensures s.previousSrri == (if r.info.previous.None? then None else toNumber(r.info.previous.value))
    ensures s.latestSrri == (if r.info.latest.None? then None else toNumber(r.info.latest.value))
    ensures r.info.changeWeek.None? ==> s.weekOfChange == "None"
    ensures r.info.changeWeek.Some? ==> s.weekOfChange == OrNone(WeekOfChange(r.info.changeWeek))
  {
    SummaryV2(CellText(r.fund), CellText(r.subFund), CellText(r.shareClass), r.identifier, CellText(r.currency),
              parseDate(r.lastValidated), r.changed,
              if r.info.previous.Some? then toNumber(r.info.previous.value) else None,
              if r.info.latest.Some? then toNumber(r.info.latest.value) else None,
              OrNone(WeekOfChange(r.info.changeWeek)))
  }

  function DateV2(s: SummaryV2): Option<int> { s.lastValidatedDocument }

  function IdentifierV2(s: SummaryV2): string { s.identifier }

  /** The changed rows after the conversions, in sheet order. */
  function ChangedRowsV2(reduced: seq<Reduced>, parseDate: Cell -> Option<int>, toNumber: string -> Option<real>)
    : (r: seq<SummaryV2>)
    ensures forall a :: 0 <= a < |r| ==> r[a].hasSrriValueChanged
    ensures forall x :: x in reduced && x.changed ==> SummaryV2Of(x, parseDate, toNumber) in r
  {
    var changed := Keep(reduced, IsChanged);
    var r := seq(|changed|, i requires 0 <= i < |changed| => SummaryV2Of(changed[i], parseDate, toNumber));
    assert forall x :: x in reduced && x.changed ==> SummaryV2Of(x, parseDate, toNumber) in r by {
      forall x | x in reduced && x.changed ensures SummaryV2Of(x, parseDate, toNumber) in r {
        KeepMembers(reduced, IsChanged, x);
        var i :| 0 <= i < |changed| && changed[i] == x;
        assert r[i] == SummaryV2Of(x, parseDate, toNumber);
      }
    }
    r
  }

  /** `s` is the converted summary of a changed row of `reduced`. */
  ghost predicate SummaryV2OfChanged(s: SummaryV2, reduced: seq<Reduced>, parseDate: Cell -> Option<int>,
                                     toNumber: string -> Option<real>) {
    exists x :: x in reduced && x.changed && s == SummaryV2Of(x, parseDate, toNumber)
  }

  /** Every converted row comes from a changed reduced row. */
  lemma ChangedRowsV2FromReduced(reduced: seq<Reduced>, parseDate: Cell -> Option<int>,
                                 toNumber: string -> Option<real>, a: int)
    requires 0 <= a < |ChangedRowsV2(reduced, parseDate, toNumber)|
    ensures SummaryV2OfChanged(ChangedRowsV2(reduced, parseDate, toNumber)[a], reduced, parseDate, toNumber)
  {
    var changed := Keep(reduced, IsChanged);
    assert changed[a] in changed;
    KeepMembers(reduced, IsChanged, changed[a]);
  }

  /** The converted rows keep the order and the repetitions of the changed rows. */
  lemma ChangedRowsV2Append(reduced: seq<Reduced>, x: Reduced, parseDate: Cell -> Option<int>,
                            toNumber: string -> Option<real>)
    ensures ChangedRowsV2(reduced + [x], parseDate, toNumber)
         == ChangedRowsV2(reduced, parseDate, toNumber) + (if x.changed then [SummaryV2Of(x, parseDate, toNumber)] else [])
  {
    KeepAppend(reduced, x, IsChanged);
    var before := Keep(reduced, IsChanged);
    var after := Keep(reduced + [x], IsChanged);
    var r := ChangedRowsV2(reduced + [x], parseDate, toNumber);
    var q := ChangedRowsV2(reduced, parseDate, toNumber) + (if x.changed then [SummaryV2Of(x, parseDate, toNumber)] else []);
    assert |r| == |q|;
    forall a | 0 <= a < |r| ensures r[a] == q[a] {
      if a < |before| { assert after[a] == before[a]; }
    }
  }

  // ---------------------------------------------------------------------------
  // The guarded second deduplication

  predicate HasDuplicateIdentifier(rows: seq<SummaryV2>) {
    exists i, j :: 0 <= i < j < |rows| && rows[i].identifier == rows[j].identifier
  }

  /** Step 11: sort and deduplicate again, but only when some identifier occurs twice. */
  function SecondPass(rows: seq<SummaryV2>): (r: seq<SummaryV2>)
    ensures !HasDuplicateIdentifier(rows) ==> r == rows
  {
    if HasDuplicateIdentifier(rows) then LatestPerKey(rows, DateV2, IdentifierV2) else rows
  }

  /** After the first deduplication no identifier occurs twice, so the second pass keeps
      the rows as they are; and were it to run, it would not change them either. */
  lemma SecondPassChangesNothing(rows: seq<SummaryV2>)
    ensures var first := LatestPerKey(rows, DateV2, IdentifierV2);
      && !HasDuplicateIdentifier(first)
      && SecondPass(first) == first
      && LatestPerKey(first, DateV2, IdentifierV2) == first
  {
    var first := LatestPerKey(rows, DateV2, IdentifierV2);
    LatestPerKeySpec(rows, DateV2, IdentifierV2);
    LatestPerKeyIdempotent(rows, DateV2, IdentifierV2);
  }

  // ---------------------------------------------------------------------------
  // Column labels

  /** The labels of the selected and renamed columns, in order. */
  const SummaryLabelsV2: seq<string> := [
    "Fund", "Sub-Fund", "Share Class", "Identifier", "Currency", "Last validated document",
    "Has SRRI Value Changed", "Previous SRRI", "Latest SRRI", "Week_of_Change"]

  /** Step 13: the labels the second version returns. */
  function OutputColumnsV2(): (cs: seq<string>)
    ensures |cs| == |SummaryLabelsV2|
    ensures forall i :: 0 <= i < |cs| ==> cs[i] == Underscored(SummaryLabelsV2[i])
  {
    seq(|SummaryLabelsV2|, i requires 0 <= i < |SummaryLabelsV2| => Underscored(SummaryLabelsV2[i]))
  }

  /** The returned labels, written out. */
  const OutputLabelsV2: seq<string> := [
    "FUND", "SUB_FUND", "SHARE_CLASS", "IDENTIFIER", "CURRENCY", "LAST_VALIDATED_DOCUMENT", "HAS_SRRI_VALUE_CHANGED", "PREVIOUS_SRRI", "LATEST_SRRI", "WEEK_OF_CHANGE"]

  /** Character by character, the labels become the returned ones, and those stay put. */
  lemma LabelsRenamed()
    ensures LabelsMapOnto(SummaryLabelsV2, OutputLabelsV2)
  {
    Renamed0();
    Renamed1();
    Renamed2();
    Renamed3();
    Renamed4();
    Renamed5();
    Renamed6();
    Renamed7();
    Renamed8();
    Renamed9();
  }

  /** Each returned label is already upper case with underscores and nothing to strip. */
  lemma LabelsSettled()
    ensures LabelsMapOnto(OutputLabelsV2, OutputLabelsV2)
    ensures forall i :: 0 <= i < |OutputLabelsV2| ==> Trimmed(OutputLabelsV2[i])
  {
    Fixed0();
    Fixed1();
    Fixed2();
    Fixed3();
    Fixed4();
    Fixed5();
    Fixed6();
    Fixed7();
    Fixed8();
    Fixed9();
  }

  lemma Renamed0()
    ensures LabelMapsOnto("Fund", "FUND")
  {
  }

  lemma Fixed0()
    ensures LabelMapsOnto("FUND", "FUND") && Trimmed("FUND")
  {
  }

  lemma Renamed1()
    ensures LabelMapsOnto("Sub-Fund", "SUB_FUND")
  {
  }

  lemma Fixed1()
    ensures LabelMapsOnto("SUB_FUND", "SUB_FUND") && Trimmed("SUB_FUND")
  {
  }

  lemma Renamed2()
    ensures LabelMapsOnto("Share Class", "SHARE_CLASS")
  {
  }

  lemma Fixed2()
    ensures LabelMapsOnto("SHARE_CLASS", "SHARE_CLASS") && Trimmed("SHARE_CLASS")
  {
  }

  lemma Renamed3()
    ensures LabelMapsOnto("Identifier", "IDENTIFIER")
  {
  }

  lemma Fixed3()
    ensures LabelMapsOnto("IDENTIFIER", "IDENTIFIER") && Trimmed("IDENTIFIER")
  {
  }

  lemma Renamed4()
    ensures LabelMapsOnto("Currency", "CURRENCY")
  {
  }

  lemma Fixed4()
    ensures LabelMapsOnto("CURRENCY", "CURRENCY") && Trimmed("CURRENCY")
  {
  }

  lemma Renamed5()
    ensures LabelMapsOnto("Last validated document", "LAST_VALIDATED_DOCUMENT")
  {
  }

  lemma Fixed5()
    ensures LabelMapsOnto("LAST_VALIDATED_DOCUMENT", "LAST_VALIDATED_DOCUMENT") && Trimmed("LAST_VALIDATED_DOCUMENT")
  {
  }

  lemma Renamed6()
    ensures LabelMapsOnto("Has SRRI Value Changed", "HAS_SRRI_VALUE_CHANGED")
  {
  }

  lemma Fixed6()
    ensures LabelMapsOnto("HAS_SRRI_VALUE_CHANGED", "HAS_SRRI_VALUE_CHANGED") && Trimmed("HAS_SRRI_VALUE_CHANGED")
  {
  }

  lemma Renamed7()
    ensures LabelMapsOnto("Previous SRRI", "PREVIOUS_SRRI")
  {
  }

  lemma Fixed7()
    ensures LabelMapsOnto("PREVIOUS_SRRI", "PREVIOUS_SRRI") && Trimmed("PREVIOUS_SRRI")
  {
  }

  lemma Renamed8()
    ensures LabelMapsOnto("Latest SRRI", "LATEST_SRRI")
  {
  }

  lemma Fixed8()
    ensures LabelMapsOnto("LATEST_SRRI", "LATEST_SRRI") && Trimmed("LATEST_SRRI")
  {
  }

  lemma Renamed9()
    ensures LabelMapsOnto("Week_of_Change", "WEEK_OF_CHANGE")
  {
  }

  lemma Fixed9()
    ensures LabelMapsOnto("WEEK_OF_CHANGE", "WEEK_OF_CHANGE") && Trimmed("WEEK_OF_CHANGE")
  {
  }

  /** The labels the comparison looks up are among the returned ones, and every returned
      label is its own renaming (upper case, no spaces or hyphens). */
  lemma OutputColumnsV2Spec()
    ensures OutputColumnsV2() == OutputLabelsV2
    ensures forall i :: 0 <= i < |OutputColumnsV2()| ==>
      IsAscii(OutputColumnsV2()[i]) && Underscored(OutputColumnsV2()[i]) == OutputColumnsV2()[i]
  {
    LabelsRenamed();
    LabelsSettled();
    UnderscoredEach(SummaryLabelsV2, OutputLabelsV2);
    UnderscoredEach(OutputLabelsV2, OutputLabelsV2);
  }

  // ---------------------------------------------------------------------------
  // The whole version 2 reducer

  /** Steps 9 to 11 of version 2 on the reduced rows. */
  function ChangedSummariesV2(reduced: seq<Reduced>, parseDate: Cell -> Option<int>, toNumber: string -> Option<real>)
    : seq<SummaryV2>
  {
    SecondPass(LatestPerKey(ChangedRowsV2(reduced, parseDate, toNumber), DateV2, IdentifierV2))
  }

  /** Only changed rows, one per identifier, most recently validated first; every changed
      identifier appears, with its most recently validated row. */
  lemma ChangedSummariesV2Spec(reduced: seq<Reduced>, parseDate: Cell -> Option<int>, toNumber: string -> Option<real>)
    ensures var r := ChangedSummariesV2(reduced, parseDate, toNumber);
      && UniqueKeys(r, IdentifierV2)
      && SortedDesc(r, DateV2)
      && (forall a :: 0 <= a < |r| ==> r[a].hasSrriValueChanged)
      && (forall x :: x in reduced && x.changed ==> HasKey(r, IdentifierV2, x.identifier))
      && (forall a, x :: 0 <= a < |r| && x in reduced && x.changed && x.identifier == r[a].identifier ==>
            AtLeast(r[a].lastValidatedDocument, parseDate(x.lastValidated)))
  {
    var rows := ChangedRowsV2(reduced, parseDate, toNumber);
    SecondPassChangesNothing(rows);
    LatestPerKeySpec(rows, DateV2, IdentifierV2);
    ChangedV2Covers(reduced, parseDate, toNumber);
    ChangedV2Latest(reduced, parseDate, toNumber);
  }

  /** Every row of the version 2 summary is the converted summary of a changed row. */
  lemma ChangedSummariesV2FromReduced(reduced: seq<Reduced>, parseDate: Cell -> Option<int>,
                                      toNumber: string -> Option<real>)
    ensures var r := ChangedSummariesV2(reduced, parseDate, toNumber);
      forall a :: 0 <= a < |r| ==> SummaryV2OfChanged(r[a], reduced, parseDate, toNumber)
  {
    var rows := ChangedRowsV2(reduced, parseDate, toNumber);
    var r := ChangedSummariesV2(reduced, parseDate, toNumber);
    SecondPassChangesNothing(rows);
    forall a | 0 <= a < |r| ensures SummaryV2OfChanged(r[a], reduced, parseDate, toNumber) {
      LatestV2IsKept(rows, a);
      var i :| 0 <= i < |rows| && rows[i] == r[a];
      ChangedRowsV2FromReduced(reduced, parseDate, toNumber, i);
    }
  }

  lemma LatestV2IsKept(rows: seq<SummaryV2>, a: int)
    requires 0 <= a < |LatestPerKey(rows, DateV2, IdentifierV2)|
    ensures LatestPerKey(rows, DateV2, IdentifierV2)[a] in rows
  {
    LatestPerKeySpec(rows, DateV2, IdentifierV2);
  }

  lemma ChangedV2Covers(reduced: seq<Reduced>, parseDate: Cell -> Option<int>, toNumber: string -> Option<real>)
    ensures var r := LatestPerKey(ChangedRowsV2(reduced, parseDate, toNumber), DateV2, IdentifierV2);
      && (forall a :: 0 <= a < |r| ==> r[a].hasSrriValueChanged)
      && forall x :: x in reduced && x.changed ==> HasKey(r, IdentifierV2, x.identifier)
  {
    var rows := ChangedRowsV2(reduced, parseDate, toNumber);
    var r := LatestPerKey(rows, DateV2, IdentifierV2);
    LatestPerKeySpec(rows, DateV2, IdentifierV2);
    forall a | 0 <= a < |r| ensures r[a].hasSrriValueChanged {
      assert r[a] in rows;
    }
    forall x | x in reduced && x.changed ensures HasKey(r, IdentifierV2, x.identifier) {
      var i :| 0 <= i < |rows| && rows[i] == SummaryV2Of(x, parseDate, toNumber);
      assert HasKey(rows, IdentifierV2, x.identifier);
    }
  }

  lemma ChangedV2Latest(reduced: seq<Reduced>, parseDate: Cell -> Option<int>, toNumber: string -> Option<real>)
    ensures var r := LatestPerKey(ChangedRowsV2(reduced, parseDate, toNumber), DateV2, IdentifierV2);
      forall a, x :: 0 <= a < |r| && x in reduced && x.changed && x.identifier == r[a].identifier ==>
        AtLeast(r[a].lastValidatedDocument, parseDate(x.lastValidated))
  {
    var rows := ChangedRowsV2(reduced, parseDate, toNumber);
    var r := LatestPerKey(rows, DateV2, IdentifierV2);
    LatestPerKeySpec(rows, DateV2, IdentifierV2);
    forall a, x | 0 <= a < |r| && x in reduced && x.changed && x.identifier == r[a].identifier
      ensures AtLeast(r[a].lastValidatedDocument, parseDate(x.lastValidated))
    {
      var y := SummaryV2Of(x, parseDate, toNumber);
      assert y in rows;
      assert IdentifierV2(y) == IdentifierV2(r[a]);
      assert AtLeast(DateV2(r[a]), DateV2(y));
    }
  }

  /** `process_monitoring_file` (version 2) on a read sheet. It fails exactly when the
      reduction with the second identifier rule fails. */
  function ProcessMonitoringV2(sheet: Sheet, parseDate: Cell -> Option<int>, toNumber: string -> Option<real>)
    : (r: Result<seq<SummaryV2>, MonitoringError>)
    ensures r.Failure? <==> Reduce(sheet, MonitoringIdV2).Failure?
    ensures r.Failure? ==> r.error == Reduce(sheet, MonitoringIdV2).error
    ensures r.Success? ==> r.value == ChangedSummariesV2(Reduce(sheet, MonitoringIdV2).value, parseDate, toNumber)
  {
    match Reduce(sheet, MonitoringIdV2)
    case Failure(e) => Failure(e)
    case Success(reduced) => Success(ChangedSummariesV2(reduced, parseDate, toNumber))
  }
}

=== FILE: reconcile.dfy ===
/**
 * `compare_srri_values` (the second comparer): both tables get their column labels
 * normalised, the required columns are checked, the permalink table is inner-joined
 * with three monitoring columns on IDENTIFIER, the rows whose KIID_SRRI differs from
 * the LATEST_SRRI are kept and a fixed list of report columns is selected from them.
 *
 * Tables are column labels plus rows of cells; a cell missing from a short row reads
 * as a missing value. Cells compare with Python's `!=`, under which a missing value
 * differs from everything.
 */
module Reconcile {
  import opened Results
  import opened Text
  import opened Sequences
  import Monitoring
  import MonitoringV2
  import Manifest
  import Extraction

  /** One cell of a data frame; `Null` is NaN / None / NaT. */
  datatype Value = Null | Str(s: string) | Num(x: real) | Flag(b: bool) | Day(d: int)

  datatype Table = Table(columns: seq<string>, rows: seq<seq<Value>>)

  /** What the comparer raises. */
  datatype CompareError =
    | MissingMonitoringColumns(missing: set<string>)   // ValueError of the monitoring check
    | MissingPermalinkColumns(missing: set<string>)    // ValueError of the permalink check
    | MissingMergedColumn(name: string)                // KeyError when reading a merged column

  function ValueAt(row: seq<Value>, k: nat): Value {
    if k < |row| then row[k] else Null
  }

  /** `name` is the label of column `k` and of no column before it. */
  predicate FirstAt(cols: seq<string>, name: string, k: nat) {
    k < |cols| && cols[k] == name && forall j :: 0 <= j < k ==> cols[j] != name
  }

  /** The cell under the first column called `name`; a missing column reads as `Null`. */
  function Lookup(row: seq<Value>, cols: seq<string>, name: string): (v: Value)
    ensures name !in cols ==> v == Null
    ensures forall k :: FirstAt(cols, name, k) ==> v == ValueAt(row, k)
  {
    match Monitoring.IndexOf(cols, name)
    case None => Null
    case Some(k) => ValueAt(row, k)
  }

  /** Python's `a != b` on two cells: a missing value differs from everything, itself included. */
  predicate Differs(a: Value, b: Value) {
    a.Null? || b.Null? || a != b
  }

  // ---------------------------------------------------------------------------
  // Column labels

  /** `.str.strip().str.upper().str.replace(" ", "_").str.replace("-", "_")` on one label. */
  function NormaliseLabel(c: string): string {
    Underscored(Strip(c))
  }

  function NormaliseColumns(cols: seq<string>): (r: seq<string>)
    ensures |r| == |cols| && forall i :: 0 <= i < |cols| ==> r[i] == NormaliseLabel(cols[i])
  {
    Map(cols, NormaliseLabel)
  }

  /** Labels with nothing to strip that map one character at a time onto `ys` are normalised to `ys`. */
  lemma NormaliseColumnsOf(xs: seq<string>, ys: seq<string>)
    requires LabelsMapOnto(xs, ys)
    requires forall i :: 0 <= i < |xs| ==> Trimmed(xs[i])
    ensures NormaliseColumns(xs) == ys
  {
    UnderscoredEach(xs, ys);
    forall i | 0 <= i < |xs| ensures NormaliseLabel(xs[i]) == ys[i] {
      StripTrimmed(xs[i]);
    }
  }

  const RequiredMonitoring: set<string> := {"IDENTIFIER", "LATEST_SRRI", "WEEK_OF_CHANGE"}

  const RequiredPermalink: set<string> := {"IDENTIFIER", "KIID_SRRI"}

  /** The non-key monitoring columns the join brings in; on a clash pandas suffixes both sides. */
  const Brought: set<string> := {"LATEST_SRRI", "WEEK_OF_CHANGE"}

  /** The report columns, in report order. */
  const FinalColumns: seq<string> := [
    "FUND_NAME", "SHARE_CLASS", "ISIN", "KIID_PDF_URL", "FACT_SHEET_URL", "IDENTIFIER",
    "KIID_SRRI", "LATEST_SRRI", "WEEK_OF_CHANGE", "MANAGEMENT_FEE", "SHARE_CLASS_INCEPTION"]

  /** `required - set(cols)`. */
  function Missing(required: set<string>, cols: seq<string>): (m: set<string>)
    ensures forall c :: c in m <==> c in required && c !in cols
  {
    set c | c in required && c !in cols
  }

  function LeftLabel(c: string): string {
    if c in Brought then c + "_x" else c
  }

  function RightLabel(c: string, left: seq<string>): string {
    if c in left then c + "_y" else c
  }

  /** The labels of the joined table: the permalink labels (IDENTIFIER once, as the key),
      then LATEST_SRRI and WEEK_OF_CHANGE, each pair of clashing labels suffixed `_x`/`_y`. */
  function MergedColumns(left: seq<string>): (cs: seq<string>)
    ensures |cs| == |left| + 2
    ensures forall i :: 0 <= i < |left| ==> cs[i] == LeftLabel(left[i])
    ensures cs[|left|] == RightLabel("LATEST_SRRI", left) && cs[|left| + 1] == RightLabel("WEEK_OF_CHANGE", left)
  {
    Map(left, LeftLabel) + [RightLabel("LATEST_SRRI", left), RightLabel("WEEK_OF_CHANGE", left)]
  }

  /** The joined row of a permalink row and a monitoring row. */
  function MergedRow(l: seq<Value>, r: seq<Value>, lc: seq<string>, rc: seq<string>): (m: seq<Value>)
    ensures |m| == |lc| + 2
    ensures forall k :: 0 <= k < |lc| ==> m[k] == ValueAt(l, k)
    ensures m[|lc|] == Lookup(r, rc, "LATEST_SRRI") && m[|lc| + 1] == Lookup(r, rc, "WEEK_OF_CHANGE")
  {
    Map(seq(|lc|, k => k), (k: int) => ValueAt(l, if k < 0 then 0 else k))
      + [Lookup(r, rc, "LATEST_SRRI"), Lookup(r, rc, "WEEK_OF_CHANGE")]
  }

  // ---------------------------------------------------------------------------
  // The inner join

  /** The pairs of `l` with the rows of `rs` that have its key, in the order of `rs`. */
  function Matches<L, R, K(==)>(l: L, rs: seq<R>, lkey: L -> K, rkey: R -> K): (ps: seq<(L, R)>)
    ensures forall i :: 0 <= i < |ps| ==> ps[i].0 == l && lkey(l) == rkey(ps[i].1)
    decreases |rs|
  {
    if rs == [] then []
    else (if lkey(l) == rkey(rs[0]) then [(l, rs[0])] else []) + Matches(l, rs[1..], lkey, rkey)
  }

  lemma {:induction false} MatchesMembers<L, R, K>(l: L, rs: seq<R>, lkey: L -> K, rkey: R -> K, r: R)
    ensures (l, r) in Matches(l, rs, lkey, rkey) <==> r in rs && lkey(l) == rkey(r)
    decreases |rs|
  {
    if rs != [] {
      MatchesMembers(l, rs[1..], lkey, rkey, r);
      assert rs == [rs[0]] + rs[1..];
    }
  }

  /** `pd.merge(left, right, how="inner")`: for each left row in order, its matches in
      right order; keys compare with `==`, so two missing keys match. */
  function InnerJoin<L, R, K(==)>(ls: seq<L>, rs: seq<R>, lkey: L -> K, rkey: R -> K): (ps: seq<(L, R)>)
    ensures forall i :: 0 <= i < |ps| ==> lkey(ps[i].0) == rkey(ps[i].1)
    decreases |ls|
  {
    if ls == [] then [] else Matches(ls[0], rs, lkey, rkey) + InnerJoin(ls[1..], rs, lkey, rkey)
  }

  /** A pair is joined exactly when both rows are there and their keys agree. */
  lemma {:induction false} InnerJoinMembers<L, R, K>(ls: seq<L>, rs: seq<R>, lkey: L -> K, rkey: R -> K, l: L, r: R)
    ensures (l, r) in InnerJoin(ls, rs, lkey, rkey) <==> l in ls && r in rs && lkey(l) == rkey(r)
    decreases |ls|
  {
    if ls != [] {
      InnerJoinMembers(ls[1..], rs, lkey, rkey, l, r);
      MatchesMembers(ls[0], rs, lkey, rkey, r);
      assert ls == [ls[0]] + ls[1..];
      if (l, r) in Matches(ls[0], rs, lkey, rkey) {
        var i :| 0 <= i < |Matches(ls[0], rs, lkey, rkey)| && Matches(ls[0], rs, lkey, rkey)[i] == (l, r);
        assert l == ls[0];
      }
    }
  }

  /** The join keeps the left order: joining a concatenation joins the parts one after another. */
  lemma {:induction false} InnerJoinAppend<L, R, K>(a: seq<L>, b: seq<L>, rs: seq<R>, lkey: L -> K, rkey: R -> K)
    ensures InnerJoin(a + b, rs, lkey, rkey) == InnerJoin(a, rs, lkey, rkey) + InnerJoin(b, rs, lkey, rkey)
    decreases |a|
  {
    if a == [] {
      assert a + b == b;
    } else {
      assert (a + b)[0] == a[0];
      assert (a + b)[1..] == a[1..] + b;
      InnerJoinAppend(a[1..], b, rs, lkey, rkey);
    }
  }

  /** Rows whose keys never agree join to nothing. */
  lemma {:induction false} InnerJoinDisjoint<L, R, K>(ls: seq<L>, rs: seq<R>, lkey: L -> K, rkey: R -> K)
    requires forall l, r :: l in ls && r in rs ==> lkey(l) != rkey(r)
    ensures InnerJoin(ls, rs, lkey, rkey) == []
    decreases |ls|
  {
    if ls != [] {
      MatchesDisjoint(ls[0], rs, lkey, rkey);
      InnerJoinDisjoint(ls[1..], rs, lkey, rkey);
    }
  }

  lemma {:induction false} MatchesDisjoint<L, R, K>(l: L, rs: seq<R>, lkey: L -> K, rkey: R -> K)
    requires forall r :: r in rs ==> lkey(l) != rkey(r)
    ensures Matches(l, rs, lkey, rkey) == []
    decreases |rs|
  {
    if rs != [] {
      assert rs[0] in rs;
      MatchesDisjoint(l, rs[1..], lkey, rkey);
    }
  }

  // ---------------------------------------------------------------------------
  // The comparison

  function Project(row: seq<Value>, cols: seq<string>, out: seq<string>): (r: seq<Value>)
    ensures |r| == |out|
  {
    Map(out, (c: string) => Lookup(row, cols, c))
  }

  function IdentifierOf(cols: seq<string>): seq<Value> -> Value {
    (row: seq<Value>) => Lookup(row, cols, "IDENTIFIER")
  }

  function JoinRow(pc: seq<string>, mc: seq<string>): ((seq<Value>, seq<Value>)) -> seq<Value> {
    (p: (seq<Value>, seq<Value>)) => MergedRow(p.0, p.1, pc, mc)
  }

  function SrriDiffers(cols: seq<string>): seq<Value> -> bool {
    (m: seq<Value>) => Differs(Lookup(m, cols, "KIID_SRRI"), Lookup(m, cols, "LATEST_SRRI"))
  }

  function ProjectTo(cols: seq<string>, out: seq<string>): seq<Value> -> seq<Value> {
    (m: seq<Value>) => Project(m, cols, out)
  }

  function InColumns(cols: seq<string>): string -> bool {
    (c: string) => c in cols
  }

  /** The report labels present in the joined table, in report order. */
  function ReportColumns(pc: seq<string>): (out: seq<string>)
    ensures forall c :: c in out ==> c in FinalColumns && c in MergedColumns(pc)
  {
    var out := Keep(FinalColumns, InColumns(MergedColumns(pc)));
    assert forall c :: c in out ==> c in FinalColumns && c in MergedColumns(pc) by {
      forall c | c in out ensures c in FinalColumns && c in MergedColumns(pc) {
        KeepMembers(FinalColumns, InColumns(MergedColumns(pc)), c);
      }
    }
    out
  }

  /** Step 5: the joined rows, permalink row first. */
  function JoinedRows(pc: seq<string>, prows: seq<seq<Value>>, mc: seq<string>, mrows: seq<seq<Value>>): seq<seq<Value>> {
    Map(InnerJoin(prows, mrows, IdentifierOf(pc), IdentifierOf(mc)), JoinRow(pc, mc))
  }

  /** Step 6: the joined rows whose SRRI values differ. */
  function DiffRows(pc: seq<string>, prows: seq<seq<Value>>, mc: seq<string>, mrows: seq<seq<Value>>): seq<seq<Value>> {
    Keep(JoinedRows(pc, prows, mc, mrows), SrriDiffers(MergedColumns(pc)))
  }

  /** Steps 5 to 7 once the checks have passed. */
  function Report(pc: seq<string>, prows: seq<seq<Value>>, mc: seq<string>, mrows: seq<seq<Value>>): (t: Table)
    ensures forall c :: c in t.columns ==> c in FinalColumns
    ensures forall i :: 0 <= i < |t.rows| ==> |t.rows[i]| == |t.columns|
  {
    var out := ReportColumns(pc);
    Table(out, Map(DiffRows(pc, prows, mc, mrows), ProjectTo(MergedColumns(pc), out)))
  }

  /** `compare_srri_values(monitoring_df, permalink_df)`, without writing the report file. */
  function Compare(monitoring: Table, permalink: Table): (r: Result<Table, CompareError>)
    ensures r.Success? ==> forall c :: c in r.value.columns ==> c in FinalColumns
    ensures r.Success? ==> forall i :: 0 <= i < |r.value.rows| ==> |r.value.rows[i]| == |r.value.columns|
  {
    var mc := NormaliseColumns(monitoring.columns);
    var pc := NormaliseColumns(permalink.columns);
    var missingMonitoring := Missing(RequiredMonitoring, mc);
    var missingPermalink := Missing(RequiredPermalink, pc);
    if missingMonitoring != {} then Failure(MissingMonitoringColumns(missingMonitoring))
    else if missingPermalink != {} then Failure(MissingPermalinkColumns(missingPermalink))
    else if "LATEST_SRRI" !in MergedColumns(pc) then Failure(MissingMergedColumn("LATEST_SRRI"))
    else Success(Report(pc, permalink.rows, mc, monitoring.rows))
  }

  // ---------------------------------------------------------------------------
  // What the comparison promises

  /** The joined table lacks an unsuffixed LATEST_SRRI exactly when the permalink table
      has one of its own. */
  lemma MergedLatestSrri(pc: seq<string>)
    ensures "LATEST_SRRI" in MergedColumns(pc) <==> "LATEST_SRRI" !in pc
  {
    var cs := MergedColumns(pc);
    if "LATEST_SRRI" in pc {
      forall i | 0 <= i < |cs| ensures cs[i] != "LATEST_SRRI" {
        if i < |pc| {
          NotSuffixed(pc[i]);
        } else {
          assert cs[i] == "LATEST_SRRI_y" || cs[i] == RightLabel("WEEK_OF_CHANGE", pc);
          assert |"LATEST_SRRI_y"| != |"LATEST_SRRI"|;
        }
      }
    } else {
      assert cs[|pc|] == "LATEST_SRRI";
    }
  }

  /** A suffixed label is none of the report labels. */
  lemma NotSuffixed(c: string)
    ensures c in Brought ==> LeftLabel(c) !in FinalColumns
    ensures c !in Brought ==> LeftLabel(c) == c
  {
    if c in Brought {
      var x := LeftLabel(c);
      assert x == "LATEST_SRRI_x" || x == "WEEK_OF_CHANGE_x";
      forall i | 0 <= i < |FinalColumns| ensures FinalColumns[i] != x {
        assert x[|x| - 1] == 'x';
        assert |FinalColumns[i]| == 0 || FinalColumns[i][|FinalColumns[i]| - 1] != 'x';
      }
    }
  }

  /** The comparer fails exactly when a required column is missing (the monitoring check
      first) or when the permalink table has a LATEST_SRRI column of its own, which the
      join turns into LATEST_SRRI_x and LATEST_SRRI_y. */
  lemma CompareFailures(monitoring: Table, permalink: Table)
    ensures var mc := NormaliseColumns(monitoring.columns);
      var pc := NormaliseColumns(permalink.columns);
      var r := Compare(monitoring, permalink);
      && (r.Failure? <==> Missing(RequiredMonitoring, mc) != {} || Missing(RequiredPermalink, pc) != {} || "LATEST_SRRI" in pc)
      && (Missing(RequiredMonitoring, mc) != {} ==> r == Failure(MissingMonitoringColumns(Missing(RequiredMonitoring, mc))))
      && (Missing(RequiredMonitoring, mc) == {} && Missing(RequiredPermalink, pc) != {} ==>
            r == Failure(MissingPermalinkColumns(Missing(RequiredPermalink, pc))))
      && (Missing(RequiredMonitoring, mc) == {} && Missing(RequiredPermalink, pc) == {} && "LATEST_SRRI" in pc ==>
            r == Failure(MissingMergedColumn("LATEST_SRRI")))
  {
    MergedLatestSrri(NormaliseColumns(permalink.columns));
  }

  /** Where a report column's value comes from: the monitoring row for the two columns the
      join brings in, the permalink row otherwise. */
  function Source(l: seq<Value>, r: seq<Value>, pc: seq<string>, mc: seq<string>, c: string): Value {
    if c in Brought then Lookup(r, mc, c) else Lookup(l, pc, c)
  }

  /** A permalink row and a monitoring row with the same identifier whose SRRI values differ. */
  predicate Mismatched(l: seq<Value>, r: seq<Value>, pc: seq<string>, mc: seq<string>) {
    && Lookup(l, pc, "IDENTIFIER") == Lookup(r, mc, "IDENTIFIER")
    && Differs(Lookup(l, pc, "KIID_SRRI"), Lookup(r, mc, "LATEST_SRRI"))
  }

  /** The report row of such a pair, for the report columns `out`. */
  function Reported(l: seq<Value>, r: seq<Value>, pc: seq<string>, mc: seq<string>, out: seq<string>): (row: seq<Value>)
    ensures |row| == |out|
  {
    Map(out, (c: string) => Source(l, r, pc, mc, c))
  }

  /** `row` is the report row of the pair `l`, `r`. */
  ghost predicate FromPair(row: seq<Value>, l: seq<Value>, r: seq<Value>,
                           pc: seq<string>, prows: seq<seq<Value>>, mc: seq<string>, mrows: seq<seq<Value>>) {
    && l in prows && r in mrows
    && Mismatched(l, r, pc, mc)
    && row == Reported(l, r, pc, mc, ReportColumns(pc))
  }

  ghost predicate ReportedFrom(row: seq<Value>, l: seq<Value>, r: seq<Value>, p: Table, m: Table) {
    FromPair(row, l, r, NormaliseColumns(p.columns), p.rows, NormaliseColumns(m.columns), m.rows)
  }

  /** Some pair of a permalink row and a monitoring row has `row` as its report row. */
  ghost predicate Explained(row: seq<Value>, p: Table, m: Table) {
    exists l, r :: ReportedFrom(row, l, r, p, m)
  }

  /** The labels of a report column in the joined table: either the permalink label kept as
      it is, or a monitoring label brought in without a clash. */
  lemma MergedReportColumn(pc: seq<string>, c: string)
    requires c in FinalColumns
    ensures c in MergedColumns(pc) <==> (c !in Brought && c in pc) || (c in Brought && c !in pc)
  {
    var cs := MergedColumns(pc);
    forall i | 0 <= i < |cs| && cs[i] == c ensures (c !in Brought && c in pc) || (c in Brought && c !in pc) {
      if i < |pc| {
        NotSuffixed(pc[i]);
        assert pc[i] == c;
      } else if i == |pc| {
        RightNotSuffixed("LATEST_SRRI", pc);
      } else {
        RightNotSuffixed("WEEK_OF_CHANGE", pc);
      }
    }
    if c !in Brought && c in pc {
      var i :| 0 <= i < |pc| && pc[i] == c;
      assert cs[i] == c;
    }
    if c == "LATEST_SRRI" && c !in pc {
      assert cs[|pc|] == c;
    }
    if c == "WEEK_OF_CHANGE" && c !in pc {
      assert cs[|pc| + 1] == c;
    }
  }

  /** A monitoring label brought in with a suffix is none of the report labels. */
  lemma RightNotSuffixed(b: string, pc: seq<string>)
    requires b in Brought
    ensures RightLabel(b, pc) in FinalColumns ==> RightLabel(b, pc) == b && b !in pc
  {
    if b in pc {
      var y := RightLabel(b, pc);
      forall i | 0 <= i < |FinalColumns| ensures FinalColumns[i] != y {
        assert y[|y| - 1] == 'y';
        assert |FinalColumns[i]| == 0 || FinalColumns[i][|FinalColumns[i]| - 1] != 'y';
      }
    }
  }

  /** In a joined row, a report column reads what `Source` says. */
  lemma MergedLookup(l: seq<Value>, r: seq<Value>, pc: seq<string>, mc: seq<string>, c: string)
    requires c in FinalColumns && c in MergedColumns(pc)
    ensures Lookup(MergedRow(l, r, pc, mc), MergedColumns(pc), c) == Source(l, r, pc, mc, c)
  {
    var cs := MergedColumns(pc);
    var m := MergedRow(l, r, pc, mc);
    MergedReportColumn(pc, c);
    if c in Brought {
      forall k | 0 <= k < |pc| ensures cs[k] != c {
        NotSuffixed(pc[k]);
      }
      if c == "LATEST_SRRI" {
        assert cs[|pc|] == c;
      } else {
        assert cs[|pc|] != c;
        assert cs[|pc| + 1] == c;
      }
    } else {
      var i := Monitoring.IndexOf(pc, c).value;
      forall k | 0 <= k < i ensures cs[k] != c {
        NotSuffixed(pc[k]);
      }
      NotSuffixed(pc[i]);
    }
  }

  lemma ProjectMerged(l: seq<Value>, r: seq<Value>, pc: seq<string>, mc: seq<string>, out: seq<string>)
    requires forall c :: c in out ==> c in FinalColumns && c in MergedColumns(pc)
    ensures Project(MergedRow(l, r, pc, mc), MergedColumns(pc), out) == Reported(l, r, pc, mc, out)
  {
    forall i | 0 <= i < |out| ensures Lookup(MergedRow(l, r, pc, mc), MergedColumns(pc), out[i]) == Source(l, r, pc, mc, out[i]) {
      MergedLookup(l, r, pc, mc, out[i]);
    }
  }

  lemma DiffersMerged(l: seq<Value>, r: seq<Value>, pc: seq<string>, mc: seq<string>)
    requires "KIID_SRRI" in pc && "LATEST_SRRI" !in pc
    ensures var cs := MergedColumns(pc); var m := MergedRow(l, r, pc, mc);
      Differs(Lookup(m, cs, "KIID_SRRI"), Lookup(m, cs, "LATEST_SRRI")) <==>
      Differs(Lookup(l, pc, "KIID_SRRI"), Lookup(r, mc, "LATEST_SRRI"))
  {
    MergedReportColumn(pc, "KIID_SRRI");
    MergedReportColumn(pc, "LATEST_SRRI");
    MergedLookup(l, r, pc, mc, "KIID_SRRI");
    MergedLookup(l, r, pc, mc, "LATEST_SRRI");
  }

  lemma ReportRowSound(pc: seq<string>, prows: seq<seq<Value>>, mc: seq<string>, mrows: seq<seq<Value>>, row: seq<Value>)
    requires "KIID_SRRI" in pc && "LATEST_SRRI" !in pc
    requires row in Report(pc, prows, mc, mrows).rows
    ensures exists l, r :: FromPair(row, l, r, pc, prows, mc, mrows)
  {
    var diff := DiffRows(pc, prows, mc, mrows);
    var pairs := InnerJoin(prows, mrows, IdentifierOf(pc), IdentifierOf(mc));
    var joined := JoinedRows(pc, prows, mc, mrows);
    var out := ReportColumns(pc);
    MapMembers(diff, ProjectTo(MergedColumns(pc), out), row);
    var m :| ImageOf(row, m, diff, ProjectTo(MergedColumns(pc), out));
    KeepMembers(joined, SrriDiffers(MergedColumns(pc)), m);
    MapMembers(pairs, JoinRow(pc, mc), m);
    var p :| ImageOf(m, p, pairs, JoinRow(pc, mc));
    InnerJoinMembers(prows, mrows, IdentifierOf(pc), IdentifierOf(mc), p.0, p.1);
    DiffersMerged(p.0, p.1, pc, mc);
    ProjectMerged(p.0, p.1, pc, mc, out);
    assert FromPair(row, p.0, p.1, pc, prows, mc, mrows);
  }

  lemma ReportRowComplete(pc: seq<string>, prows: seq<seq<Value>>, mc: seq<string>, mrows: seq<seq<Value>>,
                          row: seq<Value>, l: seq<Value>, r: seq<Value>)
    requires "KIID_SRRI" in pc && "LATEST_SRRI" !in pc
    requires FromPair(row, l, r, pc, prows, mc, mrows)
    ensures row in Report(pc, prows, mc, mrows).rows
  {
    var diff := DiffRows(pc, prows, mc, mrows);
    var pairs := InnerJoin(prows, mrows, IdentifierOf(pc), IdentifierOf(mc));
    var joined := JoinedRows(pc, prows, mc, mrows);
    var out := ReportColumns(pc);
    var m := MergedRow(l, r, pc, mc);
    InnerJoinMembers(prows, mrows, IdentifierOf(pc), IdentifierOf(mc), l, r);
    assert ImageOf(m, (l, r), pairs, JoinRow(pc, mc));
    MapMembers(pairs, JoinRow(pc, mc), m);
    DiffersMerged(l, r, pc, mc);
    KeepMembers(joined, SrriDiffers(MergedColumns(pc)), m);
    ProjectMerged(l, r, pc, mc, out);
    assert ImageOf(row, m, diff, ProjectTo(MergedColumns(pc), out));
    MapMembers(diff, ProjectTo(MergedColumns(pc), out), row);
  }

  /** A successful comparison is the report of the normalised tables. */
  lemma CompareIsReport(monitoring: Table, permalink: Table)
    requires Compare(monitoring, permalink).Success?
    ensures var pc := NormaliseColumns(permalink.columns);
      && "KIID_SRRI" in pc && "LATEST_SRRI" !in pc
      && Compare(monitoring, permalink).value ==
           Report(pc, permalink.rows, NormaliseColumns(monitoring.columns), monitoring.rows)
  {
    MergedLatestSrri(NormaliseColumns(permalink.columns));
  }

  /** The report holds one row for every pair of a permalink row and a monitoring row with
      the same identifier and different SRRI values, and nothing else; every column comes
      from the row it names. */
  lemma CompareRows(monitoring: Table, permalink: Table)
    requires Compare(monitoring, permalink).Success?
    ensures var t := Compare(monitoring, permalink).value;
      forall row :: row in t.rows <==> Explained(row, permalink, monitoring)
  {
    forall row ensures row in Compare(monitoring, permalink).value.rows <==> Explained(row, permalink, monitoring) {
      CompareRow(monitoring, permalink, row);
    }
  }

  lemma CompareRow(monitoring: Table, permalink: Table, row: seq<Value>)
    requires Compare(monitoring, permalink).Success?
    ensures row in Compare(monitoring, permalink).value.rows <==> Explained(row, permalink, monitoring)
  {
    var mc := NormaliseColumns(monitoring.columns);
    var pc := NormaliseColumns(permalink.columns);
    CompareIsReport(monitoring, permalink);
    var t := Report(pc, permalink.rows, mc, monitoring.rows);
    if row in t.rows {
      ReportRowSound(pc, permalink.rows, mc, monitoring.rows, row);
      var l, r :| FromPair(row, l, r, pc, permalink.rows, mc, monitoring.rows);
      assert ReportedFrom(row, l, r, permalink, monitoring);
    }
    if exists l, r :: ReportedFrom(row, l, r, permalink, monitoring) {
      var l, r :| ReportedFrom(row, l, r, permalink, monitoring);
      ReportRowComplete(pc, permalink.rows, mc, monitoring.rows, row, l, r);
    }
  }

  /** The report's columns are the report labels the joined table has, in report order. */
  lemma CompareColumns(monitoring: Table, permalink: Table)
    requires Compare(monitoring, permalink).Success?
    ensures var t := Compare(monitoring, permalink).value;
      var pc := NormaliseColumns(permalink.columns);
      && t.columns == ReportColumns(pc)
      && forall c :: c in t.columns <==> c in FinalColumns && ((c !in Brought && c in pc) || (c in Brought && c !in pc))
  {
    var pc := NormaliseColumns(permalink.columns);
    var t := Compare(monitoring, permalink).value;
    forall c ensures c in t.columns <==> c in FinalColumns && ((c !in Brought && c in pc) || (c in Brought && c !in pc)) {
      KeepMembers(FinalColumns, InColumns(MergedColumns(pc)), c);
      if c in FinalColumns {
        MergedReportColumn(pc, c);
      }
    }
  }

  /** When no identifier occurs on both sides there is nothing to report. */
  lemma DisjointIdentifiersReportNothing(monitoring: Table, permalink: Table)
    requires Compare(monitoring, permalink).Success?
    requires forall l, r :: l in permalink.rows && r in monitoring.rows ==>
      Lookup(l, NormaliseColumns(permalink.columns), "IDENTIFIER") != Lookup(r, NormaliseColumns(monitoring.columns), "IDENTIFIER")
    ensures Compare(monitoring, permalink).value.rows == []
  {
    var mc := NormaliseColumns(monitoring.columns);
    var pc := NormaliseColumns(permalink.columns);
    InnerJoinDisjoint(permalink.rows, monitoring.rows, IdentifierOf(pc), IdentifierOf(mc));
  }

  // ---------------------------------------------------------------------------
  // The frames the two producers hand the comparer

  function OptText(v: Option<string>): (c: Value)
    ensures v.None? <==> c.Null?
    ensures v.Some? ==> c == Str(v.value)
  {
    if v.None? then Null else Str(v.value)
  }

  function OptNumber(v: Option<real>): (c: Value)
    ensures v.None? <==> c.Null?
    ensures v.Some? ==> c == Num(v.value)
  {
    if v.None? then Null else Num(v.value)
  }

  function OptDay(v: Option<int>): (c: Value)
    ensures v.None? <==> c.Null?
    ensures v.Some? ==> c == Day(v.value)
  {
    if v.None? then Null else Day(v.value)
  }

  /** A row of the version 2 monitoring summary, in the order of its labels. */
  function MonitoringCells(s: MonitoringV2.SummaryV2): seq<Value> {
    [Str(s.fund), Str(s.subFund), Str(s.shareClass), Str(s.identifier), Str(s.currency),
     OptDay(s.lastValidatedDocument), Flag(s.hasSrriValueChanged), OptNumber(s.previousSrri),
     OptNumber(s.latestSrri), Str(s.weekOfChange)]
  }

  /** The frame `process_monitoring_file` (version 2) returns. */
  function MonitoringTable(rows: seq<MonitoringV2.SummaryV2>): (t: Table)
    ensures t.columns == MonitoringV2.OutputLabelsV2 && |t.rows| == |rows|
  {
    MonitoringV2.OutputColumnsV2Spec();
    Table(MonitoringV2.OutputColumnsV2(), Map(rows, MonitoringCells))
  }

  /** The labels of the frame `process_and_extract_permalink_file` returns. */
  const PermalinkLabelsV3: seq<string> := ["Line", "Fund Name", "Share Class", "ISIN", "KIID PDF URL", "Fact Sheet URL", "Identifier", "Risk_Reward_Ranking", "Management_Fee", "Share_Class_Inception"]

  const PermalinkNormalisedV3: seq<string> := ["LINE", "FUND_NAME", "SHARE_CLASS", "ISIN", "KIID_PDF_URL", "FACT_SHEET_URL", "IDENTIFIER", "RISK_REWARD_RANKING", "MANAGEMENT_FEE", "SHARE_CLASS_INCEPTION"]

  /** A row of that frame, in the order of its labels. */
  function PermalinkCells(e: Extraction.ExtractedRow): seq<Value> {
    [Str(e.base.line), Str(e.base.fundName), Str(e.base.shareClass), OptText(e.base.isin),
     OptText(e.base.kiidUrl), OptText(e.base.factSheetUrl), Str(e.base.identifier),
     OptNumber(e.riskRewardRanking), OptNumber(e.managementFee), OptText(e.shareClassInception)]
  }

  function PermalinkTableV3(rows: seq<Extraction.ExtractedRow>): Table {
    Table(PermalinkLabelsV3, Map(rows, PermalinkCells))
  }

  /** The monitoring labels are already in normal form. */
  lemma MonitoringLabelsNormal()
    ensures NormaliseColumns(MonitoringV2.OutputLabelsV2) == MonitoringV2.OutputLabelsV2
  {
    MonitoringV2.LabelsSettled();
    NormaliseColumnsOf(MonitoringV2.OutputLabelsV2, MonitoringV2.OutputLabelsV2);
  }

  lemma PermalinkLabelsNormalV3()
    ensures NormaliseColumns(PermalinkLabelsV3) == PermalinkNormalisedV3
  {
    PermalinkLabel0();
    PermalinkLabel1();
    PermalinkLabel2();
    PermalinkLabel3();
    PermalinkLabel4();
    PermalinkLabel5();
    PermalinkLabel6();
    PermalinkLabel7();
    PermalinkLabel8();
    PermalinkLabel9();
    PermalinkLabelsTrimmed();
    NormaliseColumnsOf(PermalinkLabelsV3, PermalinkNormalisedV3);
  }

  lemma PermalinkLabelsTrimmed()
    ensures forall i :: 0 <= i < |PermalinkLabelsV3| ==> Trimmed(PermalinkLabelsV3[i])
  {
  }

  lemma PermalinkLabel0()
    ensures LabelMapsOnto("Line", "LINE")
  {
  }

  lemma PermalinkLabel1()
    ensures LabelMapsOnto("Fund Name", "FUND_NAME")
  {
  }

  lemma PermalinkLabel2()
    ensures LabelMapsOnto("Share Class", "SHARE_CLASS")
  {
  }

  lemma PermalinkLabel3()
    ensures LabelMapsOnto("ISIN", "ISIN")
  {
  }

  lemma PermalinkLabel4()
    ensures LabelMapsOnto("KIID PDF URL", "KIID_PDF_URL")
  {
  }

  lemma PermalinkLabel5()
    ensures LabelMapsOnto("Fact Sheet URL", "FACT_SHEET_URL")
  {
  }

  lemma PermalinkLabel6()
    ensures LabelMapsOnto("Identifier", "IDENTIFIER")
  {
  }

  lemma PermalinkLabel7()
    ensures LabelMapsOnto("Risk_Reward_Ranking", "RISK_REWARD_RANKING")
  {
  }

  lemma PermalinkLabel8()
    ensures LabelMapsOnto("Management_Fee", "MANAGEMENT_FEE")
  {
  }

  lemma PermalinkLabel9()
    ensures LabelMapsOnto("Share_Class_Inception", "SHARE_CLASS_INCEPTION")
  {
  }
  // ---------------------------------------------------------------------------
  // The two producers composed with the comparer

  lemma LookupAt(row: seq<Value>, cols: seq<string>, name: string, k: nat)
    requires FirstAt(cols, name, k)
    ensures Lookup(row, cols, name) == ValueAt(row, k)
  {
  }

  /** Normalised monitoring labels with the three columns the comparer reads where the
      version 2 summary puts them. */
  predicate MonitoringShape(mc: seq<string>) {
    && FirstAt(mc, "IDENTIFIER", 3)
    && FirstAt(mc, "LATEST_SRRI", 8)
    && FirstAt(mc, "WEEK_OF_CHANGE", 9)
  }

  /** Normalised permalink labels with every report column where the extraction puts it,
      the risk column called KIID_SRRI, and neither of the columns the join brings in. */
  predicate FixedShape(pc: seq<string>) {
    && FirstAt(pc, "FUND_NAME", 1)
    && FirstAt(pc, "SHARE_CLASS", 2)
    && FirstAt(pc, "ISIN", 3)
    && FirstAt(pc, "KIID_PDF_URL", 4)
    && FirstAt(pc, "FACT_SHEET_URL", 5)
    && FirstAt(pc, "IDENTIFIER", 6)
    && FirstAt(pc, "KIID_SRRI", 7)
    && FirstAt(pc, "MANAGEMENT_FEE", 8)
    && FirstAt(pc, "SHARE_CLASS_INCEPTION", 9)
    && "LATEST_SRRI" !in pc && "WEEK_OF_CHANGE" !in pc
  }

  /** With the monitoring columns in place, a permalink table lacking exactly KIID_SRRI is
      rejected by the permalink check. */
  lemma RejectedWithoutKiidSrri(monitoring: Table, permalink: Table)
    requires MonitoringShape(NormaliseColumns(monitoring.columns))
    requires Missing(RequiredPermalink, NormaliseColumns(permalink.columns)) == {"KIID_SRRI"}
    ensures Compare(monitoring, permalink) == Failure(MissingPermalinkColumns({"KIID_SRRI"}))
  {
    var mc := NormaliseColumns(monitoring.columns);
    assert mc[3] == "IDENTIFIER" && mc[8] == "LATEST_SRRI" && mc[9] == "WEEK_OF_CHANGE";
    assert Missing(RequiredMonitoring, mc) == {};
  }

  lemma MonitoringShapeHolds()
    ensures MonitoringShape(MonitoringV2.OutputLabelsV2)
  {
  }

  lemma MonitoringColumnsShape()
    ensures MonitoringShape(NormaliseColumns(MonitoringV2.OutputLabelsV2))
  {
    MonitoringLabelsNormal();
    MonitoringShapeHolds();
  }

  lemma V3NormalisedMissing()
    ensures Missing(RequiredPermalink, PermalinkNormalisedV3) == {"KIID_SRRI"}
  {
    var pc := PermalinkNormalisedV3;
    assert pc[6] == "IDENTIFIER";
    forall i | 0 <= i < |pc| ensures pc[i] != "KIID_SRRI" {
      assert |pc[i]| != 9 || pc[i][0] != 'K';
    }
  }

  lemma V3Missing()
    ensures Missing(RequiredPermalink, NormaliseColumns(PermalinkLabelsV3)) == {"KIID_SRRI"}
  {
    PermalinkLabelsNormalV3();
    V3NormalisedMissing();
  }

  /** As written, the extraction names its risk column Risk_Reward_Ranking, which normalises
      to RISK_REWARD_RANKING; the comparer needs KIID_SRRI, so it rejects every frame the
      extraction returns, whatever the monitoring side holds. */
  lemma PermalinkV3IsRejected(monitoring: seq<MonitoringV2.SummaryV2>, permalink: seq<Extraction.ExtractedRow>)
    ensures Compare(MonitoringTable(monitoring), PermalinkTableV3(permalink)) == Failure(MissingPermalinkColumns({"KIID_SRRI"}))
  {
    MonitoringColumnsShape();
    V3Missing();
    RejectedWithoutKiidSrri(MonitoringTable(monitoring), PermalinkTableV3(permalink));
  }

  /** The extraction's labels with the risk column called KIID_SRRI, as the comparer expects. */
  const PermalinkLabelsFixed: seq<string> := ["Line", "Fund Name", "Share Class", "ISIN", "KIID PDF URL", "Fact Sheet URL", "Identifier", "KIID_SRRI", "Management_Fee", "Share_Class_Inception"]

  const PermalinkNormalisedFixed: seq<string> := ["LINE", "FUND_NAME", "SHARE_CLASS", "ISIN", "KIID_PDF_URL", "FACT_SHEET_URL", "IDENTIFIER", "KIID_SRRI", "MANAGEMENT_FEE", "SHARE_CLASS_INCEPTION"]

  function PermalinkTableFixed(rows: seq<Extraction.ExtractedRow>): Table {
    Table(PermalinkLabelsFixed, Map(rows, PermalinkCells))
  }

  lemma FixedLabelsMap()
    ensures LabelsMapOnto(PermalinkLabelsFixed, PermalinkNormalisedFixed)
  {
    PermalinkLabel0();
    PermalinkLabel1();
    PermalinkLabel2();
    PermalinkLabel3();
    PermalinkLabel4();
    PermalinkLabel5();
    PermalinkLabel6();
    PermalinkLabelKiidSrri();
    PermalinkLabel8();
    PermalinkLabel9();
  }

  lemma PermalinkLabelKiidSrri()
    ensures LabelMapsOnto("KIID_SRRI", "KIID_SRRI")
  {
  }

  lemma FixedLabelsTrimmed()
    ensures forall i :: 0 <= i < |PermalinkLabelsFixed| ==> Trimmed(PermalinkLabelsFixed[i])
  {
  }

  lemma PermalinkLabelsNormalFixed()
    ensures NormaliseColumns(PermalinkLabelsFixed) == PermalinkNormalisedFixed
  {
    FixedLabelsMap();
    FixedLabelsTrimmed();
    NormaliseColumnsOf(PermalinkLabelsFixed, PermalinkNormalisedFixed);
  }

  lemma FixedShapeHolds()
    ensures FixedShape(PermalinkNormalisedFixed)
  {
    FixedFirstLow();
    FixedFirstHigh();
    FixedLacksBrought();
  }

  lemma FixedFirstLow()
    ensures var pc := PermalinkNormalisedFixed;
      FirstAt(pc, "FUND_NAME", 1) && FirstAt(pc, "SHARE_CLASS", 2) && FirstAt(pc, "ISIN", 3) && FirstAt(pc, "KIID_PDF_URL", 4)
  {
  }

  lemma FixedFirstHigh()
    ensures var pc := PermalinkNormalisedFixed;
      && FirstAt(pc, "FACT_SHEET_URL", 5) && FirstAt(pc, "IDENTIFIER", 6) && FirstAt(pc, "KIID_SRRI", 7)
      && FirstAt(pc, "MANAGEMENT_FEE", 8) && FirstAt(pc, "SHARE_CLASS_INCEPTION", 9)
  {
  }

  lemma FixedLacksBrought()
    ensures "LATEST_SRRI" !in PermalinkNormalisedFixed && "WEEK_OF_CHANGE" !in PermalinkNormalisedFixed
  {
    var pc := PermalinkNormalisedFixed;
    forall j | 0 <= j < |pc| ensures pc[j] != "LATEST_SRRI" && pc[j] != "WEEK_OF_CHANGE" {
      assert pc[j][0] != 'L' || |pc[j]| == 4;
    }
  }

  lemma FixedColumnsShape()
    ensures FixedShape(NormaliseColumns(PermalinkLabelsFixed))
  {
    PermalinkLabelsNormalFixed();
    FixedShapeHolds();
  }

  /** The report row of an extracted row and a monitoring row, in report order. */
  function ReportRow(e: Extraction.ExtractedRow, s: MonitoringV2.SummaryV2): seq<Value> {
    [Str(e.base.fundName), Str(e.base.shareClass), OptText(e.base.isin), OptText(e.base.kiidUrl),
     OptText(e.base.factSheetUrl), Str(e.base.identifier), OptNumber(e.riskRewardRanking),
     OptNumber(s.latestSrri), Str(s.weekOfChange), OptNumber(e.managementFee), OptText(e.shareClassInception)]
  }

  /** `row` reports a share class whose extracted SRRI is missing or differs from the monitored one. */
  ghost predicate Mismatch(row: seq<Value>, e: Extraction.ExtractedRow, s: MonitoringV2.SummaryV2,
                           permalink: seq<Extraction.ExtractedRow>, monitoring: seq<MonitoringV2.SummaryV2>) {
    && e in permalink && s in monitoring
    && e.base.identifier == s.identifier
    && (e.riskRewardRanking.None? || s.latestSrri.None? || e.riskRewardRanking != s.latestSrri)
    && row == ReportRow(e, s)
  }

  ghost predicate MismatchFound(row: seq<Value>, permalink: seq<Extraction.ExtractedRow>, monitoring: seq<MonitoringV2.SummaryV2>) {
    exists e, s :: Mismatch(row, e, s, permalink, monitoring)
  }

  /** The cells the comparer reads from a corrected permalink row. */
  lemma PermalinkLookups(e: Extraction.ExtractedRow, pc: seq<string>)
    requires FixedShape(pc)
    ensures var l := PermalinkCells(e);
      && Lookup(l, pc, "FUND_NAME") == Str(e.base.fundName)
      && Lookup(l, pc, "SHARE_CLASS") == Str(e.base.shareClass)
      && Lookup(l, pc, "ISIN") == OptText(e.base.isin)
      && Lookup(l, pc, "KIID_PDF_URL") == OptText(e.base.kiidUrl)
      && Lookup(l, pc, "FACT_SHEET_URL") == OptText(e.base.factSheetUrl)
      && Lookup(l, pc, "IDENTIFIER") == Str(e.base.identifier)
      && Lookup(l, pc, "KIID_SRRI") == OptNumber(e.riskRewardRanking)
      && Lookup(l, pc, "MANAGEMENT_FEE") == OptNumber(e.managementFee)
      && Lookup(l, pc, "SHARE_CLASS_INCEPTION") == OptText(e.shareClassInception)
  {
    var l := PermalinkCells(e);
    LookupAt(l, pc, "FUND_NAME", 1);
    LookupAt(l, pc, "SHARE_CLASS", 2);
    LookupAt(l, pc, "ISIN", 3);
    LookupAt(l, pc, "KIID_PDF_URL", 4);
    LookupAt(l, pc, "FACT_SHEET_URL", 5);
    LookupAt(l, pc, "IDENTIFIER", 6);
    LookupAt(l, pc, "KIID_SRRI", 7);
    LookupAt(l, pc, "MANAGEMENT_FEE", 8);
    LookupAt(l, pc, "SHARE_CLASS_INCEPTION", 9);
  }

  /** The cells the comparer reads from a monitoring row. */
  lemma MonitoringLookups(s: MonitoringV2.SummaryV2, mc: seq<string>)
    requires MonitoringShape(mc)
    ensures var r := MonitoringCells(s);
      && Lookup(r, mc, "IDENTIFIER") == Str(s.identifier)
      && Lookup(r, mc, "LATEST_SRRI") == OptNumber(s.latestSrri)
      && Lookup(r, mc, "WEEK_OF_CHANGE") == Str(s.weekOfChange)
  {
    var r := MonitoringCells(s);
    LookupAt(r, mc, "IDENTIFIER", 3);
    LookupAt(r, mc, "LATEST_SRRI", 8);
    LookupAt(r, mc, "WEEK_OF_CHANGE", 9);
  }

  /** With the corrected labels every report column is there. */
  lemma FixedReportColumns(pc: seq<string>)
    requires FixedShape(pc)
    ensures ReportColumns(pc) == FinalColumns
  {
    FinalColumnsAre();
    FixedInMerged(pc, FinalColumns);
    KeepAll(FinalColumns, InColumns(MergedColumns(pc)));
  }

  lemma FixedInMerged(pc: seq<string>, out: seq<string>)
    requires FixedShape(pc) && ReportLabels(out)
    ensures forall i :: 0 <= i < |out| ==> InColumns(MergedColumns(pc))(out[i])
  {
    MergedKeepsLeading(pc);
    MergedKeepsTrailing(pc);
    LabelsAmong(out, MergedColumns(pc));
  }

  lemma MergedKeepsLeading(pc: seq<string>)
    requires FixedShape(pc)
    ensures var cs := MergedColumns(pc);
      && "FUND_NAME" in cs && "SHARE_CLASS" in cs && "ISIN" in cs && "KIID_PDF_URL" in cs
      && "FACT_SHEET_URL" in cs && "IDENTIFIER" in cs
  {
    KeptLeft(pc, "FUND_NAME", 1);
    KeptLeft(pc, "SHARE_CLASS", 2);
    KeptLeft(pc, "ISIN", 3);
    KeptLeft(pc, "KIID_PDF_URL", 4);
    KeptLeft(pc, "FACT_SHEET_URL", 5);
    KeptLeft(pc, "IDENTIFIER", 6);
  }

  lemma MergedKeepsTrailing(pc: seq<string>)
    requires FixedShape(pc)
    ensures var cs := MergedColumns(pc);
      && "KIID_SRRI" in cs && "LATEST_SRRI" in cs && "WEEK_OF_CHANGE" in cs
      && "MANAGEMENT_FEE" in cs && "SHARE_CLASS_INCEPTION" in cs
  {
    var cs := MergedColumns(pc);
    KeptLeft(pc, "KIID_SRRI", 7);
    KeptLeft(pc, "MANAGEMENT_FEE", 8);
    KeptLeft(pc, "SHARE_CLASS_INCEPTION", 9);
    assert cs[|pc|] == "LATEST_SRRI" && cs[|pc| + 1] == "WEEK_OF_CHANGE";
  }

  lemma LabelsAmong(out: seq<string>, cs: seq<string>)
    requires ReportLabels(out)
    requires && "FUND_NAME" in cs && "SHARE_CLASS" in cs && "ISIN" in cs && "KIID_PDF_URL" in cs
             && "FACT_SHEET_URL" in cs && "IDENTIFIER" in cs
             && "KIID_SRRI" in cs && "LATEST_SRRI" in cs && "WEEK_OF_CHANGE" in cs
             && "MANAGEMENT_FEE" in cs && "SHARE_CLASS_INCEPTION" in cs
    ensures forall i :: 0 <= i < |out| ==> InColumns(cs)(out[i])
  {
  }

  /** A permalink label the join does not suffix keeps its name in the joined table. */
  lemma KeptLeft(pc: seq<string>, c: string, k: nat)
    requires FirstAt(pc, c, k) && c !in Brought
    ensures c in MergedColumns(pc)
  {
    assert MergedColumns(pc)[k] == c;
  }

  /** With the corrected labels the checks pass. */
  lemma FixedCompareSucceeds(monitoring: Table, permalink: Table)
    requires MonitoringShape(NormaliseColumns(monitoring.columns))
    requires FixedShape(NormaliseColumns(permalink.columns))
    ensures Compare(monitoring, permalink).Success?
  {
    var mc := NormaliseColumns(monitoring.columns);
    var pc := NormaliseColumns(permalink.columns);
    assert mc[3] == "IDENTIFIER" && mc[8] == "LATEST_SRRI" && mc[9] == "WEEK_OF_CHANGE";
    assert pc[6] == "IDENTIFIER" && pc[7] == "KIID_SRRI";
    assert Missing(RequiredMonitoring, mc) == {} && Missing(RequiredPermalink, pc) == {};
    MergedLatestSrri(pc);
  }

  /** A pair's report row is the row `ReportRow` writes out, and it is reported exactly
      when the identifiers agree and the SRRI values differ. */
  lemma FixedPair(e: Extraction.ExtractedRow, s: MonitoringV2.SummaryV2, pc: seq<string>, mc: seq<string>)
    requires FixedShape(pc) && MonitoringShape(mc)
    ensures var l, r := PermalinkCells(e), MonitoringCells(s);
      && Reported(l, r, pc, mc, FinalColumns) == ReportRow(e, s)
      && (Mismatched(l, r, pc, mc) <==>
            e.base.identifier == s.identifier &&
            (e.riskRewardRanking.None? || s.latestSrri.None? || e.riskRewardRanking != s.latestSrri))
  {
    FixedPairRow(e, s, pc, mc);
    PermalinkLookups(e, pc);
    MonitoringLookups(s, mc);
    DiffersNumbers(e.riskRewardRanking, s.latestSrri);
  }

  lemma FixedPairRow(e: Extraction.ExtractedRow, s: MonitoringV2.SummaryV2, pc: seq<string>, mc: seq<string>)
    requires FixedShape(pc) && MonitoringShape(mc)
    ensures Reported(PermalinkCells(e), MonitoringCells(s), pc, mc, FinalColumns) == ReportRow(e, s)
  {
    FinalColumnsAre();
    ReportedRow(e, s, pc, mc, FinalColumns);
  }

  /** The report labels one by one. */
  predicate ReportLabels(out: seq<string>) {
    && |out| == 11
    && out[0] == "FUND_NAME" && out[1] == "SHARE_CLASS" && out[2] == "ISIN" && out[3] == "KIID_PDF_URL"
    && out[4] == "FACT_SHEET_URL" && out[5] == "IDENTIFIER" && out[6] == "KIID_SRRI" && out[7] == "LATEST_SRRI"
    && out[8] == "WEEK_OF_CHANGE" && out[9] == "MANAGEMENT_FEE" && out[10] == "SHARE_CLASS_INCEPTION"
  }

  lemma FinalColumnsAre()
    ensures ReportLabels(FinalColumns)
  {
  }

  lemma ReportedRow(e: Extraction.ExtractedRow, s: MonitoringV2.SummaryV2, pc: seq<string>, mc: seq<string>, out: seq<string>)
    requires FixedShape(pc) && MonitoringShape(mc) && ReportLabels(out)
    ensures Reported(PermalinkCells(e), MonitoringCells(s), pc, mc, out) == ReportRow(e, s)
  {
    ReportedLeading(e, s, pc, mc, out);
    ReportedTrailing(e, s, pc, mc, out);
    ReportRowCells(e, s);
    SameCells(Reported(PermalinkCells(e), MonitoringCells(s), pc, mc, out), ReportRow(e, s));
  }

  lemma ReportedLeading(e: Extraction.ExtractedRow, s: MonitoringV2.SummaryV2, pc: seq<string>, mc: seq<string>, out: seq<string>)
    requires FixedShape(pc) && ReportLabels(out)
    ensures var rep := Reported(PermalinkCells(e), MonitoringCells(s), pc, mc, out);
      && rep[0] == Str(e.base.fundName) && rep[1] == Str(e.base.shareClass) && rep[2] == OptText(e.base.isin)
      && rep[3] == OptText(e.base.kiidUrl) && rep[4] == OptText(e.base.factSheetUrl) && rep[5] == Str(e.base.identifier)
  {
    PermalinkLookups(e, pc);
    var l, r := PermalinkCells(e), MonitoringCells(s);
    var rep := Reported(l, r, pc, mc, out);
    assert rep[0] == Source(l, r, pc, mc, "FUND_NAME");
    assert rep[1] == Source(l, r, pc, mc, "SHARE_CLASS");
    assert rep[2] == Source(l, r, pc, mc, "ISIN");
    assert rep[3] == Source(l, r, pc, mc, "KIID_PDF_URL");
    assert rep[4] == Source(l, r, pc, mc, "FACT_SHEET_URL");
    assert rep[5] == Source(l, r, pc, mc, "IDENTIFIER");
  }

  lemma ReportedTrailing(e: Extraction.ExtractedRow, s: MonitoringV2.SummaryV2, pc: seq<string>, mc: seq<string>, out: seq<string>)
    requires FixedShape(pc) && MonitoringShape(mc) && ReportLabels(out)
    ensures var rep := Reported(PermalinkCells(e), MonitoringCells(s), pc, mc, out);
      && rep[6] == OptNumber(e.riskRewardRanking) && rep[7] == OptNumber(s.latestSrri) && rep[8] == Str(s.weekOfChange)
      && rep[9] == OptNumber(e.managementFee) && rep[10] == OptText(e.shareClassInception)
  {
    PermalinkLookups(e, pc);
    MonitoringLookups(s, mc);
    var l, r := PermalinkCells(e), MonitoringCells(s);
    var rep := Reported(l, r, pc, mc, out);
    assert rep[6] == Source(l, r, pc, mc, "KIID_SRRI");
    assert rep[7] == Source(l, r, pc, mc, "LATEST_SRRI");
    assert rep[8] == Source(l, r, pc, mc, "WEEK_OF_CHANGE");
    assert rep[9] == Source(l, r, pc, mc, "MANAGEMENT_FEE");
    assert rep[10] == Source(l, r, pc, mc, "SHARE_CLASS_INCEPTION");
  }

  lemma ReportRowCells(e: Extraction.ExtractedRow, s: MonitoringV2.SummaryV2)
    ensures var want := ReportRow(e, s);
      && |want| == 11
      && want[0] == Str(e.base.fundName) && want[1] == Str(e.base.shareClass) && want[2] == OptText(e.base.isin)
      && want[3] == OptText(e.base.kiidUrl) && want[4] == OptText(e.base.factSheetUrl) && want[5] == Str(e.base.identifier)
      && want[6] == OptNumber(e.riskRewardRanking) && want[7] == OptNumber(s.latestSrri) && want[8] == Str(s.weekOfChange)
      && want[9] == OptNumber(e.managementFee) && want[10] == OptText(e.shareClassInception)
  {
  }

  lemma SameCells(a: seq<Value>, b: seq<Value>)
    requires |a| == 11 && |b| == 11
    requires a[0] == b[0] && a[1] == b[1] && a[2] == b[2] && a[3] == b[3] && a[4] == b[4] && a[5] == b[5]
    requires a[6] == b[6] && a[7] == b[7] && a[8] == b[8] && a[9] == b[9] && a[10] == b[10]
    ensures a == b
  {
    forall i | 0 <= i < 11 ensures a[i] == b[i] {
    }
  }

  /** Two optional numbers differ, in Python's sense, exactly when one is missing or they are unequal. */
  lemma DiffersNumbers(x: Option<real>, y: Option<real>)
    ensures Differs(OptNumber(x), OptNumber(y)) <==> x.None? || y.None? || x != y
  {
  }

  /** Every reported row reports a mismatching pair of an extracted row and a monitoring row. */
  lemma FixedRowSound(monitoring: seq<MonitoringV2.SummaryV2>, permalink: seq<Extraction.ExtractedRow>,
                      mt: Table, pt: Table, row: seq<Value>)
    requires mt.rows == Map(monitoring, MonitoringCells) && MonitoringShape(NormaliseColumns(mt.columns))
    requires pt.rows == Map(permalink, PermalinkCells) && FixedShape(NormaliseColumns(pt.columns))
    requires Explained(row, pt, mt)
    ensures MismatchFound(row, permalink, monitoring)
  {
    var pc, mc := NormaliseColumns(pt.columns), NormaliseColumns(mt.columns);
    var l, r :| ReportedFrom(row, l, r, pt, mt);
    FixedReportColumns(pc);
    MapMembers(permalink, PermalinkCells, l);
    var e :| ImageOf(l, e, permalink, PermalinkCells);
    MapMembers(monitoring, MonitoringCells, r);
    var s :| ImageOf(r, s, monitoring, MonitoringCells);
    SoundPair(row, e, s, pc, mc, permalink, monitoring);
  }

  lemma SoundPair(row: seq<Value>, e: Extraction.ExtractedRow, s: MonitoringV2.SummaryV2, pc: seq<string>, mc: seq<string>,
                  permalink: seq<Extraction.ExtractedRow>, monitoring: seq<MonitoringV2.SummaryV2>)
    requires FixedShape(pc) && MonitoringShape(mc)
    requires e in permalink && s in monitoring
    requires Mismatched(PermalinkCells(e), MonitoringCells(s), pc, mc)
    requires row == Reported(PermalinkCells(e), MonitoringCells(s), pc, mc, FinalColumns)
    ensures Mismatch(row, e, s, permalink, monitoring)
  {
    FixedPair(e, s, pc, mc);
  }

  /** Every mismatching pair of an extracted row and a monitoring row is reported. */
  lemma FixedRowComplete(monitoring: seq<MonitoringV2.SummaryV2>, permalink: seq<Extraction.ExtractedRow>,
                         mt: Table, pt: Table, row: seq<Value>, e: Extraction.ExtractedRow, s: MonitoringV2.SummaryV2)
    requires mt.rows == Map(monitoring, MonitoringCells) && MonitoringShape(NormaliseColumns(mt.columns))
    requires pt.rows == Map(permalink, PermalinkCells) && FixedShape(NormaliseColumns(pt.columns))
    requires Mismatch(row, e, s, permalink, monitoring)
    ensures Explained(row, pt, mt)
  {
    var pc, mc := NormaliseColumns(pt.columns), NormaliseColumns(mt.columns);
    FixedReportColumns(pc);
    FixedPair(e, s, pc, mc);
    MapMembers(permalink, PermalinkCells, PermalinkCells(e));
    assert ImageOf(PermalinkCells(e), e, permalink, PermalinkCells);
    MapMembers(monitoring, MonitoringCells, MonitoringCells(s));
    assert ImageOf(MonitoringCells(s), s, monitoring, MonitoringCells);
    assert ReportedFrom(row, PermalinkCells(e), MonitoringCells(s), pt, mt);
  }

  /** The comparison of two tables of that shape. */
  lemma FixedShapeCompares(monitoring: seq<MonitoringV2.SummaryV2>, permalink: seq<Extraction.ExtractedRow>,
                           mt: Table, pt: Table)
    requires mt.rows == Map(monitoring, MonitoringCells) && MonitoringShape(NormaliseColumns(mt.columns))
    requires pt.rows == Map(permalink, PermalinkCells) && FixedShape(NormaliseColumns(pt.columns))
    ensures var r := Compare(mt, pt);
      && r.Success?
      && r.value.columns == FinalColumns
      && forall row :: row in r.value.rows <==> MismatchFound(row, permalink, monitoring)
  {
    FixedCompareSucceeds(mt, pt);
    CompareColumns(mt, pt);
    FixedReportColumns(NormaliseColumns(pt.columns));
    CompareRows(mt, pt);
    forall row ensures Explained(row, pt, mt) <==> MismatchFound(row, permalink, monitoring) {
      if Explained(row, pt, mt) {
        FixedRowSound(monitoring, permalink, mt, pt, row);
      }
      if MismatchFound(row, permalink, monitoring) {
        var e, s :| Mismatch(row, e, s, permalink, monitoring);
        FixedRowComplete(monitoring, permalink, mt, pt, row, e, s);
      }
    }
  }

  /** With the risk column named KIID_SRRI the comparison always goes through, reports every
      report column, and reports exactly the share classes present on both sides whose
      extracted SRRI is missing or differs from the latest monitored SRRI. */
  lemma FixedPermalinkCompares(monitoring: seq<MonitoringV2.SummaryV2>, permalink: seq<Extraction.ExtractedRow>)
    ensures var r := Compare(MonitoringTable(monitoring), PermalinkTableFixed(permalink));
      && r.Success?
      && r.value.columns == FinalColumns
      && forall row :: row in r.value.rows <==> MismatchFound(row, permalink, monitoring)
  {
    MonitoringColumnsShape();
    FixedColumnsShape();
    FixedShapeCompares(monitoring, permalink, MonitoringTable(monitoring), PermalinkTableFixed(permalink));
  }
}

=== FILE: results.dfy ===
/** Optional values and success/failure results shared by every component. */
module Results {

  /** `None` stands for pandas' missing value (None / NaN / NaT). */
  datatype Option<+T> = None | Some(value: T) {

    /** The wrapped value, or `default` when absent. */
    function GetOr(default: T): T {
      match this
      case Some(v) => v
      case None => default
    }
  }

  /** The outcome of a step that may raise: `Failure` carries what was raised. */
  datatype Result<+T, +E> = Success(value: T) | Failure(error: E)
}

=== FILE: sequences.dfy ===
/**
 * Row-level table operations the pipeline uses, on sequences of records:
 * boolean-mask filtering, `drop_duplicates(keep="first")`, a descending sort
 * with missing values last, and "first strategy that succeeds".
 */
module Sequences {
  import opened Results

  // ---------------------------------------------------------------------------
  // Filtering

  /** The rows satisfying `p`, in their original order. */
  function Keep<T>(xs: seq<T>, p: T -> bool): (r: seq<T>)
    ensures |r| <= |xs|
    ensures forall i :: 0 <= i < |r| ==> p(r[i])
    decreases |xs|
  {
    if xs == [] then []
    else if p(xs[0]) then [xs[0]] + Keep(xs[1..], p)
    else Keep(xs[1..], p)
  }

  /** A row survives the filter exactly when it was there and satisfies `p`. */
  lemma {:induction false} KeepMembers<T>(xs: seq<T>, p: T -> bool, x: T)
    ensures x in Keep(xs, p) <==> x in xs && p(x)
    decreases |xs|
  {
    if xs != [] {
      KeepMembers(xs[1..], p, x);
      assert xs == [xs[0]] + xs[1..];
    }
  }

  /** Filtering a longer list extends the filtered list: order and repetitions are kept. */
  lemma {:induction false} KeepAppend<T>(xs: seq<T>, x: T, p: T -> bool)
    ensures Keep(xs + [x], p) == Keep(xs, p) + (if p(x) then [x] else [])
    decreases |xs|
  {
    if xs == [] {
      assert Keep([x], p) == (if p(x) then [x] else []) + Keep([], p);
    } else {
      assert (xs + [x])[1..] == xs[1..] + [x];
      KeepAppend(xs[1..], x, p);
    }
  }

  /** When every row satisfies `p` the filter changes nothing. */
  lemma {:induction false} KeepAll<T>(xs: seq<T>, p: T -> bool)
    requires forall i :: 0 <= i < |xs| ==> p(xs[i])
    ensures Keep(xs, p) == xs
    decreases |xs|
  {
    if xs != [] {
      KeepAll(xs[1..], p);
      assert xs == [xs[0]] + xs[1..];
    }
  }

  /** `f` applied to every row, in order. */
  function Map<T, U>(xs: seq<T>, f: T -> U): (r: seq<U>)
    ensures |r| == |xs|
    ensures forall i :: 0 <= i < |xs| ==> r[i] == f(xs[i])
  {
    seq(|xs|, i requires 0 <= i < |xs| => f(xs[i]))
  }

  /** The image of a row is in the mapped rows exactly when it is the image of some row. */
  ghost predicate ImageOf<T, U>(y: U, x: T, xs: seq<T>, f: T -> U) {
    x in xs && y == f(x)
  }

  lemma MapMembers<T, U>(xs: seq<T>, f: T -> U, y: U)
    ensures y in Map(xs, f) <==> exists x :: ImageOf(y, x, xs, f)
  {
    var r := Map(xs, f);
    if y in r {
      var i :| 0 <= i < |r| && r[i] == y;
      assert ImageOf(y, xs[i], xs, f);
    }
    if exists x :: ImageOf(y, x, xs, f) {
      var x :| ImageOf(y, x, xs, f);
      var i :| 0 <= i < |xs| && xs[i] == x;
      assert r[i] == y;
    }
  }

  // ---------------------------------------------------------------------------
  // drop_duplicates(subset=key, keep="first")

  predicate HasKey<T, K(==)>(xs: seq<T>, key: T -> K, k: K) {
    exists i :: 0 <= i < |xs| && key(xs[i]) == k
  }

  predicate UniqueKeys<T, K(==)>(xs: seq<T>, key: T -> K) {
    forall i, j :: 0 <= i < j < |xs| ==> key(xs[i]) != key(xs[j])
  }

  /** Position of the first row whose key is `k`. */
  function FirstIndex<T, K(==)>(xs: seq<T>, key: T -> K, k: K): (i: nat)
    requires HasKey(xs, key, k)
    ensures i < |xs| && key(xs[i]) == k
    ensures forall j :: 0 <= j < i ==> key(xs[j]) != k
    decreases |xs|
  {
    if key(xs[0]) == k then 0
    else
      assert HasKey(xs[1..], key, k) by {
        var i :| 0 <= i < |xs| && key(xs[i]) == k;
        assert key(xs[1..][i - 1]) == k;
      }
      1 + FirstIndex(xs[1..], key, k)
  }

  lemma FirstIndexTail<T, K>(xs: seq<T>, key: T -> K, k: K)
    requires xs != [] && key(xs[0]) != k && HasKey(xs[1..], key, k)
    ensures HasKey(xs, key, k) && FirstIndex(xs, key, k) == 1 + FirstIndex(xs[1..], key, k)
  {
    var i := FirstIndex(xs[1..], key, k);
    assert key(xs[i + 1]) == k;
  }

  /** The first row of every key not in `seen`, in scan order. */
  function KeepFirstUnseen<T, K(==)>(xs: seq<T>, key: T -> K, seen: set<K>): (r: seq<T>)
    ensures |r| <= |xs|
    decreases |xs|
  {
    if xs == [] then []
    else if key(xs[0]) in seen then KeepFirstUnseen(xs[1..], key, seen)
    else [xs[0]] + KeepFirstUnseen(xs[1..], key, seen + {key(xs[0])})
  }

  /** `drop_duplicates(subset=key, keep="first")`. */
  function KeepFirst<T, K(==)>(xs: seq<T>, key: T -> K): seq<T> {
    KeepFirstUnseen(xs, key, {})
  }

  /** Every row of `r` is the first row of its key in `xs`, in scan order, and no key is
      in `seen`. */
  ghost predicate FirstRowsInOrder<T, K>(r: seq<T>, xs: seq<T>, key: T -> K, seen: set<K>) {
    && (forall a :: 0 <= a < |r| ==>
          key(r[a]) !in seen && HasKey(xs, key, key(r[a])) && r[a] == xs[FirstIndex(xs, key, key(r[a]))])
    && (forall a, b :: 0 <= a < b < |r| ==> FirstIndex(xs, key, key(r[a])) < FirstIndex(xs, key, key(r[b])))
  }

  /** Every key of `xs` outside `seen` has a row in `r`. */
  ghost predicate CoversKeys<T, K(!new)>(r: seq<T>, xs: seq<T>, key: T -> K, seen: set<K>) {
    forall k :: HasKey(xs, key, k) && k !in seen ==> HasKey(r, key, k)
  }

  lemma SkipStepOrder<T, K>(x: T, t: seq<T>, r: seq<T>, key: T -> K, seen: set<K>)
    requires key(x) in seen && FirstRowsInOrder(r, t, key, seen)
    ensures FirstRowsInOrder(r, [x] + t, key, seen)
  {
    var xs := [x] + t;
    assert xs[1..] == t;
    forall a | 0 <= a < |r|
      ensures HasKey(xs, key, key(r[a])) && FirstIndex(xs, key, key(r[a])) == 1 + FirstIndex(t, key, key(r[a]))
    {
      FirstIndexTail(xs, key, key(r[a]));
    }
  }

  lemma SkipStepCover<T, K(!new)>(x: T, t: seq<T>, r: seq<T>, key: T -> K, seen: set<K>)
    requires key(x) in seen && CoversKeys(r, t, key, seen)
    ensures CoversKeys(r, [x] + t, key, seen)
  {
    var xs := [x] + t;
    forall k | HasKey(xs, key, k) && k !in seen ensures HasKey(r, key, k) {
      var i :| 0 <= i < |xs| && key(xs[i]) == k;
      assert i > 0 && key(t[i - 1]) == k;
    }
  }

  lemma TakeStepOrder<T, K>(x: T, t: seq<T>, r: seq<T>, key: T -> K, seen: set<K>)
    requires key(x) !in seen && FirstRowsInOrder(r, t, key, seen + {key(x)})
    ensures FirstRowsInOrder([x] + r, [x] + t, key, seen)
  {
    var xs, r2 := [x] + t, [x] + r;
    assert xs[1..] == t;
    assert HasKey(xs, key, key(x)) by { assert key(xs[0]) == key(x); }
    forall a | 0 <= a < |r|
      ensures HasKey(xs, key, key(r[a])) && FirstIndex(xs, key, key(r[a])) == 1 + FirstIndex(t, key, key(r[a]))
    {
      FirstIndexTail(xs, key, key(r[a]));
    }
    forall a | 0 <= a < |r2|
      ensures key(r2[a]) !in seen && HasKey(xs, key, key(r2[a])) && r2[a] == xs[FirstIndex(xs, key, key(r2[a]))]
    {
      if a > 0 {
        assert r2[a] == r[a - 1];
      }
    }
    forall a, b | 0 <= a < b < |r2|
      ensures FirstIndex(xs, key, key(r2[a])) < FirstIndex(xs, key, key(r2[b]))
    {
      assert r2[b] == r[b - 1];
      if a > 0 {
        assert r2[a] == r[a - 1];
      }
    }
  }

  lemma TakeStepCover<T, K(!new)>(x: T, t: seq<T>, r: seq<T>, key: T -> K, seen: set<K>)
    requires key(x) !in seen && CoversKeys(r, t, key, seen + {key(x)})
    ensures CoversKeys([x] + r, [x] + t, key, seen)
  {
    var xs, r2 := [x] + t, [x] + r;
    forall k | HasKey(xs, key, k) && k !in seen ensures HasKey(r2, key, k) {
      if k == key(x) {
        assert key(r2[0]) == k;
      } else {
        var i :| 0 <= i < |xs| && key(xs[i]) == k;
        assert i > 0 && key(t[i - 1]) == k;
        var b :| 0 <= b < |r| && key(r[b]) == k;
        assert key(r2[b + 1]) == k;
      }
    }
  }

  lemma UniqueFromOrder<T, K>(r: seq<T>, xs: seq<T>, key: T -> K, seen: set<K>)
    requires FirstRowsInOrder(r, xs, key, seen)
    ensures UniqueKeys(r, key)
  {
  }

  /** Every survivor is the first row of its key, survivors keep scan order, keys are unique,
      and every key outside `seen` is represented. */
  lemma {:induction false} KeepFirstUnseenSpec<T, K(!new)>(xs: seq<T>, key: T -> K, seen: set<K>)
    ensures FirstRowsInOrder(KeepFirstUnseen(xs, key, seen), xs, key, seen)
    ensures CoversKeys(KeepFirstUnseen(xs, key, seen), xs, key, seen)
    decreases |xs|
  {
    if xs != [] {
      var x, t := xs[0], xs[1..];
      assert xs == [x] + t;
      if key(x) in seen {
        KeepFirstUnseenSpec(t, key, seen);
        SkipStepOrder(x, t, KeepFirstUnseen(t, key, seen), key, seen);
        SkipStepCover(x, t, KeepFirstUnseen(t, key, seen), key, seen);
      } else {
        KeepFirstUnseenSpec(t, key, seen + {key(x)});
        TakeStepOrder(x, t, KeepFirstUnseen(t, key, seen + {key(x)}), key, seen);
        TakeStepCover(x, t, KeepFirstUnseen(t, key, seen + {key(x)}), key, seen);
      }
    }
  }

  /** `drop_duplicates(keep="first")`: unique keys, each survivor is the first row of its key,
      scan order is kept, and every key of the input is represented. */
  lemma KeepFirstSpec<T, K(!new)>(xs: seq<T>, key: T -> K)
    ensures var r := KeepFirst(xs, key);
      && UniqueKeys(r, key)
      && (forall a :: 0 <= a < |r| ==> HasKey(xs, key, key(r[a])) && r[a] == xs[FirstIndex(xs, key, key(r[a]))])
      && (forall a, b :: 0 <= a < b < |r| ==> FirstIndex(xs, key, key(r[a])) < FirstIndex(xs, key, key(r[b])))
      && (forall k :: HasKey(xs, key, k) <==> HasKey(r, key, k))
  {
    var r := KeepFirst(xs, key);
    KeepFirstUnseenSpec(xs, key, {});
    UniqueFromOrder(r, xs, key, {});
    forall k | HasKey(r, key, k) ensures HasKey(xs, key, k) {
      var a :| 0 <= a < |r| && key(r[a]) == k;
    }
  }

  /** Looking a key up after deduplication finds the row a lookup in the original finds. */
  lemma FirstOfDeduplicated<T, K(!new)>(xs: seq<T>, key: T -> K, k: K)
    requires HasKey(xs, key, k)
    ensures HasKey(KeepFirst(xs, key), key, k)
    ensures var r := KeepFirst(xs, key); r[FirstIndex(r, key, k)] == xs[FirstIndex(xs, key, k)]
  {
    KeepFirstSpec(xs, key);
  }

  /** Deduplicating rows whose keys are already unique changes nothing. */
  lemma {:induction false} KeepFirstOfUnique<T, K>(xs: seq<T>, key: T -> K, seen: set<K>)
    requires UniqueKeys(xs, key)
    requires forall i :: 0 <= i < |xs| ==> key(xs[i]) !in seen
    ensures KeepFirstUnseen(xs, key, seen) == xs
    decreases |xs|
  {
    if xs != [] {
      var t := xs[1..];
      assert UniqueKeys(t, key) by {
        forall i, j | 0 <= i < j < |t| ensures key(t[i]) != key(t[j]) {
          assert t[i] == xs[i + 1] && t[j] == xs[j + 1];
        }
      }
      forall i | 0 <= i < |t| ensures key(t[i]) !in seen + {key(xs[0])} {
        assert t[i] == xs[i + 1];
      }
      KeepFirstOfUnique(t, key, seen + {key(xs[0])});
      assert xs == [xs[0]] + t;
    }
  }

  // ---------------------------------------------------------------------------
  // sort_values(ascending=False) on an optional date: missing values sort last

  /** `a` may be placed before `b` in a descending order with missing values last. */
  predicate AtLeast(a: Option<int>, b: Option<int>) {
    b.None? || (a.Some? && a.value >= b.value)
  }

  predicate SortedDesc<T>(xs: seq<T>, date: T -> Option<int>) {
    forall i, j :: 0 <= i < j < |xs| ==> AtLeast(date(xs[i]), date(xs[j]))
  }

  /** Places `x` before the first row it is at least as recent as (so ties keep input order). */
  function InsertDesc<T>(x: T, s: seq<T>, date: T -> Option<int>): (r: seq<T>)
    ensures multiset(r) == multiset(s) + multiset{x}
    decreases |s|
  {
    if s == [] || AtLeast(date(x), date(s[0])) then [x] + s
    else
      assert s == [s[0]] + s[1..];
      [s[0]] + InsertDesc(x, s[1..], date)
  }

  lemma SortedCons<T>(y: T, u: seq<T>, date: T -> Option<int>)
    requires SortedDesc(u, date)
    requires forall j :: 0 <= j < |u| ==> AtLeast(date(y), date(u[j]))
    ensures SortedDesc([y] + u, date)
  {
    forall i, j | 0 <= i < j < |u| + 1 ensures AtLeast(date(([y] + u)[i]), date(([y] + u)[j])) {
      assert ([y] + u)[j] == u[j - 1];
      if i > 0 {
        assert ([y] + u)[i] == u[i - 1];
      }
    }
  }

  lemma SortedTail<T>(s: seq<T>, date: T -> Option<int>)
    requires s != [] && SortedDesc(s, date)
    ensures SortedDesc(s[1..], date)
    ensures forall j :: 0 <= j < |s| - 1 ==> AtLeast(date(s[0]), date(s[1..][j]))
  {
    var t := s[1..];
    forall i, j | 0 <= i < j < |t| ensures AtLeast(date(t[i]), date(t[j])) {
      assert t[i] == s[i + 1] && t[j] == s[j + 1];
    }
    forall j | 0 <= j < |t| ensures AtLeast(date(s[0]), date(t[j])) {
      assert t[j] == s[j + 1];
    }
  }

  /** Inserting into a descending sequence keeps it descending. */
  lemma {:induction false} InsertDescSorted<T>(x: T, s: seq<T>, date: T -> Option<int>)
    requires SortedDesc(s, date)
    ensures SortedDesc(InsertDesc(x, s, date), date)
    decreases |s|
  {
    if s == [] {
    } else if AtLeast(date(x), date(s[0])) {
      SortedTail(s, date);
      SortedCons(x, s, date);
    } else {
      var t := s[1..];
      SortedTail(s, date);
      InsertDescSorted(x, t, date);
      var u := InsertDesc(x, t, date);
      forall j | 0 <= j < |u| ensures AtLeast(date(s[0]), date(u[j])) {
        var y := u[j];
        assert y in multiset(u);
        if y != x {
          assert y in multiset(t);
          var k :| 0 <= k < |t| && t[k] == y;
        }
      }
      SortedCons(s[0], u, date);
    }
  }

  /** `sort_values(date, ascending=False)`: a permutation of the rows, most recent first,
      rows without a date at the end. */
  function SortDesc<T>(xs: seq<T>, date: T -> Option<int>): (r: seq<T>)
    ensures multiset(r) == multiset(xs)
    ensures SortedDesc(r, date)
    decreases |xs|
  {
    if xs == [] then []
    else
      assert xs == [xs[0]] + xs[1..];
      InsertDescSorted(xs[0], SortDesc(xs[1..], date), date);
      InsertDesc(xs[0], SortDesc(xs[1..], date), date)
  }

  /** Sorting rows that are already in order changes nothing. */
  lemma {:induction false} SortSorted<T>(xs: seq<T>, date: T -> Option<int>)
    requires SortedDesc(xs, date)
    ensures SortDesc(xs, date) == xs
    decreases |xs|
  {
    if xs != [] {
      SortedTail(xs, date);
      SortSorted(xs[1..], date);
      assert xs == [xs[0]] + xs[1..];
    }
  }

  // ---------------------------------------------------------------------------
  // The first strategy that succeeds

  /** Index of the first function in `fs`, from `i` on, that yields a value for `x`. */
  function FirstHitFrom<A, V>(fs: seq<A -> Option<V>>, x: A, i: nat): (r: Option<nat>)
    requires i <= |fs|
    ensures r.Some? ==> i <= r.value < |fs| && fs[r.value](x).Some?
                        && forall j :: i <= j < r.value ==> fs[j](x).None?
    ensures r.None? ==> forall j :: i <= j < |fs| ==> fs[j](x).None?
    decreases |fs| - i
  {
    if i == |fs| then None
    else if fs[i](x).Some? then Some(i)
    else FirstHitFrom(fs, x, i + 1)
  }

  /** The value of the first function in `fs` that yields one for `x`, or `None`. */
  function FirstHit<A, V>(fs: seq<A -> Option<V>>, x: A): (r: Option<V>)
    ensures r.Some? <==> exists j :: 0 <= j < |fs| && fs[j](x).Some?
    ensures r.Some? ==> exists j :: 0 <= j < |fs| && fs[j](x) == r
                                   && forall k :: 0 <= k < j ==> fs[k](x).None?
  {
    match FirstHitFrom(fs, x, 0)
    case Some(j) => fs[j](x)
    case None => None
  }
}

=== FILE: text.dfy ===
/**
 * The Python `str` operations the pipeline relies on, on `seq<char>`.
 * Character classes follow Python 3's Unicode rules for the Latin-1 range
 * (U+0000..U+00FF); whitespace is Python's complete `str.isspace` set.
 */
module Text {
  import opened Results

  /** Python's `str.isspace`: what `str.strip()` and the regex class `\s` use. */
  predicate IsSpace(c: char) {
    || c == ' '
    || ('\t' <= c <= '\r')
    || ('\U{1C}' <= c <= '\U{1F}')
    || c == '\U{85}' || c == '\U{A0}' || c == '\U{1680}'
    || ('\U{2000}' <= c <= '\U{200A}')
    || c == '\U{2028}' || c == '\U{2029}' || c == '\U{202F}' || c == '\U{205F}' || c == '\U{3000}'
  }

  predicate NotSpace(c: char) { !IsSpace(c) }

  /** The regex class `[a-z]`. */
  predicate IsLowerLetter(c: char) { 'a' <= c <= 'z' }

  /** ASCII decimal digit. */
  predicate IsDigit(c: char) { '0' <= c <= '9' }

  /** The regex class `[0-9A-Z]`. */
  predicate IsUpperOrDigit(c: char) { IsDigit(c) || 'A' <= c <= 'Z' }

  /** The regex class `\w` on `str` (alphanumerics and `_`), within Latin-1. */
  predicate IsWordChar(c: char) {
    || 'a' <= c <= 'z' || 'A' <= c <= 'Z' || IsDigit(c) || c == '_'
    || c == '\U{AA}' || c == '\U{B2}' || c == '\U{B3}' || c == '\U{B5}'
    || c == '\U{B9}' || c == '\U{BA}' || ('\U{BC}' <= c <= '\U{BE}')
    || ('\U{C0}' <= c <= '\U{D6}') || ('\U{D8}' <= c <= '\U{F6}') || ('\U{F8}' <= c <= '\U{FF}')
  }

  /** The line boundaries recognised by `str.splitlines`. */
  predicate IsLineBreak(c: char) {
    || c == '\n' || c == '\r' || c == '\U{0B}' || c == '\U{0C}'
    || ('\U{1C}' <= c <= '\U{1E}') || c == '\U{85}' || c == '\U{2028}' || c == '\U{2029}'
  }

  predicate NotLineBreak(c: char) { !IsLineBreak(c) }

  // ---------------------------------------------------------------------------
  // Case mapping

  /** `str.lower` on one character (Latin-1 upper-case letters move down by 32). */
  function LowerChar(c: char): (d: char)
    ensures IsLowerLetter(d) <==> ('a' <= c <= 'z' || 'A' <= c <= 'Z')
  {
    if 'A' <= c <= 'Z' || ('\U{C0}' <= c <= '\U{DE}' && c != '\U{D7}') then (c as int + 32) as char else c
  }

  /** `str.lower`. */
  function Lower(s: string): (r: string)
    ensures |r| == |s|
    ensures forall i :: 0 <= i < |s| ==> r[i] == LowerChar(s[i])
  {
    seq(|s|, i requires 0 <= i < |s| => LowerChar(s[i]))
  }

  /** `str.upper` on one character; `ß` becomes `SS`, `ÿ` and `µ` leave Latin-1. */
  function UpperChar(c: char): (u: string)
    ensures 1 <= |u| <= 2
    ensures forall i :: 0 <= i < |u| ==> !IsLowerLetter(u[i])
  {
    if 'a' <= c <= 'z' || ('\U{E0}' <= c <= '\U{FE}' && c != '\U{F7}') then [(c as int - 32) as char]
    else if c == '\U{DF}' then "SS"
    else if c == '\U{FF}' then ['\U{178}']
    else if c == '\U{B5}' then ['\U{39C}']
    else [c]
  }

  /** `str.upper`. */
  function Upper(s: string): (r: string)
    ensures |s| <= |r|
    ensures forall i :: 0 <= i < |r| ==> !IsLowerLetter(r[i])
    decreases |s|
  {
    if s == [] then [] else UpperChar(s[0]) + Upper(s[1..])
  }

  lemma {:induction false} LowerIdempotent(s: string)
    ensures Lower(Lower(s)) == Lower(s)
  {
    forall i | 0 <= i < |s|
      ensures Lower(Lower(s))[i] == Lower(s)[i]
    {
      var c := s[i];
      if 'A' <= c <= 'Z' || ('\U{C0}' <= c <= '\U{DE}' && c != '\U{D7}') {
        assert LowerChar(LowerChar(c)) == LowerChar(c);
      }
    }
  }

  lemma {:induction false} UpperAppend(a: string, b: string)
    ensures Upper(a + b) == Upper(a) + Upper(b)
    decreases |a|
  {
    if a == [] {
      assert a + b == b;
    } else {
      assert (a + b)[0] == a[0];
      assert (a + b)[1..] == a[1..] + b;
      UpperAppend(a[1..], b);
    }
  }

  // ---------------------------------------------------------------------------
  // Column labels in UPPERCASE_WITH_UNDERSCORES

  predicate IsAscii(s: string) {
    forall i :: 0 <= i < |s| ==> s[i] < '\U{80}'
  }

  /** `str.upper` on an ASCII character. */
  function AsciiUpper(c: char): char {
    if 'a' <= c <= 'z' then (c as int - 32) as char else c
  }

  /** On ASCII text `str.upper` maps character by character. */
  lemma {:induction false} UpperOfAscii(s: string)
    requires IsAscii(s)
    ensures Upper(s) == seq(|s|, i requires 0 <= i < |s| => AsciiUpper(s[i]))
    decreases |s|
  {
    if s != [] {
      UpperOfAscii(s[1..]);
      assert UpperChar(s[0]) == [AsciiUpper(s[0])];
    }
  }

  /** `s.replace(a, b)` for single characters. */
  function ReplaceChar(s: string, a: char, b: char): (r: string)
    ensures |r| == |s|
    ensures forall i :: 0 <= i < |s| ==> r[i] == (if s[i] == a then b else s[i])
  {
    seq(|s|, i requires 0 <= i < |s| => if s[i] == a then b else s[i])
  }

  /** Replacing a one-character pattern by one character maps character by character. */
  lemma {:induction false} ReplaceOneChar(s: string, a: char, b: char)
    ensures ReplaceAll(s, [a], [b]) == ReplaceChar(s, a, b)
  {
    ReplaceOneCharFrom(s, a, b, 0);
  }

  lemma {:induction false} ReplaceOneCharFrom(s: string, a: char, b: char, j: nat)
    requires j <= |s|
    ensures ReplaceFrom(s, [a], [b], j) == ReplaceChar(s, a, b)[j..]
    decreases |s| - j
  {
    if j < |s| {
      assert OccursAt(s, [a], j) <==> s[j] == a by {
        if j + 1 <= |s| { assert s[j..j + 1] == [s[j]]; }
      }
      ReplaceOneCharFrom(s, a, b, j + 1);
      var c := ReplaceChar(s, a, b);
      assert c[j..] == [c[j]] + c[j + 1..];
    }
  }

  /** The column renaming `.str.upper().str.replace(" ", "_").str.replace("-", "_")`. */
  function Underscored(s: string): string {
    ReplaceAll(ReplaceAll(Upper(s), " ", "_"), "-", "_")
  }

  /** What that renaming does to one ASCII character. */
  function UnderscoreChar(c: char): char {
    if c == ' ' || c == '-' then '_' else AsciiUpper(c)
  }

  /** On ASCII labels the renaming maps character by character. */
  lemma UnderscoredAscii(s: string)
    requires IsAscii(s)
    ensures Underscored(s) == seq(|s|, i requires 0 <= i < |s| => UnderscoreChar(s[i]))
  {
    UpperOfAscii(s);
    var u := Upper(s);
    var v := ReplaceChar(u, ' ', '_');
    var w := ReplaceChar(v, '-', '_');
    ReplaceOneChar(u, ' ', '_');
    ReplaceOneChar(v, '-', '_');
    assert Underscored(s) == w;
    forall i | 0 <= i < |s| ensures w[i] == UnderscoreChar(s[i]) {
      assert u[i] == AsciiUpper(s[i]);
    }
  }

  /** A label whose characters map one by one onto `t` is renamed to `t`. */
  lemma UnderscoredIs(s: string, t: string)
    requires IsAscii(s) && |s| == |t|
    requires forall i :: 0 <= i < |s| ==> UnderscoreChar(s[i]) == t[i]
    ensures Underscored(s) == t
  {
    UnderscoredAscii(s);
  }

  /** The ASCII labels `xs` become `ys` one character at a time. */
  predicate LabelsMapOnto(xs: seq<string>, ys: seq<string>) {
    |xs| == |ys| && forall i :: 0 <= i < |xs| ==> LabelMapsOnto(xs[i], ys[i])
  }

  /** The ASCII label `x` becomes `y` one character at a time. */
  predicate LabelMapsOnto(x: string, y: string) {
    IsAscii(x) && |x| == |y| && forall j :: 0 <= j < |x| ==> UnderscoreChar(x[j]) == y[j]
  }

  lemma UnderscoredEach(xs: seq<string>, ys: seq<string>)
    requires LabelsMapOnto(xs, ys)
    ensures forall i :: 0 <= i < |xs| ==> IsAscii(xs[i]) && Underscored(xs[i]) == ys[i]
  {
    forall i | 0 <= i < |xs| ensures Underscored(xs[i]) == ys[i] {
      UnderscoredIs(xs[i], ys[i]);
    }
  }

  /** Renaming an already renamed ASCII label changes nothing. */
  lemma UnderscoredTwice(s: string)
    requires IsAscii(s)
    ensures IsAscii(Underscored(s))
    ensures Underscored(Underscored(s)) == Underscored(s)
  {
    UnderscoredAscii(s);
    var u := Underscored(s);
    assert IsAscii(u) by {
      forall i | 0 <= i < |u| ensures u[i] < '\U{80}' {
        assert u[i] == UnderscoreChar(s[i]);
      }
    }
    UnderscoredAscii(u);
    forall i | 0 <= i < |u| ensures UnderscoreChar(u[i]) == u[i] {
      assert u[i] == UnderscoreChar(s[i]);
    }
  }

  // ---------------------------------------------------------------------------
  // Trimming

  /** Drops the longest prefix whose characters satisfy `p`. */
  function TrimLeft(s: string, p: char -> bool): (r: string)
    ensures |r| <= |s| && r == s[|s| - |r|..]
    ensures forall i :: 0 <= i < |s| - |r| ==> p(s[i])
    ensures r == [] || !p(r[0])
    decreases |s|
  {
    if s != [] && p(s[0]) then TrimLeft(s[1..], p) else s
  }

  /** Drops the longest suffix whose characters satisfy `p`. */
  function TrimRight(s: string, p: char -> bool): (r: string)
    ensures |r| <= |s| && r == s[..|r|]
    ensures forall i :: |r| <= i < |s| ==> p(s[i])
    ensures r == [] || !p(r[|r| - 1])
    decreases |s|
  {
    if s != [] && p(s[|s| - 1]) then TrimRight(s[..|s| - 1], p) else s
  }

  /** `r` is `s[i..j]`, and every character of `s` outside that slice satisfies `p`. */
  predicate SliceOutside(s: string, r: string, p: char -> bool, i: int, j: int) {
    && 0 <= i <= j <= |s| && r == s[i..j]
    && (forall k :: 0 <= k < i ==> p(s[k]))
    && (forall k :: j <= k < |s| ==> p(s[k]))
  }

  /** Drops the longest prefix and then the longest suffix whose characters satisfy `p`. */
  function TrimBoth(s: string, p: char -> bool): (r: string)
    ensures |r| <= |s|
    ensures r == [] || (!p(r[0]) && !p(r[|r| - 1]))
    ensures exists i, j :: SliceOutside(s, r, p, i, j)
  {
    var t := TrimLeft(s, p);
    var u := TrimRight(t, p);
    SliceOfTrims(s, t, u, p);
    u
  }

  /** A suffix of `s` cut after a prefix of `p`-characters, then cut before a suffix of
      `p`-characters, is a slice of `s` with only `p`-characters outside it. */
  lemma SliceOfTrims(s: string, t: string, u: string, p: char -> bool)
    requires |t| <= |s| && t == s[|s| - |t|..] && forall k :: 0 <= k < |s| - |t| ==> p(s[k])
    requires |u| <= |t| && u == t[..|u|] && forall k :: |u| <= k < |t| ==> p(t[k])
    requires (t == [] || !p(t[0])) && (u == [] || !p(u[|u| - 1]))
    ensures SliceOutside(s, u, p, |s| - |t|, |s| - |t| + |u|)
    ensures u == [] || (!p(u[0]) && !p(u[|u| - 1]))
  {
    assert u != [] ==> u[0] == t[0];
    var i := |s| - |t|;
    var j := i + |u|;
    assert u == s[i..j];
    forall k | j <= k < |s| ensures p(s[k]) {
      assert s[k] == t[k - i];
    }
  }

  /** `str.strip()`: the input with its leading and trailing whitespace removed. */
  function Strip(s: string): (r: string)
    ensures |r| <= |s|
    ensures r == [] || (!IsSpace(r[0]) && !IsSpace(r[|r| - 1]))
    ensures exists i, j :: SliceOutside(s, r, IsSpace, i, j)
  {
    TrimBoth(s, IsSpace)
  }

  /** Nothing for `str.strip()` to remove. */
  predicate Trimmed(s: string) {
    s == [] || (!IsSpace(s[0]) && !IsSpace(s[|s| - 1]))
  }

  lemma StripTrimmed(s: string)
    requires Trimmed(s)
    ensures Strip(s) == s
  {
  }

  predicate IsQuote(c: char) { c == '"' }

  /** `str.strip('"')`: every leading and trailing double quote goes, not just one layer. */
  function StripQuotes(s: string): (r: string)
    ensures |r| <= |s|
    ensures r == [] || (r[0] != '"' && r[|r| - 1] != '"')
    ensures exists i, j :: SliceOutside(s, r, IsQuote, i, j)
  {
    TrimBoth(s, IsQuote)
  }

  /** A quoted field loses exactly its quotes: `'"' + t + '"'` strips to `t` when `t`
      neither starts nor ends with a quote. */
  lemma StripQuotesOfQuoted(t: string)
    requires t != [] && t[0] != '"' && t[|t| - 1] != '"'
    ensures StripQuotes("\"" + t + "\"") == t
  {
    var u := t + "\"";
    assert "\"" + t + "\"" == ['"'] + u;
    TrimLeftOne('"', u, IsQuote);
    TrimRightOne(t, '"', IsQuote);
  }

  lemma TrimLeftOne(c: char, u: string, p: char -> bool)
    requires p(c) && u != [] && !p(u[0])
    ensures TrimLeft([c] + u, p) == u
  {
    assert ([c] + u)[1..] == u;
  }

  lemma TrimRightOne(t: string, c: char, p: char -> bool)
    requires p(c) && t != [] && !p(t[|t| - 1])
    ensures TrimRight(t + [c], p) == t
  {
    assert (t + [c])[..|t|] == t;
  }

  // ---------------------------------------------------------------------------
  // Substrings

  predicate OccursAt(s: string, sub: string, i: nat) {
    i + |sub| <= |s| && s[i..i + |sub|] == sub
  }

  predicate StartsWith(s: string, prefix: string) {
    |prefix| <= |s| && s[..|prefix|] == prefix
  }

  predicate EndsWith(s: string, suffix: string) {
    |suffix| <= |s| && s[|s| - |suffix|..] == suffix
  }

  /** Python's `sub in s`. */
  predicate Contains(s: string, sub: string) {
    exists i :: 0 <= i <= |s| && OccursAt(s, sub, i)
  }

  /** The leftmost position at or after `i` where `m` holds: how `re.search` chooses its match. */
  function FindFrom(s: string, i: nat, m: (string, nat) -> bool): (r: Option<nat>)
    requires i <= |s|
    ensures r.Some? ==> i <= r.value <= |s| && m(s, r.value)
    ensures r.Some? ==> forall j :: i <= j < r.value ==> !m(s, j)
    ensures r.None? ==> forall j :: i <= j <= |s| ==> !m(s, j)
    decreases |s| - i
  {
    if m(s, i) then Some(i) else if i == |s| then None else FindFrom(s, i + 1, m)
  }

  /** The first position at or after `j` that is not whitespace (or `|s|`): where a greedy `\s*` stops. */
  function SkipSpaces(s: string, j: nat): (k: nat)
    requires j <= |s|
    ensures j <= k <= |s|
    ensures forall i :: j <= i < k ==> IsSpace(s[i])
    ensures k < |s| ==> !IsSpace(s[k])
    decreases |s| - j
  {
    if j < |s| && IsSpace(s[j]) then SkipSpaces(s, j + 1) else j
  }

  /** Python's `s.replace(pat, rep)`. A non-empty pattern is replaced left to right
      without overlaps (`ReplaceFrom`); an empty one puts `rep` around every character.
      What it computes is stated by `ReplaceAllAbsent`, `ReplaceAllLeftmost` and
      `ReplaceAllChars`. */
  function ReplaceAll(s: string, pat: string, rep: string): string {
    if |pat| == 0 then Interleave(s, rep) else ReplaceFrom(s, pat, rep, 0)
  }

  /** The scan of `s.replace(pat, rep)` from position `j` on. */
  function ReplaceFrom(s: string, pat: string, rep: string, j: nat): string
    requires |pat| > 0
    decreases |s| - j
  {
    if j >= |s| then []
    else if OccursAt(s, pat, j) then rep + ReplaceFrom(s, pat, rep, j + |pat|)
    else [s[j]] + ReplaceFrom(s, pat, rep, j + 1)
  }

  /** `s.replace("", rep)`. */
  function Interleave(s: string, rep: string): string
    decreases |s|
  {
    if s == [] then rep else rep + [s[0]] + Interleave(s[1..], rep)
  }

  /** Scanning from `j` past no occurrence up to the end copies the rest. */
  lemma {:induction false} ReplaceFromAbsent(s: string, pat: string, rep: string, j: nat)
    requires |pat| > 0 && j <= |s|
    requires forall k :: j <= k <= |s| ==> !OccursAt(s, pat, k)
    ensures ReplaceFrom(s, pat, rep, j) == s[j..]
    decreases |s| - j
  {
    if j < |s| {
      assert !OccursAt(s, pat, j);
      ReplaceFromAbsent(s, pat, rep, j + 1);
      assert s[j..] == [s[j]] + s[j + 1..];
    }
  }

  /** Scanning from `j` to the first occurrence at `i` copies `s[j..i]`, then writes `rep`. */
  lemma {:induction false} ReplaceFromLeftmost(s: string, pat: string, rep: string, j: nat, i: nat)
    requires |pat| > 0 && j <= i && OccursAt(s, pat, i)
    requires forall k :: j <= k < i ==> !OccursAt(s, pat, k)
    ensures ReplaceFrom(s, pat, rep, j) == s[j..i] + rep + ReplaceFrom(s, pat, rep, i + |pat|)
    decreases i - j
  {
    if j < i {
      assert !OccursAt(s, pat, j);
      ReplaceFromLeftmost(s, pat, rep, j + 1, i);
      ConsSlice(s, j, i, rep, ReplaceFrom(s, pat, rep, i + |pat|));
    }
  }

  lemma ConsSlice(s: string, j: nat, i: nat, rep: string, x: string)
    requires j < i <= |s|
    ensures [s[j]] + (s[j + 1..i] + rep + x) == s[j..i] + rep + x
  {
    assert s[j..i] == [s[j]] + s[j + 1..i];
  }

  /** Scanning `s` from `j + m` is scanning `s[j..]` from `m`. */
  lemma {:induction false} ReplaceFromDrop(s: string, pat: string, rep: string, j: nat, m: nat)
    requires |pat| > 0 && j <= |s|
    ensures ReplaceFrom(s, pat, rep, j + m) == ReplaceFrom(s[j..], pat, rep, m)
    decreases |s| - j - m
  {
    if j + m < |s| {
      OccursDrop(s, pat, j, m);
      if OccursAt(s, pat, j + m) {
        ReplaceFromDrop(s, pat, rep, j, m + |pat|);
      } else {
        ReplaceFromDrop(s, pat, rep, j, m + 1);
      }
    }
  }

  lemma OccursDrop(s: string, pat: string, j: nat, m: nat)
    requires j <= |s|
    ensures OccursAt(s, pat, j + m) <==> OccursAt(s[j..], pat, m)
  {
    if j + m + |pat| <= |s| {
      assert s[j..][m..m + |pat|] == s[j + m..j + m + |pat|];
    }
  }

  /** A pattern that does not occur leaves the string unchanged. */
  lemma {:induction false} ReplaceAllAbsent(s: string, pat: string, rep: string)
    requires pat != [] && !Contains(s, pat)
    ensures ReplaceAll(s, pat, rep) == s
  {
    ReplaceFromAbsent(s, pat, rep, 0);
  }

  /** `str.replace` works left to right: the text before the leftmost occurrence is kept,
      that occurrence becomes `rep`, and the replacement resumes after it. */
  lemma {:induction false} ReplaceAllLeftmost(s: string, pat: string, rep: string, i: nat)
    requires pat != [] && OccursAt(s, pat, i)
    requires forall j :: 0 <= j < i ==> !OccursAt(s, pat, j)
    ensures ReplaceAll(s, pat, rep) == s[..i] + rep + ReplaceAll(s[i + |pat|..], pat, rep)
  {
    ReplaceFromLeftmost(s, pat, rep, 0, i);
    ReplaceFromDrop(s, pat, rep, i + |pat|, 0);
    assert s[0..i] == s[..i];
  }

  /** Every character of the result comes from `s` or from `rep`. */
  lemma {:induction false} ReplaceAllChars(s: string, pat: string, rep: string)
    ensures forall i :: 0 <= i < |ReplaceAll(s, pat, rep)| ==>
      ReplaceAll(s, pat, rep)[i] in s || ReplaceAll(s, pat, rep)[i] in rep
  {
    if |pat| == 0 {
      InterleaveChars(s, rep);
    } else {
      ReplaceFromChars(s, pat, rep, 0);
    }
  }

  lemma {:induction false} InterleaveChars(s: string, rep: string)
    ensures forall i :: 0 <= i < |Interleave(s, rep)| ==> Interleave(s, rep)[i] in s || Interleave(s, rep)[i] in rep
    decreases |s|
  {
    if s != [] {
      InterleaveChars(s[1..], rep);
      var r := Interleave(s, rep);
      var tail := Interleave(s[1..], rep);
      forall k | 0 <= k < |r| ensures r[k] in s || r[k] in rep {
        if k > |rep| {
          assert r[k] == tail[k - |rep| - 1];
        }
      }
    }
  }

  lemma {:induction false} ReplaceFromChars(s: string, pat: string, rep: string, j: nat)
    requires |pat| > 0
    ensures forall i :: 0 <= i < |ReplaceFrom(s, pat, rep, j)| ==>
      ReplaceFrom(s, pat, rep, j)[i] in s || ReplaceFrom(s, pat, rep, j)[i] in rep
    decreases |s| - j
  {
    if j < |s| {
      var r := ReplaceFrom(s, pat, rep, j);
      if OccursAt(s, pat, j) {
        ReplaceFromChars(s, pat, rep, j + |pat|);
        var tail := ReplaceFrom(s, pat, rep, j + |pat|);
        forall k | 0 <= k < |r| ensures r[k] in s || r[k] in rep {
          if k >= |rep| {
            assert r[k] == tail[k - |rep|];
          }
        }
      } else {
        ReplaceFromChars(s, pat, rep, j + 1);
        var tail := ReplaceFrom(s, pat, rep, j + 1);
        forall k | 0 <= k < |r| ensures r[k] in s || r[k] in rep {
          if k >= 1 {
            assert r[k] == tail[k - 1];
          }
        }
      }
    }
  }

  /** Removing the empty string leaves a string unchanged (`s.replace("", "") == s`). */
  lemma {:induction false} RemoveEmpty(s: string)
    ensures ReplaceAll(s, [], []) == s
    decreases |s|
  {
    if s != [] {
      RemoveEmpty(s[1..]);
    }
  }

  /** The characters of `s` that satisfy `p`, in order (`re.sub` of the complement class). */
  function Filter(s: string, p: char -> bool): (r: string)
    ensures |r| <= |s|
    ensures forall i :: 0 <= i < |r| ==> p(r[i])
    ensures forall i :: 0 <= i < |r| ==> r[i] in s
    decreases |s|
  {
    if s == [] then []
    else if p(s[0]) then [s[0]] + Filter(s[1..], p)
    else Filter(s[1..], p)
  }

  lemma {:induction false} FilterAppend(a: string, b: string, p: char -> bool)
    ensures Filter(a + b, p) == Filter(a, p) + Filter(b, p)
    decreases |a|
  {
    if a == [] {
      assert a + b == b;
    } else {
      assert (a + b)[0] == a[0];
      assert (a + b)[1..] == a[1..] + b;
      FilterAppend(a[1..], b, p);
    }
  }

  lemma {:induction false} FilterAll(s: string, p: char -> bool)
    requires forall i :: 0 <= i < |s| ==> p(s[i])
    ensures Filter(s, p) == s
    decreases |s|
  {
    if s != [] {
      FilterAll(s[1..], p);
    }
  }

  lemma {:induction false} FilterNone(s: string, p: char -> bool)
    requires forall i :: 0 <= i < |s| ==> !p(s[i])
    ensures Filter(s, p) == []
    decreases |s|
  {
    if s != [] {
      FilterNone(s[1..], p);
    }
  }

  // ---------------------------------------------------------------------------
  // Splitting and joining

  /** Number of occurrences of `c` in `s`. */
  function Count(s: string, c: char): nat
    decreases |s|
  {
    if s == [] then 0 else (if s[0] == c then 1 else 0) + Count(s[1..], c)
  }

  /** `sep.join(fs)`. */
  function JoinWith(fs: seq<string>, sep: char): string
    decreases |fs|
  {
    if fs == [] then [] else if |fs| == 1 then fs[0] else fs[0] + [sep] + JoinWith(fs[1..], sep)
  }

  /** `s.split(sep)` with an explicit separator: one more field than separators,
      no field contains the separator, and joining the fields gives `s` back. */
  function SplitOn(s: string, sep: char): (fs: seq<string>)
    ensures |fs| == Count(s, sep) + 1
    ensures forall k :: 0 <= k < |fs| ==> sep !in fs[k]
    ensures JoinWith(fs, sep) == s
    decreases |s|
  {
    if s == [] then [[]]
    else
      var rest := SplitOn(s[1..], sep);
      if s[0] == sep then
        assert ([[]] + rest)[1..] == rest;
        [[]] + rest
      else
        var fs := [[s[0]] + rest[0]] + rest[1..];
        assert fs[1..] == rest[1..];
        assert |rest| > 1 ==> JoinWith(rest, sep) == rest[0] + [sep] + JoinWith(rest[1..], sep);
        assert s == [s[0]] + s[1..];
        fs
  }

  lemma {:induction false} SplitWithoutSeparator(a: string, sep: char)
    requires sep !in a
    ensures SplitOn(a, sep) == [a]
    decreases |a|
  {
    if a != [] {
      SplitWithoutSeparator(a[1..], sep);
      assert [a[0]] + a[1..] == a;
    }
  }

  lemma {:induction false} SplitAtSeparator(a: string, b: string, sep: char)
    requires sep !in a
    ensures SplitOn(a + [sep] + b, sep) == [a] + SplitOn(b, sep)
    decreases |a|
  {
    var s := a + [sep] + b;
    if a == [] {
      assert s[0] == sep && s[1..] == b;
    } else {
      assert s[0] == a[0];
      assert s[1..] == a[1..] + [sep] + b;
      SplitAtSeparator(a[1..], b, sep);
      assert [a[0]] + a[1..] == a;
    }
  }

  /** The last field of a split is what follows the last separator. */
  lemma {:induction false} LastField(a: string, b: string, sep: char)
    requires sep !in b
    ensures var fs := SplitOn(a + [sep] + b, sep); |fs| >= 2 && fs[|fs| - 1] == b
    decreases |a|
  {
    var s := a + [sep] + b;
    if a == [] {
      assert s[0] == sep && s[1..] == b;
      SplitWithoutSeparator(b, sep);
    } else {
      assert s[1..] == a[1..] + [sep] + b;
      LastField(a[1..], b, sep);
    }
  }

  /** Splitting a join of separator-free fields gives the fields back. */
  lemma {:induction false} SplitJoinRoundTrip(fs: seq<string>, sep: char)
    requires |fs| >= 1
    requires forall k :: 0 <= k < |fs| ==> sep !in fs[k]
    ensures SplitOn(JoinWith(fs, sep), sep) == fs
    decreases |fs|
  {
    if |fs| == 1 {
      SplitWithoutSeparator(fs[0], sep);
    } else {
      SplitJoinRoundTrip(fs[1..], sep);
      SplitAtSeparator(fs[0], JoinWith(fs[1..], sep), sep);
      assert [fs[0]] + fs[1..] == fs;
    }
  }

  /** All lines concatenated. */
  function Concat(lines: seq<string>): string
    decreases |lines|
  {
    if lines == [] then [] else lines[0] + Concat(lines[1..])
  }

  lemma ConcatCons(line: string, lines: seq<string>)
    ensures Concat([line] + lines) == line + Concat(lines)
  {
    assert ([line] + lines)[1..] == lines;
  }

  /** Index of the first line boundary at or after `i`, or `|s|`. */
  function LineEnd(s: string, i: nat): (e: nat)
    requires i <= |s|
    ensures i <= e <= |s|
    ensures forall k :: i <= k < e ==> !IsLineBreak(s[k])
    ensures e < |s| ==> IsLineBreak(s[e])
    decreases |s| - i
  {
    if i == |s| || IsLineBreak(s[i]) then i else LineEnd(s, i + 1)
  }

  /** Removing line boundaries from `a + b + c` where `a` holds none and `b` only boundaries. */
  lemma LineStep(a: string, b: string, c: string)
    requires NoLineBreaks(a) && OnlyLineBreaks(b)
    ensures Filter(a + (b + c), NotLineBreak) == a + Filter(c, NotLineBreak)
  {
    var fb, fc := Filter(b, NotLineBreak), Filter(c, NotLineBreak);
    FilterAppend(a, b + c, NotLineBreak);
    FilterAppend(b, c, NotLineBreak);
    assert Filter(b + c, NotLineBreak) == fb + fc;
    FilterAll(a, NotLineBreak);
    FilterNone(b, NotLineBreak);
    assert fb + fc == fc;
  }

  /** Where the line after a boundary at `e` starts: `\r\n` is one boundary. */
  function NextLineStart(s: string, e: nat): (next: nat)
    requires e < |s|
    ensures e < next <= |s|
  {
    if s[e] == '\r' && e + 1 < |s| && s[e + 1] == '\n' then e + 2 else e + 1
  }

  /** `str.splitlines()`: no empty last line is produced. */
  function SplitLines(s: string): (lines: seq<string>)
    decreases |s|
  {
    if s == [] then []
    else
      var e := LineEnd(s, 0);
      if e == |s| then [s] else [s[..e]] + SplitLines(s[NextLineStart(s, e)..])
  }

  /** Dropping the boundary characters from `s` keeps its first line whole and drops the
      boundary after it. */
  lemma LineBoundaryStep(s: string)
    requires s != [] && LineEnd(s, 0) < |s|
    ensures Filter(s, NotLineBreak) == s[..LineEnd(s, 0)] + Filter(s[NextLineStart(s, LineEnd(s, 0))..], NotLineBreak)
  {
    var e := LineEnd(s, 0);
    var next := NextLineStart(s, e);
    FirstLineHasNoBreaks(s);
    BoundaryIsBreaks(s, e);
    SplitThree(s, e, next);
    LineStep(s[..e], s[e..next], s[next..]);
  }

  lemma FirstLineHasNoBreaks(s: string)
    ensures NoLineBreaks(s[..LineEnd(s, 0)])
  {
    var a := s[..LineEnd(s, 0)];
    forall k | 0 <= k < |a| ensures NotLineBreak(a[k]) { assert a[k] == s[k]; }
  }

  lemma BoundaryIsBreaks(s: string, e: nat)
    requires e < |s| && IsLineBreak(s[e])
    ensures OnlyLineBreaks(s[e..NextLineStart(s, e)])
  {
    var b := s[e..NextLineStart(s, e)];
    forall k | 0 <= k < |b| ensures !NotLineBreak(b[k]) { assert b[k] == s[e + k]; }
  }

  lemma SplitThree(s: string, i: nat, j: nat)
    requires i <= j <= |s|
    ensures s == s[..i] + (s[i..j] + s[j..])
  {
    assert s[i..j] + s[j..] == s[i..];
  }

  /** A line ends at the first boundary and the next one starts after it. */
  lemma SplitLinesStep(s: string)
    requires s != [] && LineEnd(s, 0) < |s|
    ensures SplitLines(s) == [s[..LineEnd(s, 0)]] + SplitLines(s[NextLineStart(s, LineEnd(s, 0))..])
    ensures SplitLines(s)[1..] == SplitLines(s[NextLineStart(s, LineEnd(s, 0))..])
  {
  }

  /** `LineEnd` from the start is the first boundary. */
  lemma LineEndIs(s: string, n: nat)
    requires n <= |s|
    requires forall k :: 0 <= k < n ==> !IsLineBreak(s[k])
    requires n < |s| ==> IsLineBreak(s[n])
    ensures LineEnd(s, 0) == n
  {
  }

  /** Text without a boundary is one line, and the empty text none. */
  lemma SplitLinesOfLine(a: string)
    requires NoLineBreaks(a)
    ensures SplitLines(a) == (if a == [] then [] else [a])
  {
    if a != [] {
      LineEndIs(a, |a|);
    }
  }

  /** A line is cut at its first boundary, which is one character unless it is `\r\n`. */
  lemma SplitLinesAtBreak(a: string, c: char, b: string)
    requires NoLineBreaks(a) && IsLineBreak(c)
    requires !(c == '\r' && |b| > 0 && b[0] == '\n')
    ensures SplitLines(a + [c] + b) == [a] + SplitLines(b)
  {
    var s := a + [c] + b;
    assert forall k :: 0 <= k < |a| ==> s[k] == a[k];
    assert s[|a|] == c;
    LineEndIs(s, |a|);
    assert NextLineStart(s, |a|) == |a| + 1;
    assert s[..|a|] == a;
    assert s[|a| + 1..] == b;
  }

  /** `\r\n` is a single boundary: no empty line appears between its two characters. */
  lemma SplitLinesAtCrLf(a: string, b: string)
    requires NoLineBreaks(a)
    ensures SplitLines(a + "\r\n" + b) == [a] + SplitLines(b)
  {
    var s := a + "\r\n" + b;
    assert forall k :: 0 <= k < |a| ==> s[k] == a[k];
    assert s[|a|] == '\r' && s[|a| + 1] == '\n';
    LineEndIs(s, |a|);
    assert NextLineStart(s, |a|) == |a| + 2;
    assert s[..|a|] == a;
    assert s[|a| + 2..] == b;
  }

  /** No line holds a boundary character. */
  lemma {:induction false} SplitLinesNoBreaks(s: string)
    ensures forall k :: 0 <= k < |SplitLines(s)| ==> NoLineBreaks(SplitLines(s)[k])
    decreases |s|
  {
    if s != [] && LineEnd(s, 0) < |s| {
      var c := s[NextLineStart(s, LineEnd(s, 0))..];
      SplitLinesStep(s);
      SplitLinesNoBreaks(c);
      forall k | 1 <= k < |SplitLines(s)| ensures NoLineBreaks(SplitLines(s)[k]) {
        assert SplitLines(s)[k] == SplitLines(c)[k - 1];
      }
    }
  }

  /** Together the lines are `s` without its boundary characters. */
  lemma {:induction false} SplitLinesConcat(s: string)
    ensures Concat(SplitLines(s)) == Filter(s, NotLineBreak)
    decreases |s|
  {
    if s != [] {
      var e := LineEnd(s, 0);
      if e == |s| {
        FilterAll(s, NotLineBreak);
        assert Concat([s]) == s + Concat([]);
      } else {
        var next := NextLineStart(s, e);
        SplitLinesConcat(s[next..]);
        LineBoundaryStep(s);
        SplitLinesStep(s);
        ConcatCons(s[..e], SplitLines(s[next..]));
      }
    }
  }

  predicate NoLineBreaks(line: string) {
    forall i :: 0 <= i < |line| ==> NotLineBreak(line[i])
  }

  predicate OnlyLineBreaks(s: string) {
    forall i :: 0 <= i < |s| ==> !NotLineBreak(s[i])
  }
}
